=== FILE: README.md ===
# Nawasons dairy: a Dafny model of the operational core

This project models the rules a dairy's back office runs on, from cow to
counter:

- milk **yields** are recorded into **collection windows** (morning,
  afternoon, evening) and gathered into intake **batches** that the lab
  opens, closes, tests and locks;
- **production batches** draw their milk oldest-first from a tank's
  approved yields, and the lab approves them with an expiry, a storage lot
  and a destination tank;
- **cold-storage lots** (cartons plus loose packets) are adjusted,
  aggregated per SKU, reconciled against the **inventory items**, and kept
  in step with them by a per-SKU sync and by a bulk sync command;
- **data-quality alerts** are raised by five rules and resolved when they
  no longer fire;
- on the commercial side: sales with their stock deductions and loyalty
  points, supplier orders and deliveries, seller transactions and their
  combined report, and the query-string template tag.

Units: decimals are integer hundredths (sale line sums are
ten-thousandths), rounding is half-to-even as Python's `Decimal` does it,
dates are day numbers, times of day are minutes past midnight, and an
instant is `date * 1440 + minutes`. The database is a set of immutable
maps and sequences; every operation is a pure function returning the new
state and a `Result`. The clock, the collection-window configuration (a
class-level cache in the source) and generated identifiers are
parameters.

A storage lot is modelled with its cartons, loose packets and optional
packaging, the fields `ColdStorageInventory` declares. That model has no
`quantity` and no `product` field, yet several callers use them (see
"## Left out"); as written those callers raise. The model gives them the
evident packet meaning instead: reads go through `Storage.LotQuantity` (the
lot's packets) and writes through `Storage.WithQuantity` (store that many
packets as full cartons and the remainder); `Storage.QuantityRoundTrip` ties
the two together.

Modules: `Base` (options, results, rounding, sums, instants), `Text`
(strip, integer parsing and printing, split and join), `CollectionWindows`,
`Intake`, `LabViews`, `LabApproval`, `Production`, `Inventory`,
`InventoryViews`, `Storage`, `StorageSync`, `DataQuality`, `Loyalty`,
`Sales`, `Suppliers`, `Sellers`, `QueryString`.

## Model

| member | source | states |
|---|---|---|
| Base.RoundHalfEven | customers/models.py:56 | The result is the nearest integer to n/d, and on an exact tie the even one (Python's `quantize` with its default rounding). |
| CollectionWindows.DefaultKeysAreSessionKeys | lab/models.py:21-27 | The keys of the default windows are exactly the session choices a yield may carry. |
| CollectionWindows.Merge | lab/models.py:123-135 | Every default window keeps its key, its default span and its place in the list; its live span is the override for its key when there is one, and it counts as overridden exactly then. |
| CollectionWindows.GetWindows | lab/models.py:112-139 | A cached list is returned as is unless a refresh is forced; otherwise the defaults merged with the stored overrides; whatever is returned becomes the cache. |
| CollectionWindows.SaveOverride | lab/models.py:287-289 | After a save the key holds the new span, every other key keeps its presence and span, and the cache is empty. |
| CollectionWindows.DeleteOverride | lab/models.py:291-294 | After a delete the key is absent, every other key keeps its presence and span, and the cache is empty. |
| CollectionWindows.SavedOverrideIsSeen | lab/models.py:108-139 | After a save the next lookup, without a forced refresh, shows the new span and marks the window as overridden. |
| CollectionWindows.DeletedOverrideIsSeen | lab/models.py:108-139 | After a delete the next lookup shows the default span again, not overridden. |
| CollectionWindows.WindowFor | lab/models.py:142-148 | None exactly for an empty key or a key no window has; otherwise a window of the list carrying that key. |
| CollectionWindows.InWindowIsClockwise | lab/models.py:166-170 | A time lies in a window iff its clockwise distance from the start is shorter than the window's clockwise length, so a window with end before start runs past midnight. |
| CollectionWindows.ResolveSession | lab/models.py:157-172 | None exactly when no window contains the time; otherwise the key of the first window in list order that contains it. |
| CollectionWindows.DefaultResolution | lab/models.py:21-25 | With no overrides: before 06:00 is morning, 12:00-15:00 afternoon, 16:00-19:00 evening, and any other time has no session. |
| CollectionWindows.SpanBounds | lab/models.py:186-198 | The bounds are at most a day apart; for a non-wrapping window they are that day's start and end; for any window with distinct ends the measurement is inside the bounds iff its time of day is inside the window. |
| CollectionWindows.WindowBounds | lab/models.py:175-198 | None exactly for an empty or unknown session; otherwise start before end, built from that session's window around the measurement's date. |
| CollectionWindows.ResolvedSessionBoundsContainMeasurement | lab/models.py:157-198 | The window bounds of the session resolved for a measurement always contain the measurement, including across midnight. |
| CollectionWindows.EffectiveKeysDistinct | lab/models.py:112-139 | Whatever overrides are stored, the effective list has the three session keys, each once and none empty. |
| CollectionWindows.CleanWindowForm | lab/forms.py:204-210 | A window is accepted iff its start differs from its end. |
| CollectionWindows.SubmitWindow | lab/views.py:362-380 | Submitting one session's row empties the cache and leaves every other session's override as it was. |
| CollectionWindows.SubmittedWindowTakesEffect | lab/views.py:362-380 | After submitting a span, the session's effective window is that span, and it counts as overridden iff the span differs from the default. |
| Intake.QualityScore | lab/models.py:45-49 | Premium scores 98, low 70, and standard or any unknown grade 85. |
| Intake.TankCapacity | lab/models.py:31-37 | Exactly the five listed tanks have a capacity; none is negative, and only "Unassigned" has none at all (0). |
| Intake.StorageLevel | lab/models.py:200-211 | 0 for a tank with no or zero capacity; never above 100; a full or overfull tank shows 100; below 100 it is the nearest whole percentage. |
| Intake.StorageLevelMonotone | lab/models.py:200-211 | More milk in a tank never shows a lower level. |
| Intake.OpenBatch | lab/models.py:357-367 | Refused iff the batch is locked; otherwise it is open and its closing time and user are cleared. |
| Intake.CloseBatch | lab/models.py:369-380 | Refused iff the batch is locked; otherwise it is closed at the given time. |
| Intake.LockBatch | lab/models.py:382-385 | Always locked, with its members, session and date kept. |
| Intake.LockIdempotent | lab/models.py:382-385 | Locking twice is locking once. |
| Intake.LockedIsTerminal | lab/models.py:357-385 | From a locked batch, any run of open, close and lock requests leaves it unchanged. |
| Intake.LatestBatch | lab/models.py:388-400 | None iff no batch has the session and date; otherwise a batch that does. |
| Intake.ForSession | lab/models.py:388-400 | The latest matching batch when there is one; otherwise a new open batch appended under the next id. |
| Intake.EnsureYieldAssignment | lab/models.py:410-422 | No change for a yield without a session; refused iff the latest batch of its session and day is closed; when that batch is open the yield is added to exactly it and nothing else changes; when there is none or it is locked, one new open batch holding only the yield is appended under the next id. |
| Intake.DeleteYield | lab/models.py:253-258 | The yield leaves the table and every batch; nothing else changes. |
| Intake.SessionForSave | lab/models.py:230-246 | The window containing the recording time decides the session; outside every window the requested session is used only when it is given and still available, else the save is refused. |
| Intake.SessionForSaveNotEmpty | lab/models.py:230-246 | A session chosen for a save is never empty. |
| Intake.SaveYieldPreservesValid | lab/models.py:225-258 | Saving a yield keeps the intake database valid: in particular no yield is ever left outside a batch, even when the batch refuses it. |
| Intake.SaveYield | lab/models.py:225-258 | A save that succeeds returns the yield's id (the given one, else the next) with the yield stored; a refusal before writing leaves the database unchanged; a refusal by a closed batch leaves no yield under that id. |
| Intake.RefusedNewYieldLeavesNoTrace | lab/models.py:253-258 | A refused save of a new yield leaves the table of yields as it was. |
| Intake.SavedYieldIsInOpenBatch | lab/models.py:225-258 | A successful save records the total, the score and the tank level (the day's other litres in the tank plus these, against its capacity) and puts the yield in an open batch of its session and day. |
| Intake.UnavailableSessionRefused | lab/models.py:214-246 | Outside every window, a requested session whose latest batch is closed or locked is refused and nothing is written. |
| Intake.ApproveTest | lab/models.py:447-451 | The test is approved and the batch locked with its members. |
| Intake.RejectTest | lab/models.py:453-462 | The test is rejected; a non-empty reason replaces the contaminants note, a missing or empty one keeps it; no other field of the test changes; the batch is locked. |
| LabViews.SessionToggle | lab/views.py:427-457 | An unknown session key changes nothing. Otherwise the session's batch is found or created, and yields never change. An "open" or "close" request is refused iff the batch is locked; the refusal is reported rather than raised, and the batch is left as it was. Any other action is reported as unknown, leaving only the found or created batch. |
| LabViews.CurrentTank | lab/views.py:492-498 | Non-empty iff the batch's yields sit in exactly one real tank (not blank, not "Unassigned"), and then it is that tank. |
| LabViews.RetankMembers | lab/views.py:506-509 | Exactly the batch's yields move to the chosen tank. |
| LabViews.RetankedBatchHasThatTank | lab/views.py:492-509 | After retanking into a real tank, a batch holding any yield reports that tank as its current tank. |
| LabViews.RecordTest | lab/views.py:511-521 | The test is stored; an approval or rejection locks the batch, a pending result leaves its state; no other batch and no yield changes. |
| LabViews.RetankAndRecord | lab/views.py:506-521 | With a certified tank, every yield of a batch that holds any ends in that tank, the test is stored, and the batch is locked exactly when the verdict is not pending. |
| LabViews.QuickTest | lab/views.py:468-523 | A tested or locked batch is refused untouched; an open batch is closed first, so it is never left open; a recorded verdict stores the test, locks the batch iff it is not pending, and leaves the batch's yields in the chosen tank. |
| LabViews.TestRun | lab/views.py:811-873 | A batch with no test that is not closed is refused untouched; an invalid tank changes nothing; only a recorded test changes batches, locking the batch for a verdict and keeping its state for a pending result. |
| LabViews.VerdictLocks | lab/views.py:511-521 | On either screen, an approval or rejection leaves a closed batch locked and a pending result leaves it closed. |
| LabViews.BatchEdit | lab/views.py:660-706 | The edit as intended, the posted state asking for a transition: delete removes exactly that batch; otherwise session and date are saved with the members kept, no transition is asked for when the state is already the desired one, the edit is refused iff a locked batch is asked to leave the locked state, and a success reaches the desired state. |
| LabViews.BatchEditAsWritten | lab/views.py:670-695 | The edit as written: delete removes exactly that batch; otherwise session and date are saved, the state and every other batch are kept, and the outcome is always a success. |
| LabViews.PostedStateIgnoredAsWritten | lab/views.py:670-693 | A locked batch posted open is reported updated and stays locked where the intended edit refuses; a closed batch posted locked stays closed where the intended edit locks it. |
| LabViews.CollectionRowStatus | lab/views.py:137-149 | A row fails iff recorded outside its window or graded low, and passes iff inside and premium. |
| LabViews.ResolvedYieldShownInWindow | lab/views.py:137-149 | A saved yield whose session came from the window it was recorded in is shown as collected inside its window. |
| LabApproval.DesiredStatus | lab/models.py:514-521 | Ready for store iff approved with an expiry, lab approved iff approved without one, pending the lab otherwise. |
| LabApproval.SyncBatchState | lab/models.py:507-533 | The batch takes the desired status and is marked moved to the lab; a save is needed iff either was not already so. |
| LabApproval.SyncBatchStateIdempotent | lab/models.py:507-533 | Syncing an already synced batch saves nothing. |
| LabApproval.SaveApproval | lab/models.py:502-505 | Only the approval's own batch changes, and it follows the approval. |
| LabApproval.SetExpiry | lab/models.py:498-500 | The expiry becomes today plus the shelf life; nothing else changes. |
| LabApproval.ApprovedWithExpiryIsReady | lab/models.py:498-533 | An approval given an expiry makes its batch ready for store. |
| LabApproval.ShelfLifeDays | lab/services.py:3-11 | Every shelf life is positive; ghee keeps 180 days; a SKU outside the table gets 7. |
| LabApproval.ComputeExpiry | lab/services.py:13-16 | The expiry is the start (today by default) plus the SKU's shelf life, so always after the start. |
| LabApproval.ShelfLifeTable | lab/services.py:3-11 | The table's entries for mala, yogurt, both ESL flavours and ATM, and the default start of today. |
| LabApproval.ActiveTanks | lab/forms.py:11-15 | The active tanks are exactly Tank A, B, C and the spoilt tank, never "Unassigned". |
| LabApproval.CleanFields | lab/forms.py:38-56 | A surviving shelf life is within 1 to 365 days, a surviving quantity at least 0.01, a surviving tank an active one. |
| LabApproval.ApprovalErrors | lab/forms.py:100-119 | Each field error appears iff its check fails; a rejection never needs location, quantity, expiry or tank; an approval needs each, the quantity falling back to the existing lot. |
| LabApproval.AcceptedApprovalIsComplete | lab/forms.py:100-119 | An accepted approval has a location, a quantity, an active tank and an expiry or an in-range shelf life. |
| LabApproval.SaveStorageAssignment | lab/forms.py:131-167 | Nothing unless approved with a location; otherwise the batch's lot holds the location, the expiry (or the production date), the status (or in storage) and the quantity (or the batch's production); an existing lot is replaced at its own position under its own id with every other lot unchanged, or else a new lot is appended. |
| LabApproval.AssignmentKeepsOneLotPerBatch | lab/forms.py:145-167 | A batch with at most one lot has exactly one after an assignment. |
| LabApproval.SyncDestinationTank | lab/forms.py:121-129 | Nothing without a batch or a tank; otherwise the batch's source tank becomes the chosen one. |
| LabApproval.ApproveBatch | lab/views.py:26-57 | Refused exactly with the form's errors; otherwise the approval names the batch and its result, and the batch takes the status the approval calls for. |
| LabApproval.AcceptedApprovalStoresBatch | lab/views.py:26-57 | An accepted approval makes the batch ready for store, stores a lot for it at the chosen location and puts it in the chosen active tank. |
| LabApproval.RejectionStoresNothing | lab/views.py:26-57 | A rejection sends the batch back to pending the lab and leaves storage unchanged. |
| LabApproval.LabRowStatus | lab/views.py:173-179 | A lab row passes iff approved and fails iff rejected. |
| LabApproval.ProductionRowStatus | lab/views.py:218-229 | A production row fails iff rejected and passes iff approved with an expiry. |
| LabApproval.ProductionRowAgreesWithStatus | lab/views.py:218-229 | A production row passes iff its synced batch is ready for store. |
| LabApproval.StockRowStatus | lab/views.py:263-268 | A stock row fails iff expired, waits iff near expiry but not expired, and passes otherwise. |
| Production.ProductDisplay | production/models.py:121-128 | Each product type shows its label; an unknown stored value shows itself. |
| Production.EligibleIds | production/models.py:151-154 | Exactly the yields in the source tank graded premium or standard, each once; `Production.EligibleIdsKeepOrder` states the recording order. |
| Production.EligibleIdsKeepOrder | production/models.py:151-154 | Of any two consumable yields listed, the earlier one was recorded first (`order_by('recorded_at')`). |
| Production.DeductionsClosedForm | production/models.py:164-172 | The loop takes from each yield the smaller of what it holds and what is still needed after the older ones. |
| Production.DeductionsTakeExactly | production/models.py:164-172 | With enough milk, the deductions add up to exactly the litres used, and no yield gives more than it holds or less than nothing. |
| Production.ConsumeMilk | production/models.py:146-175 | Refused iff nothing is to be used or the tank's consumable milk is short, and then nothing changes; otherwise the same yields remain. How much each yield gives is stated by `Production.ConsumeMilkOldestFirst`. |
| Production.ConsumeMilkOldestFirst | production/models.py:151-172 | On success the i-th consumable yield, oldest first, loses what is still needed after the older ones, capped by what it holds: its litres less min(max(0, needed - litres of the older ones), its litres). |
| Production.DrawnInOrder | production/models.py:164-172 | Drawing from distinct yields in a given order, each loses the need left after the ones before it, capped by what it holds. |
| Production.ConsumeMilkTakesExactly | production/models.py:156-172 | On success the consumable yields hold exactly the litres used less than before. |
| Production.ConsumeMilkOnlyDrawsDown | production/models.py:151-172 | On success each yield keeps between 0 and what it had, only its litres change, and yields production may not draw on are untouched. |
| Production.CreateBatch | production/views.py:341-353 | The batch is stored, moved to the lab and pending the lab, iff its milk could be consumed; on a refusal neither yields nor batches change. |
| Production.ResaveYield | lab/models.py:225-258 | Re-saving a stored yield writes its row, or, when its batch is closed, deletes it. |
| Production.ConsumeAsWrittenDeletesYield | production/models.py:164-172 | Consuming 5 L from a 10 L yield whose morning batch is closed deletes the yield and fails half-way as written, while the plain deduction leaves 5 L in it. |
| Production.ConsumeMilkAsWritten | production/models.py:146-175 | `consume_milk` as written, each yield saved through the model's save; its contract is `Production.ConsumeAsWrittenDeletesYield`. |
| Production.DeductAsWritten | production/models.py:164-172 | The deduction loop as written, stopping at the first refused save; its contract is `Production.ConsumeAsWrittenDeletesYield`. |
| Production.LitresForQuantity | production/forms.py:167-169 | The litres are quantity times packet size over 1000, to the nearest hundredth. |
| Production.QuantityForLitres | production/forms.py:170-172 | The quantity is litres times 1000 over packet size, to the nearest hundredth. |
| Production.CleanProductionForm | production/forms.py:127-181 | The form as its help text intends, either amount left blank: an accepted form has a known, sized SKU; one given amount yields the other by conversion; two given amounts are kept. |
| Production.ProductionFormAcceptedIff | production/forms.py:127-181 | For the intended form: accepted iff some amount is positive, none given is non-positive, the SKU is known and sized, and two given amounts agree within 0.05 L; with nothing positive that is the only error. |
| Production.CleanProductionFormAsWritten | production/models.py:133-134 | The form as declared: a blank quantity, litres or SKU each carries its own required-field error. |
| Production.ProductionFormAsWrittenNeedsBoth | production/forms.py:130-181 | As declared, the form is accepted iff both amounts are given and positive, the SKU is known and sized, and the amounts agree; an accepted form keeps both as posted, so nothing is ever derived. |
| Production.SingleAmountRefusedAsWritten | production/forms.py:127-128 | Five units of a 500 ml SKU with litres blank: the declared form refuses with only the missing-litres error, the intended form accepts and derives 2.50 L. |
| Production.CleanYieldForm | production/forms.py:44-65 | Editing keeps the session; a new yield takes the window open now, else a requested session that is still available, else is refused. |
| Production.FormAcceptedSessionSaves | production/forms.py:44-65 | A new yield the form accepts passes the save's own session check at the same moment. |
| Production.GradeForAction | production/views.py:237-245 | Approve grades premium, reject grades low, any other action keeps the grade. |
| Production.RejectedNotConsumable | production/views.py:242-243 | A rejected yield is never drawn on by production. |
| Production.ApproveYield | production/views.py:237-245 | A successful approval stores the grade the action calls for. |
| Inventory.ExpiredIsNearExpiry | inventory/models.py:52-60 | An expired item is also near expiry. |
| Inventory.StockPercentage | inventory/models.py:62-67 | 0 for a threshold that is not positive; otherwise stock over threshold as a percentage, within half a tenth of a percent. |
| Inventory.AtThresholdIsHundredPercent | inventory/models.py:62-67 | Stock exactly at the threshold shows 100.0 percent. |
| Inventory.Consume | inventory/models.py:69-76 | Accepted iff the amount is at most the stock and the item is not expired; then the stock drops by exactly the amount and stays non-negative. |
| Inventory.Apply | inventory/models.py:97-111 | Refused iff restocking an expired item or dispatching more than the stock; otherwise the quantity is added and the item marked restocked today. |
| Inventory.ConsumeAgreesWithDispatch | inventory/models.py:69-111 | Consuming an amount and dispatching it agree on acceptance and on the new stock. |
| Inventory.RestockThenDispatch | inventory/models.py:97-111 | A restock followed by a dispatch of the same amount restores a non-negative stock. |
| InventoryViews.FilterItems | inventory/views.py:38-44 | An item is listed iff it passes the chosen stock filter; any other filter value lists everything. |
| InventoryViews.FiltersPartition | inventory/views.py:38-44 | With a non-negative threshold every item is in exactly one of low, out and in stock. |
| InventoryViews.NegativeThresholdOverlaps | inventory/views.py:38-44 | With a negative threshold an empty item is both out of stock and in stock. |
| InventoryViews.SqlSumIsBatchUnits | inventory/views.py:75-91 | When all a batch's lots are packaged, the database sum is its packets, and missing iff it has no lot. |
| InventoryViews.UnpackagedLotIgnored | inventory/views.py:75-91 | A lot without packaging adds nothing to the database sum though it holds packets. |
| InventoryViews.StorageQuantities | inventory/views.py:75-91 | A listed batch has a storage quantity iff its sum exists, and it is that sum in hundredths. |
| InventoryViews.Overlay | inventory/views.py:93-105 | Storage's quantity is shown iff the item's batch has one; a mismatch iff that quantity differs from the stock; negative iff the stock is below zero. |
| InventoryViews.MismatchShowsStorage | inventory/views.py:93-105 | A flagged mismatch always shows a storage quantity different from the stock; without one the stock is shown. |
| InventoryViews.DashboardShowsStoredPackets | inventory/views.py:75-105 | An item whose batch has packaged lots shows their packets; any other item shows its own stock. |
| Storage.TotalUnits | storage/models.py:134-145 | A lot's packets: cartons times packets per carton plus loose packets with a usable packaging, loose packets alone otherwise. |
| Storage.ExpiredTotalUnits | storage/models.py:14-15 | Cartons times packets per carton plus loose packets; its partner `Storage.MoveToExpired` states that the expired copy holds exactly the lot's packets. |
| Storage.StatusForExpiry | storage/services.py:14-20 | Expired before today, near expiry up to three days ahead, in storage after that. |
| Storage.UpdateStatus | storage/models.py:124-132 | The lot takes the status its expiry calls for today; nothing else changes. |
| Storage.StatusWorsensOverTime | production/models.py:217-225 | As days pass a lot's status only moves from in storage to near expiry to expired. |
| Storage.MoveToExpired | storage/models.py:17-32 | Refused without a packaging; otherwise the expired copy holds the lot's cartons, loose packets, expiry and location, and the lot is emptied and marked expired, so no packet is lost. |
| Storage.QuantityRoundTrip | storage/services.py:60-70 | Storing a number of packets and reading the lot's packets back gives that number, with fewer loose packets than a carton holds. |
| Storage.LotQuantity | storage/services.py:47-52 | The lot's packets, read where code expects a flat quantity; its partner `Storage.QuantityRoundTrip` states that it reads back what `WithQuantity` stored. |
| Storage.WithQuantity | storage/services.py:59-68 | Only cartons and loose packets change; with a usable packaging fewer loose packets than a carton remain, otherwise no cartons. |
| Storage.FindLot | storage/services.py:44-45 | None iff no lot holds the batch; otherwise the first lot that does. |
| Storage.Adjust | storage/services.py:23-75 | Nothing changes iff there is no batch, no delta or no lot; otherwise the lot is deleted when the truncated new total is not positive, or holds exactly that total with fewer loose packets than a carton and its status recomputed, and no other lot changes. |
| Storage.AggregateBySku | storage/services.py:84-98 | A SKU is in the totals iff some lot of a known batch has it, and its total is the packets of all those lots. |
| Storage.Reconcile | storage/services.py:101-149 | The missing links are exactly the items without a batch, in order; every mismatch comes from an item that has a batch; empty lots are listed in both modes and deleted only outside a dry run; mismatches are never corrected. |
| Storage.MissingLinks | storage/services.py:114-120 | Every item without a batch is listed by SKU and name, and nothing else is. |
| Storage.ReconcileFlagsExactly | storage/services.py:121-130 | An item is reported as a mismatch iff its stock and its SKU's packets in storage differ by more than 0.01, a SKU absent from storage counting 0. |
| StorageSync.EarliestExpiry | storage/signals.py:27-33 | None iff the SKU has no lot; otherwise the smallest expiry among its lots. |
| StorageSync.LatestRestocked | storage/signals.py:36-49 | None iff the SKU has no lot; otherwise the most recently restocked of its lots. |
| StorageSync.CreatedKeepsLedgerBalanced | storage/signals.py:53-75 | Creating an item with its opening transaction keeps every item's stock equal to its transactions' sum. |
| StorageSync.UpdatedKeepsLedgerBalanced | storage/signals.py:77-96 | Changing an item's stock and logging the difference keeps every item's stock equal to its transactions' sum. |
| StorageSync.SyncSetsStock | storage/signals.py:14-96 | After a sync the SKU's item holds exactly the packets of its lots, a change is logged iff the stock moved, an item is created iff there is stock from a known batch, and no other item changes. |
| StorageSync.SyncKeepsLedgerBalanced | storage/signals.py:14-96 | A sync keeps every item's stock equal to its transactions' sum. |
| StorageSync.SyncSku | storage/signals.py:14-96 | No SKU, no change; otherwise the SKU's item, if any, holds the packets of its lots, a change is logged iff the stock moved, and no other item changes. |
| StorageSync.LatestProduced | storage/management/commands/sync_inventory_from_storage.py:53-65 | None iff no batch has the SKU; otherwise the most recently produced one. |
| StorageSync.StoredSkus | storage/management/commands/sync_inventory_from_storage.py:41-50 | Exactly the non-empty SKUs with lots in storage, each once. |
| StorageSync.StorageEntries | storage/management/commands/sync_inventory_from_storage.py:41-65 | One entry per stored SKU, holding the packets of all its lots in hundredths. |
| StorageSync.Plan | storage/management/commands/sync_inventory_from_storage.py:70-96 | Creates are only for stored SKUs without an item and updates only for SKUs with one. |
| StorageSync.PlanCovers | storage/management/commands/sync_inventory_from_storage.py:70-96 | Every stored SKU without an item is created, and an update is planned for an item iff its stock or batch differ from storage. |
| StorageSync.SkippedNotPlanned | storage/management/commands/sync_inventory_from_storage.py:84-88 | An item already at storage's stock and batch gets no update. |
| StorageSync.PlanUpdatesCarryEntry | storage/management/commands/sync_inventory_from_storage.py:84-96 | Each planned update carries its entry's quantity. |
| StorageSync.ApplyUpdate | storage/management/commands/sync_inventory_from_storage.py:140-155 | The update sets the item's stock, overwrites the expiry only when storage has one, and leaves other items alone. |
| StorageSync.RunSync | storage/management/commands/sync_inventory_from_storage.py:114-116 | A dry run writes nothing. |
| StorageSync.RunSyncKeepsLedgerBalanced | storage/management/commands/sync_inventory_from_storage.py:119-155 | Applying the plan keeps every item's stock equal to its transactions' sum. |
| StorageSync.RunSyncMatchesStorage | storage/management/commands/sync_inventory_from_storage.py:119-155 | After applying the plan each stored SKU has an item holding the storage quantity, and items of other SKUs are unchanged. |
| StorageSync.SyncCommandMatchesStorage | storage/management/commands/sync_inventory_from_storage.py:26-157 | The command run for real leaves every SKU with lots holding, as its item's stock, the packets of all its lots. |
| DataQuality.Snapshot | core/services/data_quality.py:221-233 | A batch is in the snapshot iff it is a real batch with lots; its quantity is their sum and its expiry the earliest of theirs. |
| DataQuality.EarliestExpiry | core/services/data_quality.py:221-233 | None iff the batch has no lot; otherwise the smallest expiry among its lots. |
| DataQuality.NoLotsNoQuantity | core/services/data_quality.py:221-233 | A batch without lots has no quantity. |
| DataQuality.CodeInjective | core/services/data_quality.py:38-177 | Alert codes name one rule and one record each. |
| DataQuality.CheckNegative | core/services/data_quality.py:38-60 | An alert is raised exactly for the items whose effective stock is below zero. |
| DataQuality.CheckExpired | core/services/data_quality.py:63-90 | An alert is raised exactly for the items with stock whose effective expiry is before today. |
| DataQuality.SaleDelta | core/services/data_quality.py:93-114 | The distance between a sale's total and its lines' sum, to the nearest hundredth. |
| DataQuality.CheckSales | core/services/data_quality.py:93-114 | An alert is raised exactly for the sales whose rounded distance exceeds 1.00. |
| DataQuality.SalesMismatchBounds | core/services/data_quality.py:93-114 | A consistent sale raises nothing; a sale off by more than 1.005 always raises, one off by less never does. |
| DataQuality.CheckCapacity | core/services/data_quality.py:117-136 | An alert is raised exactly for locations with a capacity that hold more than it. |
| DataQuality.LotRulesDisjoint | core/services/data_quality.py:139-177 | The expired and near-expiry lot rules never both fire and agree with the lot status rule. |
| DataQuality.CheckLotExpiry | core/services/data_quality.py:139-177 | An alert is raised exactly for lots that are expired or near expiry. |
| DataQuality.Upsert | core/services/data_quality.py:180-209 | The code's alert takes the finding's fields and is open; a known one keeps its detection time, and a resolved one is reopened as not auto-resolved; other alerts are untouched. |
| DataQuality.ResolveInactive | core/services/data_quality.py:212-218 | Every open alert not raised now is resolved automatically; all others are untouched. |
| DataQuality.RunChecksOpenExactlyRaised | core/services/data_quality.py:23-35 | After a run the open alerts are exactly those raised, and alerts already resolved and not raised stay as they were. |
| DataQuality.RunChecks | core/services/data_quality.py:23-35 | One run: every finding upserted, then the open alerts not raised resolved; its contract is `DataQuality.RunChecksOpenExactlyRaised`. |
| DataQuality.NegativeAlertIff | core/services/data_quality.py:38-60 | A run raises an item's negative-stock code iff its effective stock is below zero. |
| Loyalty.BestTier | customers/models.py:57-61 | None iff no tier is eligible; otherwise an eligible tier with the largest lower bound, the first of equals. |
| Loyalty.PointsForAmount | customers/models.py:54-62 | No points without an eligible tier for the rounded amount; otherwise the points of an eligible tier whose min_spend is the largest among the eligible ones. |
| Loyalty.SeedTiersAreSteps | customers/migrations/0006_loyaltytier_seed.py:8-15 | With the seeded tiers the points are a step function of the rounded amount, a shared bound going to the higher tier. |
| Loyalty.SeedBoundaries | customers/migrations/0006_loyaltytier_seed.py:8-15 | 25.00 and 24.995 earn Bronze's 10 points, 24.99 and 0 Starter's 5, a negative amount none. |
| Loyalty.SeedPointsMonotone | customers/models.py:54-62 | With the seeded tiers, spending more never earns fewer points. |
| Loyalty.AdjustPoints | customers/views.py:58 | The balance moves by exactly the adjustment unless that would go below zero, and then it is zero. |
| Loyalty.AdjustUndo | customers/views.py:58 | An adjustment that stays non-negative is undone by its opposite. |
| Loyalty.ExportLines | customers/views.py:66-73 | Split at line breaks, the export is the header followed by one row per entry, as long as no field holds a line break. |
| Loyalty.ExportStartsWithHeader | customers/views.py:68-71 | The export's first line is always the header. |
| Loyalty.ExportCsv | customers/views.py:66-73 | The header and one line per entry joined by line breaks; its contract is `Loyalty.ExportLines` and `Loyalty.ExportStartsWithHeader`. |
| Sales.UnitPrice | sales/views.py:29-37 | The item's product price when it has one, its default price otherwise; `Sales.SavedPriceIsCharged` ties it to a saved price. |
| Sales.SavePrice | production/models.py:69-83 | SKU and name are refreshed from the item; a change is logged iff someone is recorded and the price is new or moved. |
| Sales.ResaveLogsNothing | production/models.py:69-83 | Saving again without changing the price logs nothing. |
| Sales.SavedPriceIsCharged | sales/views.py:29-37 | After a price record is saved for an item, the counter charges exactly the saved price for it. |
| Sales.SavePriceLeavesOthers | sales/views.py:29-37 | Saving one item's price record leaves the price charged for every other item unchanged; an item without a record is still charged its default price. |
| Sales.Postings | sales/views.py:45-58 | One posting per filled line, each priced by its item; for every item the postings take exactly what the filled lines ask of it, and their total is the lines' value at the shop's prices. |
| Sales.Deduct | sales/views.py:45-58 | Each item loses exactly the quantities of all its lines, with no availability check; no item appears or disappears. |
| Sales.DeductAsWritten | sales/views.py:45-58 | The view's deduction keeps the same items. |
| Sales.AsWrittenLastLineWins | sales/views.py:45-58 | As written, an item ends at its loaded stock less its last line's quantity alone. |
| Sales.DuplicateLineLosesDeduction | sales/views.py:45-58 | Two lines of 1.00 and 2.00 for a stock of 10.00 leave 8.00 as written and 7.00 as intended. |
| Sales.Credited | sales/views.py:61-71 | A non-zero total that earns points adds exactly those points and books a credit with the new balance; otherwise the customer is unchanged. |
| Sales.PostSale | sales/views.py:39-73 | Refused iff the customer is unknown or a filled line lacks an item or quantity; otherwise each item loses exactly what the filled lines ask of it, one posting per filled line, and the stored total is the lines' value at the shop's prices to the nearest hundredth. |
| Sales.PostSaleCreditsCustomer | sales/views.py:61-71 | Only the sale's customer changes, by exactly the points earned, with the ledger's last balance equal to the new balance. |
| Sales.PostedSaleIsConsistent | sales/views.py:59-60 | A posted sale never trips the sales-total data-quality rule. |
| Suppliers.PostedQuantity | suppliers/views.py:103-108 | The stripped text's integer value, or 0 when it is not an integer. |
| Suppliers.PlaceOrder | suppliers/views.py:98-135 | Refused iff the quantity is not a positive integer (checked first) or the delivery date is blank; otherwise a pending order for that quantity and date. |
| Suppliers.PaddedNumberAccepted | suppliers/views.py:103-114 | Any positive number, padded with spaces or not, is accepted as the quantity. |
| Suppliers.NegativeRefused | suppliers/views.py:103-114 | A negative quantity is refused. |
| Suppliers.BlankRefused | suppliers/views.py:103-114 | A blank or missing quantity is refused. |
| Suppliers.DefaultQuantity | suppliers/views.py:137-142 | The reorder quantity, else the reorder threshold, else one unit; never zero. |
| Suppliers.DefaultDelivery | suppliers/views.py:137-142 | None iff there is no supplier; otherwise today plus the first supplier's lead time, 7 days when that is 0. |
| Suppliers.DefaultsPostedBack | suppliers/views.py:98-142 | The form's default quantity, posted back as whole-unit text with a delivery date, places the order iff it is positive, for that many units; with no supplier there is no default date and the order is refused for the missing delivery. |
| Suppliers.DecimalDefaultRefused | suppliers/views.py:102-114 | A quantity posted as digits with two decimal places is refused as no positive quantity, since `int()` does not read it. |
| Suppliers.DeleteSupplier | suppliers/views.py:51-61 | Refused iff the supplier has orders; otherwise exactly that supplier is removed. |
| Suppliers.DeleteKeepsOrdersLinked | suppliers/views.py:56-60 | Deleting a supplier never leaves an order without its supplier. |
| Suppliers.SetStatusAsWritten | suppliers/views.py:163-172 | As written, every post of "delivered" adds the order's quantity to the item. |
| Suppliers.RedeliveryRestocksTwice | suppliers/views.py:168-170 | Posting "delivered" twice restocks the item twice. |
| Suppliers.SetStatus | suppliers/views.py:163-172 | The item is restocked by the order's quantity only when the order turns from pending to delivered; nothing else of it changes. |
| Suppliers.SetStatusIdempotent | suppliers/views.py:163-172 | Posting the same status again changes nothing. |
| Suppliers.FirstDeliveryAgrees | suppliers/views.py:163-172 | On a first delivery the corrected and the written behaviour agree. |
| Sellers.Serve | sellers/views.py:30-39 | The product loses exactly the transaction's quantity; no other item changes. |
| Sellers.ServeAllTakesTotal | sellers/views.py:36-38 | A run of transactions takes their total quantity from each product, none lost. |
| Sellers.AddSales | sellers/views.py:87-91 | Exactly the named products are in the report, each with its sales and no seller quantity. |
| Sellers.AddSellers | sellers/views.py:92-99 | A product named by sellers gets its seller quantity, keeping its sales or 0; a new name is added; others are untouched. |
| Sellers.ReportDistinct | sellers/views.py:79-106 | Each product appears in the report at most once. |
| Sellers.ReportProducts | sellers/views.py:79-106 | The report's products are exactly the non-empty names either side gives. |
| Sellers.ReportTotals | sellers/views.py:79-106 | Each row carries both sides' totals, 0 for a side that does not name the product. |
| Sellers.CombinedReport | sellers/views.py:79-106 | One row per product seen; its contract is `Sellers.ReportDistinct`, `Sellers.ReportProducts` and `Sellers.ReportTotals`. |
| QueryString.Lookup | core/templatetags/querystring.py:18-22 | None iff no parameter has the key; otherwise that parameter's values. |
| QueryString.RemoveLookup | core/templatetags/querystring.py:23-28 | After a removal the key has no values and every other key keeps its own. |
| QueryString.SetLookup | core/templatetags/querystring.py:23-28 | After a set the key has exactly the new value and every other key keeps its own. |
| QueryString.ApplyOverrides | core/templatetags/querystring.py:18-28 | The overrides keep the query well formed: each key once, each with a value. |
| QueryString.ApplyOverridesEffect | core/templatetags/querystring.py:18-28 | A key not overridden keeps its values; every overridden key ends as its last override leaves it: gone for an empty value, the shown value otherwise. |
| QueryString.UrlWithQueryShape | core/templatetags/querystring.py:29-30 | The link is empty iff no parameter is left, and otherwise "?" followed by the encoded query. |
| QueryString.UrlWithQuery | core/templatetags/querystring.py:18-30 | The request's query with the overrides applied and encoded; its contract is `QueryString.UrlWithQueryShape` and `QueryString.ApplyOverridesEffect`. |
| QueryString.IsEmptyIffBlank | core/templatetags/querystring.py:7-12 | A value is empty iff it is None or a string of spaces only. |

## Left out

- Time zones: the local date and time of day of a measurement are inputs; zone lookup and conversion are not modelled.
- The window cache is an explicit value passed in and returned, not class state.
- Messages, labels shown to users, HTML templates, PDF and Excel exports are not modelled; outcomes are datatypes.
- ORM query chains are replaced by functions over maps and sequences with the same result. Where the database orders rows, ties are broken by list position.
- Authentication, permissions and roles are not modelled.
- Concurrency: transactions and row locks are not modelled; each operation is one atomic step.
- Floating-point code (`convert_milk`, tank and location fill percentages shown on dashboards) is not modelled.
- Signal handlers in `lab/signals.py` and `inventory/signals.py` name classes and fields that do not exist and are not modelled.
- The duplicate lot model in `production/models.py` contributes only its status rule, which is the storage lot's rule (`Storage.StatusForExpiry`).
- The lot-save signal is not composed into `LabApproval.ApproveBatch`; `StorageSync.SyncSku` models it on its own.
- Suppliers.PostedQuantity: digit-group underscores ("1_000") and non-ASCII decimal digits, both of which Python's `int()` accepts, read here as text that is not an integer.
- Storage lot `quantity` and `product`: `ColdStorageInventory` (storage/models.py:85-145) declares neither field, so the source as written raises wherever they are used:
  - `Sum("quantity")` raises `FieldError` in storage/signals.py:20-24, storage/management/commands/sync_inventory_from_storage.py:31-39 and core/services/data_quality.py:119 and 223.
  - `lot.quantity` and `lot.product` raise `AttributeError` in core/services/data_quality.py:151 and 170 and lab/forms.py:90 and 104-106.
  - `create(product=..., quantity=...)` raises `TypeError` in lab/forms.py:156-164.
  - The lot post-save and post-delete receivers are registered (storage/apps.py:9-11), so every save or delete of a lot whose batch has a SKU raises. Inside `adjust_storage_for_inventory_item` this happens within `transaction.atomic()` (storage/services.py:36), so the adjustment is rolled back.
- Storage.Adjust, StorageSync.SyncSku, StorageSync.RunSync, DataQuality.Snapshot and LabApproval.SaveStorageAssignment: these do not model the crashes above. They give the missing `quantity` its evident meaning, the lot's packets (`Storage.LotQuantity`, `total_units`).
- LabApproval.SaveStorageAssignment: the `product` text a new lot would be given is not modelled.
- Production.ConsumeMilkOldestFirst, Production.ConsumeMilkTakesExactly and Production.ConsumeMilkOnlyDrawsDown assume that every yield holds non-negative litres. `yield_litres` has no lower bound in lab/models.py:63; with a negative yield among the consumable ones, the closed form and the total taken no longer hold.
- The sync command groups by SKU and product type; the model assumes one product type per SKU.
- The tank re-check in `LabBatchApprovalForm.clean` is unreachable, since the field already refuses any other tank.
- The dashboard overlay takes its batch ids from the listed items.
- Sales.PostSale: a filled line without a quantity crashes the source after earlier lines are written; the model refuses the whole sale and changes nothing.
- The price-change log records the user as an id.
- Transaction ids (UUIDs in the source) are parameters.
- Ledger timestamps in the loyalty export are already-rendered text.
- Suppliers.PlaceOrder: the expected delivery date is kept as stripped text; parsing it as a date is not modelled.
- Sellers.Serve: the deduction applies whatever the transaction's status, as in the source; seller-form validation is not modelled.
- The percent-encoding used by `urlencode` is a parameter of `QueryString.UrlWithQuery`.
- Sellers.AddSales: the report's database grouping is assumed; when a name appears twice, the last entry wins.
- Suppliers.DefaultsPostedBack: the order template is not part of this model, so whether the form shows the default quantity as whole units or with two decimal places is not decided here; both cases are stated.
- Sales.DeductAsWritten: its ensures covers only the item set; its effect is stated by `Sales.AsWrittenLastLineWins`.
- Production.ResaveYield: its ensures covers only the saved, deleted and refused outcomes. `MilkYield.save` recomputes the session, window bounds, total, quality score and storage level in memory, but `update_fields=["yield_litres"]` writes none of them, so the model stores the row with only its litres changed.

## Findings

| source | as written | input that shows it | evidently intended | confidence | as-written member | corrected member |
|---|---|---|---|---|---|---|
| production/models.py:164-172 | Each deducted yield is saved through `MilkYield.save`, which re-runs `ensure_yield_assignment`. A yield whose batch the lab has closed is deleted, and the loop raises with earlier yields already written. | One premium 10 L yield in Tank A, recorded at 05:00 in a closed morning batch; a production batch uses 5 L from Tank A. | The yield keeps 5 L and the batch is produced. | medium, not executed | Production.ConsumeMilkAsWritten, Production.ConsumeAsWrittenDeletesYield | Production.ConsumeMilk, Production.ConsumeMilkTakesExactly |
| sales/views.py:45-58 | Each line's form holds the item as it was loaded, and saves that copy's stock less its own quantity. A later line for the same item overwrites an earlier one. | Stock 10.00; two lines for the item, of 1.00 and 2.00. | Stock 7.00, not 8.00. | medium, not executed | Sales.DeductAsWritten, Sales.DuplicateLineLosesDeduction | Sales.Deduct, Sales.PostSale |
| suppliers/views.py:168-170 | Every post of status "delivered" adds the order's quantity to the item, even when the order was already delivered. | A pending order of 5 units posted "delivered" twice. | The item restocked once. | medium, not executed | Suppliers.SetStatusAsWritten, Suppliers.RedeliveryRestocksTwice | Suppliers.SetStatus, Suppliers.SetStatusIdempotent |
| production/models.py:133-134 | Neither amount field allows blanks and the form does not relax them, so a blank quantity or litres is refused as required; the conversion in `clean` never gets to derive the missing amount. | Quantity 5.00 of a 500 ml SKU, litres left blank. | Either amount may be left blank and is derived from the other, as the help text at production/forms.py:127-128 says. | medium, not executed | Production.CleanProductionFormAsWritten, Production.SingleAmountRefusedAsWritten | Production.CleanProductionForm, Production.ProductionFormAcceptedIff |
| lab/views.py:670-683 | Validating the model form copies the posted state onto the batch before the view reads `original_state`, so the posted state always equals it and no transition is asked for. | A locked batch posted with state "open". | A posted state different from the stored one asks for that transition, refused when the batch is locked. | medium, not executed | LabViews.BatchEditAsWritten, LabViews.PostedStateIgnoredAsWritten | LabViews.BatchEdit |

=== FILE: base.dfy ===
/** Shared vocabulary of the dairy model: optional values, results that carry
    the source's validation errors, fixed-point decimals and calendar time.

    Conventions used by every other module:
    - a Django `Decimal` with two places is an `int` of hundredths ("cents");
    - a calendar date is an `int` day number, so `date + 7` is a week later;
    - a time of day is minutes past local midnight, an instant is
      `date * DayMinutes + timeOfDay`. */
module Base {

  datatype Option<+T> = None | Some(value: T) {
    function GetOr(default: T): T {
      match this
      case Some(v) => v
      case None => default
    }
  }

  /** The outcome of an operation that the source lets raise a ValidationError. */
  datatype Result<+T, +E> = Ok(value: T) | Err(error: E) {
    predicate IsFailure() { Err? }

    function PropagateFailure<U>(): Result<U, E>
      requires Err?
    {
      Err(error)
    }

    function Extract(): T
      requires Ok?
    {
      value
    }
  }

  function Abs(x: int): int { if x < 0 then -x else x }

  function Min(a: int, b: int): int { if a <= b then a else b }

  function Max(a: int, b: int): int { if a >= b then a else b }

  /** Python's `round(Decimal)` and `Decimal.quantize` with the default
      context: round n/d to the nearest integer, ties to the even one. */
  function RoundHalfEven(n: int, d: int): (r: int)
    requires d > 0
    ensures 2 * Abs(n - r * d) <= d
    ensures 2 * Abs(n - r * d) == d ==> r % 2 == 0
  {
    var q := n / d;
    var m := n % d;
    assert n == q * d + m;
    if 2 * m < d then q
    else if 2 * m > d then
      assert n - (q + 1) * d == m - d;
      q + 1
    else if q % 2 == 0 then q
    else
      assert n - (q + 1) * d == m - d;
      q + 1
  }

  /** Rounding never reverses the order of two amounts. */
  lemma RoundHalfEvenMonotone(a: int, b: int, d: int)
    requires d > 0 && a <= b
    ensures RoundHalfEven(a, d) <= RoundHalfEven(b, d)
  {
    var ra := RoundHalfEven(a, d);
    var rb := RoundHalfEven(b, d);
    if ra > rb {
      Distribute(ra, rb, d);
      MulAtLeast(ra - rb, d);
      OrderedRoundings(a, b, d, ra * d, rb * d);
      MulCancel(ra - rb, d);
      NoConsecutiveEvens(rb);
    }
  }

  /** Two multiples of `d` at least `d` apart, each within half of `d` of
      the ordered amounts `a <= b`: only a tie at a single point fits. */
  lemma OrderedRoundings(a: int, b: int, d: int, x: int, y: int)
    requires d > 0 && a <= b && x - y >= d
    requires 2 * Abs(a - x) <= d && 2 * Abs(b - y) <= d
    ensures a == b && x - y == d && 2 * Abs(a - x) == d && 2 * Abs(b - y) == d
  {}

  /** An exact multiple rounds to its quotient. */
  lemma RoundExact(k: int, d: int)
    requires d > 0
    ensures RoundHalfEven(k * d, d) == k
  {
    var n := k * d;
    DivExact(k, d);
  }

  lemma DivExact(k: int, d: int)
    requires d > 0
    ensures (k * d) / d == k && (k * d) % d == 0
  {
    var n := k * d;
    var q := n / d;
    var m := n % d;
    Distribute(k, q, d);
    assert (k - q) * d == m;
    if k - q >= 1 {
      MulAtLeast(k - q, d);
    } else if k - q <= -1 {
      MulAtLeast(q - k, d);
      Distribute(q, k, d);
    }
  }

  lemma NoConsecutiveEvens(r: int)
    ensures !(r % 2 == 0 && (r + 1) % 2 == 0)
  {}

  lemma Distribute(p: int, q: int, d: int)
    ensures p * d - q * d == (p - q) * d
  {}

  lemma MulAtLeast(k: int, d: int)
    requires k >= 1 && d > 0
    ensures k * d >= d
  {}

  lemma MulCancel(k: int, d: int)
    requires d > 0 && k * d == d
    ensures k == 1
  {}

  /** `int(Decimal)`: the whole part of a hundredths amount, truncated toward zero. */
  function TruncateCents(cents: int): (r: int)
    ensures 0 <= Abs(cents) - Abs(r * 100) < 100
    ensures r != 0 ==> (r > 0 <==> cents > 0)
  {
    if cents >= 0 then cents / 100 else -((-cents) / 100)
  }

  // ---- calendar ----

  const DayMinutes: int := 1440

  type TimeOfDay = t: int | 0 <= t < DayMinutes

  function At(date: int, time: TimeOfDay): int { date * DayMinutes + time }

  function DateOf(instant: int): int { instant / DayMinutes }

  function TimeOf(instant: int): TimeOfDay { instant % DayMinutes }

  lemma AtSplits(date: int, time: TimeOfDay)
    ensures DateOf(At(date, time)) == date
    ensures TimeOf(At(date, time)) == time
  {
    var i := At(date, time);
    assert i == date * DayMinutes + time;
  }

  /** Sum of a sequence of amounts. */
  function Sum(xs: seq<int>): int {
    if |xs| == 0 then 0 else Sum(xs[..|xs| - 1]) + xs[|xs| - 1]
  }

  lemma {:induction false} SumCons(xs: seq<int>)
    requires |xs| > 0
    ensures Sum(xs) == xs[0] + Sum(xs[1..])
    decreases |xs|
  {
    if |xs| > 1 {
      SumCons(xs[..|xs| - 1]);
      assert xs[..|xs| - 1][1..] == xs[1..][..|xs| - 2];
      assert xs[..|xs| - 1][0] == xs[0];
    }
  }

  lemma {:induction false} SumAppend(xs: seq<int>, ys: seq<int>)
    ensures Sum(xs + ys) == Sum(xs) + Sum(ys)
    decreases |ys|
  {
    if |ys| > 0 {
      SumAppend(xs, ys[..|ys| - 1]);
      assert (xs + ys)[..|xs + ys| - 1] == xs + ys[..|ys| - 1];
    } else {
      assert xs + ys == xs;
    }
  }
}

=== FILE: collection_windows.dfy ===
/** Milk intake windows: the three default sessions, the per-session
    overrides the lab can store, the cached effective list, and the two
    questions asked of it — which session a time of day falls in, and the
    absolute start and end of a session's window around a measurement. */
module CollectionWindows {
  import opened Base

  /** A window's start and end as times of day. */
  datatype Span = Span(start: TimeOfDay, end: TimeOfDay)

  /** One entry of the effective window list. */
  datatype Window = Window(key: string, span: Span, defaultSpan: Span, overridden: bool)

  const Morning: string := "morning"
  const Afternoon: string := "afternoon"
  const Evening: string := "evening"

  /** The built-in windows, in order: 00:00-06:00, 12:00-15:00, 16:00-19:00. */
  const Defaults: seq<(string, Span)> :=
    [(Morning, Span(0, 360)), (Afternoon, Span(720, 900)), (Evening, Span(960, 1140))]

  /** The session keys a batch or a yield may carry. */
  predicate IsSessionKey(key: string) {
    key == Morning || key == Afternoon || key == Evening
  }

  predicate IsDefaultKey(key: string) {
    exists i :: 0 <= i < |Defaults| && Defaults[i].0 == key
  }

  lemma DefaultKeysAreSessionKeys(key: string)
    ensures IsDefaultKey(key) <==> IsSessionKey(key)
  {
    if IsSessionKey(key) {
      if key == Morning { assert Defaults[0].0 == key; }
      else if key == Afternoon { assert Defaults[1].0 == key; }
      else { assert Defaults[2].0 == key; }
    }
  }

  /** Merge stored overrides over a list of defaults: each entry keeps its
      key and default span; only the live span changes, and only for a key
      that has an override. */
  function Merge(defs: seq<(string, Span)>, overrides: map<string, Span>): (ws: seq<Window>)
    ensures |ws| == |defs|
    ensures forall i :: 0 <= i < |defs| ==>
      ws[i].key == defs[i].0 && ws[i].defaultSpan == defs[i].1
      && ws[i].overridden == (defs[i].0 in overrides)
      && ws[i].span == (if defs[i].0 in overrides then overrides[defs[i].0] else defs[i].1)
  {
    if |defs| == 0 then []
    else
      var key := defs[0].0;
      var live := if key in overrides then overrides[key] else defs[0].1;
      [Window(key, live, defs[0].1, key in overrides)] + Merge(defs[1..], overrides)
  }

  function EffectiveWindows(overrides: map<string, Span>): seq<Window> {
    Merge(Defaults, overrides)
  }

  /** The class-level cache: the previously built list, if any. */
  type Cache = Option<seq<Window>>

  /** `get_collection_windows`: reuse the cached list unless a refresh is
      forced; whatever is returned becomes the new cache. */
  function GetWindows(cache: Cache, overrides: map<string, Span>, forceRefresh: bool)
    : (out: (seq<Window>, Cache))
    ensures out.1 == Some(out.0)
    ensures cache.Some? && !forceRefresh ==> out.0 == cache.value
    ensures cache.None? || forceRefresh ==> out.0 == EffectiveWindows(overrides)
  {
    if cache.Some? && !forceRefresh then (cache.value, cache)
    else
      var ws := EffectiveWindows(overrides);
      (ws, Some(ws))
  }

  /** Saving an override stores it and drops the cache. */
  function SaveOverride(overrides: map<string, Span>, key: string, span: Span)
    : (out: (map<string, Span>, Cache))
    ensures key in out.0 && out.0[key] == span && out.1 == None
    ensures forall k :: k != key ==> (k in out.0 <==> k in overrides)
    ensures forall k :: k != key && k in overrides ==> out.0[k] == overrides[k]
  {
    (overrides[key := span], None)
  }

  /** Deleting an override removes it and drops the cache. */
  function DeleteOverride(overrides: map<string, Span>, key: string)
    : (out: (map<string, Span>, Cache))
    ensures key !in out.0 && out.1 == None
    ensures forall k :: k != key ==> (k in out.0 <==> k in overrides)
    ensures forall k :: k in out.0 ==> out.0[k] == overrides[k]
  {
    (overrides - {key}, None)
  }

  /** After an override is saved the next lookup sees it, whatever was cached. */
  lemma SavedOverrideIsSeen(overrides: map<string, Span>, key: string, span: Span, i: nat)
    requires i < |Defaults| && Defaults[i].0 == key
    ensures var (o2, c2) := SaveOverride(overrides, key, span);
            var ws := GetWindows(c2, o2, false).0;
            ws[i].span == span && ws[i].overridden
  {}

  /** After an override is deleted the next lookup is back to the default. */
  lemma DeletedOverrideIsSeen(overrides: map<string, Span>, key: string, i: nat)
    requires i < |Defaults| && Defaults[i].0 == key
    ensures var (o2, c2) := DeleteOverride(overrides, key);
            var ws := GetWindows(c2, o2, false).0;
            ws[i].span == Defaults[i].1 && !ws[i].overridden
  {}

  /** `get_window_for_session`: the first window with that key; none for an
      empty key. */
  function WindowFor(ws: seq<Window>, key: string): (r: Option<Window>)
    ensures r.Some? ==> r.value in ws && r.value.key == key && key != ""
    ensures r.None? <==> key == "" || forall i :: 0 <= i < |ws| ==> ws[i].key != key
  {
    if key == "" || |ws| == 0 then None
    else if ws[0].key == key then Some(ws[0])
    else WindowFor(ws[1..], key)
  }

  /** Whether a time of day lies in a window; a window whose end is before
      its start runs past midnight. */
  predicate InWindow(span: Span, t: TimeOfDay) {
    if span.start <= span.end then span.start <= t < span.end
    else t >= span.start || t < span.end
  }

  /** Reference reading of a window on the 24-hour clock: `t` is inside iff
      the clockwise distance from the start to `t` is less than the window's
      clockwise length. An identical start and end is an empty window. */
  lemma InWindowIsClockwise(span: Span, t: TimeOfDay)
    ensures InWindow(span, t)
        <==> (t - span.start) % DayMinutes < (span.end - span.start) % DayMinutes
  {
    var d := (t - span.start) % DayMinutes;
    var len := (span.end - span.start) % DayMinutes;
    if t >= span.start { assert d == t - span.start; } else { assert d == t - span.start + DayMinutes; }
    if span.end >= span.start { assert len == span.end - span.start; }
    else { assert len == span.end - span.start + DayMinutes; }
  }

  /** `resolve_collection_session`: the key of the first window containing
      the time, or none. */
  function ResolveSession(ws: seq<Window>, t: TimeOfDay): (r: Option<string>)
    ensures r.None? <==> forall i :: 0 <= i < |ws| ==> !InWindow(ws[i].span, t)
    ensures r.Some? ==> exists i :: 0 <= i < |ws| && ws[i].key == r.value && InWindow(ws[i].span, t)
                          && forall j :: 0 <= j < i ==> !InWindow(ws[j].span, t)
  {
    if |ws| == 0 then None
    else if InWindow(ws[0].span, t) then
      assert ws[0].key == ws[0].key && InWindow(ws[0].span, t);
      Some(ws[0].key)
    else
      var r := ResolveSession(ws[1..], t);
      if r.Some? then
        var i :| 0 <= i < |ws[1..]| && ws[1..][i].key == r.value && InWindow(ws[1..][i].span, t)
                 && forall j :: 0 <= j < i ==> !InWindow(ws[1..][j].span, t);
        assert ws[i + 1] == ws[1..][i];
        assert forall j :: 0 <= j < i + 1 ==> !InWindow(ws[j].span, t) by {
          forall j | 0 <= j < i + 1 ensures !InWindow(ws[j].span, t) {
            if j > 0 { assert ws[j] == ws[1..][j - 1]; }
          }
        }
        r
      else
        assert forall i :: 0 <= i < |ws| ==> !InWindow(ws[i].span, t) by {
          forall i | 0 <= i < |ws| ensures !InWindow(ws[i].span, t) {
            if i > 0 { assert ws[i] == ws[1..][i - 1]; }
          }
        }
        r
  }

  /** With the default windows, the time of day decides the session. */
  lemma DefaultResolution(t: TimeOfDay)
    ensures var r := ResolveSession(EffectiveWindows(map[]), t);
            (t < 360 ==> r == Some(Morning))
            && (720 <= t < 900 ==> r == Some(Afternoon))
            && (960 <= t < 1140 ==> r == Some(Evening))
            && ((360 <= t < 720 || 900 <= t < 960 || 1140 <= t) ==> r == None)
  {
    var ws := EffectiveWindows(map[]);
    assert ws[0].span == Span(0, 360) && ws[1].span == Span(720, 900) && ws[2].span == Span(960, 1140);
    assert ws[1..][1..][1..] == [];
  }

  /** Absolute start and end instants of a session's window. */
  datatype Bounds = Bounds(start: int, end: int)

  function SpanBounds(span: Span, date: int, t: TimeOfDay): (b: Bounds)
    ensures b.start < b.end <= b.start + DayMinutes
    ensures b.end - b.start == (if span.start == span.end then DayMinutes
                                else (span.end - span.start) % DayMinutes)
    ensures span.start != span.end ==>
      (b.start <= At(date, t) < b.end <==> InWindow(span, t))
    ensures span.start == span.end ==> b.start <= At(date, t) < b.end
    ensures span.start < span.end ==> b == Bounds(At(date, span.start), At(date, span.end))
  {
    var s := At(date, span.start);
    var e := At(date, span.end);
    if span.end <= span.start then
      if t < span.end then Bounds(s - DayMinutes, e) else Bounds(s, e + DayMinutes)
    else Bounds(s, e)
  }

  /** `window_bounds_for_session`: none for an empty or unknown session;
      otherwise the window around the measurement's date. A window that
      wraps past midnight starts the day before when the measurement is
      before its end, and ends the next day otherwise. */
  function WindowBounds(ws: seq<Window>, key: string, date: int, t: TimeOfDay): (r: Option<Bounds>)
    ensures r.None? <==> WindowFor(ws, key).None?
    ensures r.Some? ==> r.value.start < r.value.end
    ensures r.Some? ==> var span := WindowFor(ws, key).value.span;
      span.start != span.end ==> (r.value.start <= At(date, t) < r.value.end <==> InWindow(span, t))
  {
    match WindowFor(ws, key)
    case None => None
    case Some(w) => Some(SpanBounds(w.span, date, t))
  }

  /** A session resolved from the time of day always has bounds that
      contain the measurement. */
  lemma ResolvedSessionBoundsContainMeasurement(ws: seq<Window>, date: int, t: TimeOfDay)
    requires forall i, j :: 0 <= i < j < |ws| ==> ws[i].key != ws[j].key
    requires forall i :: 0 <= i < |ws| ==> ws[i].key != ""
    requires ResolveSession(ws, t).Some?
    ensures var b := WindowBounds(ws, ResolveSession(ws, t).value, date, t);
            b.Some? && b.value.start <= At(date, t) < b.value.end
  {
    var key := ResolveSession(ws, t).value;
    var i :| 0 <= i < |ws| && ws[i].key == key && InWindow(ws[i].span, t)
             && forall j :: 0 <= j < i ==> !InWindow(ws[j].span, t);
    WindowForUnique(ws, i);
    var span := ws[i].span;
  }

  lemma {:induction false} WindowForUnique(ws: seq<Window>, i: nat)
    requires forall a, b :: 0 <= a < b < |ws| ==> ws[a].key != ws[b].key
    requires i < |ws| && ws[i].key != ""
    ensures WindowFor(ws, ws[i].key) == Some(ws[i])
  {
    if i > 0 {
      assert ws[0].key != ws[i].key;
      assert ws[1..][i - 1] == ws[i];
      WindowForUnique(ws[1..], i - 1);
    }
  }

  /** The effective list always has the three default keys, once each. */
  lemma EffectiveKeysDistinct(overrides: map<string, Span>)
    ensures var ws := EffectiveWindows(overrides);
            (forall i, j :: 0 <= i < j < |ws| ==> ws[i].key != ws[j].key)
            && (forall i :: 0 <= i < |ws| ==> ws[i].key != "")
  {}

  // ---- the administration screen ----

  datatype FormError = IdenticalStartEnd

  /** `SessionWindowForm.clean`: a window may not start and end at the same time. */
  function CleanWindowForm(start: TimeOfDay, end: TimeOfDay): (r: Result<Span, FormError>)
    ensures r.Ok? <==> start != end
    ensures r.Ok? ==> r.value == Span(start, end)
  {
    if start == end then Err(IdenticalStartEnd) else Ok(Span(start, end))
  }

  /** One submitted row of the administration formset: a row equal to the
      session's defaults removes its override, anything else stores one. */
  function SubmitWindow(overrides: map<string, Span>, key: string, span: Span): (out: (map<string, Span>, Cache))
    ensures out.1 == None
    ensures forall k :: k != key ==> (k in out.0 <==> k in overrides)
    ensures forall k :: k != key && k in overrides ==> out.0[k] == overrides[k]
  {
    if exists i :: 0 <= i < |Defaults| && Defaults[i].0 == key && Defaults[i].1 == span then
      DeleteOverride(overrides, key)
    else
      SaveOverride(overrides, key, span)
  }

  /** Whatever is submitted for a session becomes its effective window, and
      the window counts as overridden exactly when it differs from the
      default. */
  lemma SubmittedWindowTakesEffect(overrides: map<string, Span>, i: nat, span: Span)
    requires i < |Defaults|
    ensures var (o2, c2) := SubmitWindow(overrides, Defaults[i].0, span);
            var ws := GetWindows(c2, o2, false).0;
            ws[i].span == span && (ws[i].overridden <==> span != Defaults[i].1)
  {
    var key := Defaults[i].0;
    if span == Defaults[i].1 {
      assert exists j :: 0 <= j < |Defaults| && Defaults[j].0 == key && Defaults[j].1 == span;
    } else {
      assert !exists j :: 0 <= j < |Defaults| && Defaults[j].0 == key && Defaults[j].1 == span;
    }
  }
}

=== FILE: data_quality.dfy ===
/** Data-quality checks: a per-batch snapshot of storage, five rules that
    raise alerts (negative stock, expired stock, sales totals that do not
    add up, over-full storage locations, expired and nearly expired lots),
    and the alert register in which a raised alert is created or reopened
    and every alert no longer raised is resolved automatically. Quantities
    and money are hundredths; lot quantities are packets. */
module DataQuality {
  import opened Base
  import opened Text
  import opened Inventory
  import opened Storage

  // ---- the storage snapshot ----

  /** What storage holds for one batch: its quantity in hundredths and its
      earliest expiry. */
  datatype Entry = Entry(quantity: int, expiry: Option<int>)

  /** The quantity, in hundredths, that a batch's lots hold. */
  function BatchQuantity(lots: seq<Lot>, batch: nat): int {
    if |lots| == 0 then 0
    else
      var last := lots[|lots| - 1];
      BatchQuantity(lots[..|lots| - 1], batch) + (if last.batch == batch then LotQuantity(last) * 100 else 0)
  }

  predicate HasBatchLot(lots: seq<Lot>, batch: nat) {
    exists i :: 0 <= i < |lots| && lots[i].batch == batch
  }

  /** The earliest expiry among a batch's lots. */
  function EarliestExpiry(lots: seq<Lot>, batch: nat): (e: Option<int>)
    ensures e.Some? <==> HasBatchLot(lots, batch)
    ensures e.Some? ==> forall i :: 0 <= i < |lots| && lots[i].batch == batch ==> e.value <= lots[i].expiry
    ensures e.Some? ==> exists i :: 0 <= i < |lots| && lots[i].batch == batch && e.value == lots[i].expiry
  {
    if |lots| == 0 then None
    else
      var n := |lots| - 1;
      var rest := EarliestExpiry(lots[..n], batch);
      assert forall i :: 0 <= i < n ==> lots[..n][i] == lots[i];
      var lot := lots[n];
      if lot.batch != batch then
        assert HasBatchLot(lots[..n], batch) <==> HasBatchLot(lots, batch);
        rest
      else if rest.None? || lot.expiry < rest.value then Some(lot.expiry)
      else rest
  }

  /** The batches that have lots, a batch id of 0 counting as none. */
  function SnapshotBatches(lots: seq<Lot>): (bs: set<nat>)
    ensures forall b :: b in bs <==> b != 0 && HasBatchLot(lots, b)
  {
    set i | 0 <= i < |lots| && lots[i].batch != 0 :: lots[i].batch
  }

  /** `_build_storage_snapshot`: lots without a batch (a batch id of 0) are
      skipped; the rest are summed per batch, keeping the earliest expiry. */
  function Snapshot(lots: seq<Lot>): (snap: map<nat, Entry>)
    ensures forall b :: b in snap <==> b != 0 && HasBatchLot(lots, b)
    ensures forall b :: b in snap ==> snap[b].quantity == BatchQuantity(lots, b)
    ensures forall b :: b in snap ==> snap[b].expiry.Some?
    ensures forall b, i :: b in snap && 0 <= i < |lots| && lots[i].batch == b ==> snap[b].expiry.value <= lots[i].expiry
    ensures forall b :: b in snap ==> exists i :: 0 <= i < |lots| && lots[i].batch == b && snap[b].expiry.value == lots[i].expiry
  {
    map b | b in SnapshotBatches(lots) :: Entry(BatchQuantity(lots, b), EarliestExpiry(lots, b))
  }

  /** A batch without lots holds nothing. */
  lemma {:induction false} NoLotsNoQuantity(lots: seq<Lot>, batch: nat)
    requires !HasBatchLot(lots, batch)
    ensures BatchQuantity(lots, batch) == 0
  {
    if |lots| > 0 {
      var n := |lots| - 1;
      assert forall i :: 0 <= i < n ==> lots[..n][i] == lots[i];
      NoLotsNoQuantity(lots[..n], batch);
    }
  }

  /** The storage entry for an item's batch, if the snapshot has one. */
  function EntryFor(item: InventoryItem, snap: map<nat, Entry>): Option<Entry> {
    if item.batchId.Some? && item.batchId.value in snap then Some(snap[item.batchId.value]) else None
  }

  /** The stock that counts: storage's when the batch is in storage, the
      item's own otherwise. */
  function EffectiveQuantity(item: InventoryItem, snap: map<nat, Entry>): int {
    match EntryFor(item, snap)
    case Some(e) => e.quantity
    case None => item.currentQuantity
  }

  // ---- alert codes ----

  /** A record's alert code: the rule's prefix and the record's key. */
  function Code(prefix: string, pk: nat): string {
    prefix + NatToString(pk)
  }

  predicate EndsWithDash(p: string) {
    |p| > 0 && p[|p| - 1] == '-'
  }

  /** Codes of rules whose prefixes end in a dash name one rule and one
      record each. */
  lemma CodeInjective(p1: string, n1: nat, p2: string, n2: nat)
    requires EndsWithDash(p1) && EndsWithDash(p2)
    requires Code(p1, n1) == Code(p2, n2)
    ensures p1 == p2 && n1 == n2
  {
    var c := Code(p1, n1);
    if |p1| < |p2| {
      assert (p1 + NatToString(n1))[|p2| - 1] == NatToString(n1)[|p2| - 1 - |p1|];
    } else if |p1| > |p2| {
      assert (p2 + NatToString(n2))[|p1| - 1] == NatToString(n2)[|p1| - 1 - |p2|];
    } else {
      assert p1 == c[..|p1|] == p2;
      assert NatToString(n1) == c[|p1|..] == NatToString(n2);
      NatToStringInjective(n1, n2);
    }
  }

  const NegativePrefix: string := "inventory-negative-"
  const ExpiredPrefix: string := "inventory-expired-"
  const SalesPrefix: string := "sales-mismatch-"
  const CapacityPrefix: string := "storage-capacity-"
  const LotExpiredPrefix: string := "storage-expired-"
  const LotNearPrefix: string := "storage-near-expiry-"

  // ---- findings ----

  datatype Severity = Warning | Critical

  /** What an alert says, in place of its rendered text. */
  datatype Message =
    | StockNegative(name: string, system: int, storage: Option<int>)
    | StockExpired(name: string, since: int, storageExpiry: Option<int>)
    | TotalDiffers(transaction: string, delta: int)
    | OverCapacity(locationName: string, onHand: int, capacity: int)
    | LotExpired(storageId: nat, location: nat, expiry: int)
    | LotNearExpiry(storageId: nat, location: nat, expiry: int)

  /** An alert a rule raises. */
  datatype Finding = Finding(code: string, category: string, message: Message, severity: Severity,
                             modelLabel: string, recordId: string)

  // negative stock

  predicate IsNegative(item: InventoryItem, snap: map<nat, Entry>) {
    EffectiveQuantity(item, snap) < 0
  }

  function NegativeFinding(item: InventoryItem, snap: map<nat, Entry>): Finding {
    var e := EntryFor(item, snap);
    var shown := if e.Some? && e.value.quantity != item.currentQuantity then Some(e.value.quantity) else None;
    Finding(Code(NegativePrefix, item.id), "Inventory", StockNegative(item.name, item.currentQuantity, shown),
            Critical, "inventory.InventoryItem", NatToString(item.id))
  }

  /** `_check_negative_inventory`. */
  function CheckNegative(items: seq<InventoryItem>, snap: map<nat, Entry>): (r: seq<Finding>)
    ensures forall it :: it in items && IsNegative(it, snap) ==> NegativeFinding(it, snap) in r
    ensures forall f :: f in r ==> exists it :: it in items && IsNegative(it, snap) && f == NegativeFinding(it, snap)
  {
    if |items| == 0 then []
    else
      var rest := CheckNegative(items[1..], snap);
      assert forall x :: x in items <==> x == items[0] || x in items[1..];
      if IsNegative(items[0], snap) then [NegativeFinding(items[0], snap)] + rest else rest
  }

  // expired stock

  /** The expiry that counts: storage's earliest, else the item's own. */
  function ExpiryReference(item: InventoryItem, snap: map<nat, Entry>): Option<int> {
    var e := EntryFor(item, snap);
    if e.Some? && e.value.expiry.Some? then e.value.expiry else item.expiry
  }

  predicate IsExpiredStock(item: InventoryItem, snap: map<nat, Entry>, today: int) {
    var ref := ExpiryReference(item, snap);
    ref.Some? && ref.value < today && EffectiveQuantity(item, snap) > 0
  }

  function ExpiredFinding(item: InventoryItem, snap: map<nat, Entry>, today: int): Finding
    requires IsExpiredStock(item, snap, today)
  {
    var e := EntryFor(item, snap);
    var storageExpiry := if e.Some? && e.value.expiry.Some? && e.value.expiry != item.expiry then e.value.expiry else None;
    Finding(Code(ExpiredPrefix, item.id), "Inventory", StockExpired(item.name, ExpiryReference(item, snap).value, storageExpiry),
            Warning, "inventory.InventoryItem", NatToString(item.id))
  }

  /** `_check_expired_inventory`. */
  function CheckExpired(items: seq<InventoryItem>, snap: map<nat, Entry>, today: int): (r: seq<Finding>)
    ensures forall it :: it in items && IsExpiredStock(it, snap, today) ==> ExpiredFinding(it, snap, today) in r
    ensures forall f :: f in r ==>
              exists it :: it in items && IsExpiredStock(it, snap, today) && f == ExpiredFinding(it, snap, today)
  {
    if |items| == 0 then []
    else
      var rest := CheckExpired(items[1..], snap, today);
      assert forall x :: x in items <==> x == items[0] || x in items[1..];
      if IsExpiredStock(items[0], snap, today) then [ExpiredFinding(items[0], snap, today)] + rest else rest
  }

  // sales totals

  /** A sale line: quantity and unit price, both hundredths. */
  datatype Line = Line(quantity: int, price: int)

  /** A sales transaction and its lines. */
  datatype Sale = Sale(id: nat, transactionId: string, total: int, lines: seq<Line>)

  /** The sum of quantity times price, in ten-thousandths. */
  function LinesTotal(lines: seq<Line>): int {
    if |lines| == 0 then 0 else LinesTotal(lines[..|lines| - 1]) + lines[|lines| - 1].quantity * lines[|lines| - 1].price
  }

  /** How far the stored total is from its lines, rounded to hundredths. */
  function SaleDelta(s: Sale): (d: int)
    ensures d >= 0
    ensures 2 * Abs(d * 100 - Abs(s.total * 100 - LinesTotal(s.lines))) <= 100
  {
    var r := RoundHalfEven(Abs(s.total * 100 - LinesTotal(s.lines)), 100);
    RoundHalfEvenMonotone(0, Abs(s.total * 100 - LinesTotal(s.lines)), 100);
    RoundExact(0, 100);
    r
  }

  /** The rounded difference is over 1.00. */
  predicate TotalMismatch(s: Sale) {
    SaleDelta(s) > 100
  }

  function SalesFinding(s: Sale): Finding {
    Finding(Code(SalesPrefix, s.id), "Sales", TotalDiffers(s.transactionId, SaleDelta(s)), Critical,
            "sales.SalesTransaction", NatToString(s.id))
  }

  /** `_check_sales_totals`. */
  function CheckSales(sales: seq<Sale>): (r: seq<Finding>)
    ensures forall s :: s in sales && TotalMismatch(s) ==> SalesFinding(s) in r
    ensures forall f :: f in r ==> exists s :: s in sales && TotalMismatch(s) && f == SalesFinding(s)
  {
    if |sales| == 0 then []
    else
      var rest := CheckSales(sales[1..]);
      assert forall x :: x in sales <==> x == sales[0] || x in sales[1..];
      if TotalMismatch(sales[0]) then [SalesFinding(sales[0])] + rest else rest
  }

  /** A sale whose total is its lines' sum raises nothing, and one off by
      more than 1.005 always raises an alert. */
  lemma SalesMismatchBounds(s: Sale)
    ensures s.total * 100 == LinesTotal(s.lines) ==> !TotalMismatch(s)
    ensures Abs(s.total * 100 - LinesTotal(s.lines)) > 10050 ==> TotalMismatch(s)
    ensures Abs(s.total * 100 - LinesTotal(s.lines)) < 10050 ==> !TotalMismatch(s)
  {}

  // storage capacity

  datatype Location = Location(id: nat, name: string, capacity: int)

  /** The packets stored at a location, in hundredths. */
  function OnHand(lots: seq<Lot>, location: nat): int {
    if |lots| == 0 then 0
    else
      var last := lots[|lots| - 1];
      OnHand(lots[..|lots| - 1], location) + (if last.location == location then LotQuantity(last) * 100 else 0)
  }

  predicate OverFull(loc: Location, lots: seq<Lot>) {
    loc.capacity != 0 && OnHand(lots, loc.id) > loc.capacity
  }

  function CapacityFinding(loc: Location, lots: seq<Lot>): Finding {
    Finding(Code(CapacityPrefix, loc.id), "Storage", OverCapacity(loc.name, OnHand(lots, loc.id), loc.capacity), Critical,
            "storage.StorageLocation", NatToString(loc.id))
  }

  /** `_check_storage_capacity`: a capacity of zero means unlimited. */
  function CheckCapacity(locations: seq<Location>, lots: seq<Lot>): (r: seq<Finding>)
    ensures forall l :: l in locations && OverFull(l, lots) ==> CapacityFinding(l, lots) in r
    ensures forall f :: f in r ==> exists l :: l in locations && OverFull(l, lots) && f == CapacityFinding(l, lots)
  {
    if |locations| == 0 then []
    else
      var rest := CheckCapacity(locations[1..], lots);
      assert forall x :: x in locations <==> x == locations[0] || x in locations[1..];
      if OverFull(locations[0], lots) then [CapacityFinding(locations[0], lots)] + rest else rest
  }

  // lot expiry

  predicate LotIsExpired(lot: Lot, today: int) {
    lot.expiry < today
  }

  predicate LotIsNearExpiry(lot: Lot, today: int) {
    today <= lot.expiry <= today + 3
  }

  /** The two lot rules never both fire, and they agree with the lot's own
      status rule. */
  lemma LotRulesDisjoint(lot: Lot, today: int)
    ensures !(LotIsExpired(lot, today) && LotIsNearExpiry(lot, today))
    ensures LotIsExpired(lot, today) <==> StatusForExpiry(lot.expiry, today) == Expired
    ensures LotIsNearExpiry(lot, today) <==> StatusForExpiry(lot.expiry, today) == NearExpiry
  {}

  function LotFinding(lot: Lot, today: int): Finding
    requires LotIsExpired(lot, today) || LotIsNearExpiry(lot, today)
  {
    if LotIsExpired(lot, today) then
      Finding(Code(LotExpiredPrefix, lot.storageId), "Storage", LotExpired(lot.storageId, lot.location, lot.expiry),
              Critical, "storage.ColdStorageInventory", NatToString(lot.storageId))
    else
      Finding(Code(LotNearPrefix, lot.storageId), "Storage", LotNearExpiry(lot.storageId, lot.location, lot.expiry),
              Warning, "storage.ColdStorageInventory", NatToString(lot.storageId))
  }

  /** `_check_storage_expiry`. */
  function CheckLotExpiry(lots: seq<Lot>, today: int): (r: seq<Finding>)
    ensures forall l :: l in lots && (LotIsExpired(l, today) || LotIsNearExpiry(l, today)) ==> LotFinding(l, today) in r
    ensures forall f :: f in r ==>
              exists l :: l in lots && (LotIsExpired(l, today) || LotIsNearExpiry(l, today)) && f == LotFinding(l, today)
  {
    if |lots| == 0 then []
    else
      var rest := CheckLotExpiry(lots[1..], today);
      assert forall x :: x in lots <==> x == lots[0] || x in lots[1..];
      if LotIsExpired(lots[0], today) || LotIsNearExpiry(lots[0], today) then [LotFinding(lots[0], today)] + rest else rest
  }

  // ---- the alert register ----

  datatype Alert = Alert(
    category: string,
    message: Message,
    severity: Severity,
    modelLabel: string,
    recordId: string,
    detectedAt: int,
    resolvedAt: Option<int>,
    autoResolved: bool)

  /** Alerts by code; a code names at most one alert. */
  type Register = map<string, Alert>

  /** `_upsert_alert`: a new code is recorded as detected now; a known one
      takes the finding's fields and, if it had been resolved, is opened
      again. */
  function Upsert(reg: Register, f: Finding, now: int): (r: Register)
    ensures r.Keys == reg.Keys + {f.code}
    ensures forall c :: c in reg && c != f.code ==> r[c] == reg[c]
    ensures r[f.code].resolvedAt.None?
    ensures r[f.code].category == f.category && r[f.code].message == f.message && r[f.code].severity == f.severity
    ensures f.code in reg ==> r[f.code].detectedAt == reg[f.code].detectedAt
    ensures f.code in reg && reg[f.code].resolvedAt.None? ==> r[f.code].autoResolved == reg[f.code].autoResolved
    ensures f.code in reg && reg[f.code].resolvedAt.Some? ==> !r[f.code].autoResolved
  {
    if f.code !in reg then
      reg[f.code := Alert(f.category, f.message, f.severity, f.modelLabel, f.recordId, now, None, false)]
    else
      var a := reg[f.code];
      var reopened := if a.resolvedAt.Some? then a.(resolvedAt := None, autoResolved := false) else a;
      reg[f.code := reopened.(category := f.category, message := f.message, severity := f.severity,
                              modelLabel := f.modelLabel, recordId := f.recordId)]
  }

  function UpsertAll(reg: Register, fs: seq<Finding>, now: int): (r: Register)
    ensures r.Keys == reg.Keys + set f | f in fs :: f.code
    ensures forall c :: c in reg && (forall f :: f in fs ==> f.code != c) ==> r[c] == reg[c]
    ensures forall f :: f in fs ==> r[f.code].resolvedAt.None?
    decreases |fs|
  {
    if |fs| == 0 then reg
    else
      assert forall x :: x in fs <==> x == fs[0] || x in fs[1..];
      UpsertAll(Upsert(reg, fs[0], now), fs[1..], now)
  }

  /** `_resolve_inactive_alerts`: every open alert whose code was not
      raised this run is resolved now, automatically. */
  function ResolveInactive(reg: Register, active: set<string>, now: int): (r: Register)
    ensures r.Keys == reg.Keys
    ensures forall c :: c in reg && (c in active || reg[c].resolvedAt.Some?) ==> r[c] == reg[c]
    ensures forall c :: c in reg && c !in active && reg[c].resolvedAt.None? ==>
              r[c] == reg[c].(resolvedAt := Some(now), autoResolved := true)
  {
    map c | c in reg :: if c !in active && reg[c].resolvedAt.None? then reg[c].(resolvedAt := Some(now), autoResolved := true)
                        else reg[c]
  }

  /** Everything the five rules raise. */
  function AllFindings(items: seq<InventoryItem>, lots: seq<Lot>, sales: seq<Sale>, locations: seq<Location>, today: int)
    : seq<Finding>
  {
    var snap := Snapshot(lots);
    CheckNegative(items, snap) + CheckExpired(items, snap, today) + CheckSales(sales)
    + CheckCapacity(locations, lots) + CheckLotExpiry(lots, today)
  }

  function Codes(fs: seq<Finding>): set<string> {
    set f | f in fs :: f.code
  }

  /** `run_data_quality_checks`: raise every finding, then resolve every
      alert not raised. */
  function RunChecks(reg: Register, items: seq<InventoryItem>, lots: seq<Lot>, sales: seq<Sale>,
                     locations: seq<Location>, today: int, now: int): Register
  {
    var fs := AllFindings(items, lots, sales, locations, today);
    ResolveInactive(UpsertAll(reg, fs, now), Codes(fs), now)
  }

  /** After a run the open alerts are exactly the ones raised; alerts that
      were already resolved and not raised again are left as they were. */
  lemma RunChecksOpenExactlyRaised(reg: Register, items: seq<InventoryItem>, lots: seq<Lot>, sales: seq<Sale>,
                                   locations: seq<Location>, today: int, now: int)
    ensures var fs := AllFindings(items, lots, sales, locations, today);
            var r := RunChecks(reg, items, lots, sales, locations, today, now);
            r.Keys == reg.Keys + Codes(fs)
            && (forall c :: c in r ==> (r[c].resolvedAt.None? <==> c in Codes(fs)))
            && (forall c :: c in reg && c !in Codes(fs) && reg[c].resolvedAt.Some? ==> r[c] == reg[c])
  {
    var fs := AllFindings(items, lots, sales, locations, today);
    var u := UpsertAll(reg, fs, now);
    forall c | c in reg && c !in Codes(fs)
      ensures u[c] == reg[c]
    {
      assert forall f :: f in fs ==> f.code != c;
    }
  }

  /** An item raises a negative-stock alert exactly when the stock that
      counts for it is below zero. */
  lemma NegativeAlertIff(items: seq<InventoryItem>, lots: seq<Lot>, sales: seq<Sale>, locations: seq<Location>,
                         today: int, item: InventoryItem)
    requires item in items
    requires forall a, b :: a in items && b in items && a.id == b.id ==> a == b
    ensures Code(NegativePrefix, item.id) in Codes(AllFindings(items, lots, sales, locations, today))
            <==> IsNegative(item, Snapshot(lots))
  {
    var snap := Snapshot(lots);
    var fs := AllFindings(items, lots, sales, locations, today);
    if IsNegative(item, snap) {
      assert NegativeFinding(item, snap) in fs;
    } else if Code(NegativePrefix, item.id) in Codes(fs) {
      var f :| f in fs && f.code == Code(NegativePrefix, item.id);
      OnlyNegativeRuleUsesPrefix(items, lots, sales, locations, today, f, item);
    }
  }

  lemma OnlyNegativeRuleUsesPrefix(items: seq<InventoryItem>, lots: seq<Lot>, sales: seq<Sale>, locations: seq<Location>,
                                   today: int, f: Finding, item: InventoryItem)
    requires item in items
    requires forall a, b :: a in items && b in items && a.id == b.id ==> a == b
    requires f in AllFindings(items, lots, sales, locations, today) && f.code == Code(NegativePrefix, item.id)
    ensures IsNegative(item, Snapshot(lots))
  {
    var snap := Snapshot(lots);
    if f in CheckNegative(items, snap) {
      var it :| it in items && IsNegative(it, snap) && f == NegativeFinding(it, snap);
      CodeInjective(NegativePrefix, it.id, NegativePrefix, item.id);
    } else if f in CheckExpired(items, snap, today) {
      var it :| it in items && IsExpiredStock(it, snap, today) && f == ExpiredFinding(it, snap, today);
      CodeInjective(ExpiredPrefix, it.id, NegativePrefix, item.id);
    } else if f in CheckSales(sales) {
      var s :| s in sales && TotalMismatch(s) && f == SalesFinding(s);
      CodeInjective(SalesPrefix, s.id, NegativePrefix, item.id);
    } else if f in CheckCapacity(locations, lots) {
      var l :| l in locations && OverFull(l, lots) && f == CapacityFinding(l, lots);
      CodeInjective(CapacityPrefix, l.id, NegativePrefix, item.id);
    } else {
      assert f in CheckLotExpiry(lots, today);
      var l :| l in lots && (LotIsExpired(l, today) || LotIsNearExpiry(l, today)) && f == LotFinding(l, today);
      if LotIsExpired(l, today) {
        CodeInjective(LotExpiredPrefix, l.storageId, NegativePrefix, item.id);
      } else {
        CodeInjective(LotNearPrefix, l.storageId, NegativePrefix, item.id);
      }
    }
  }
}

=== FILE: intake.dfy ===
/** Raw-milk intake: recording a milk yield against the collection windows
    and the intake batch of its session, and the OPEN / CLOSED / LOCKED life
    of a batch.

    The database is a map of yields by id and the list of batches in the
    order they were created, so "the latest batch" of a session is the last
    matching one in the list. "Now" is a parameter. */
module Intake {
  import opened Base
  import opened CollectionWindows

  // ---- yields ----

  const Premium: string := "premium"
  const Standard: string := "standard"
  const Low: string := "low"

  const Unassigned: string := "Unassigned"
  const SpoiltTank: string := "Spoilt Tank"

  /** A recorded milk yield; litres and totals are in hundredths of a litre. */
  datatype Yield = Yield(
    id: nat,
    cow: nat,
    recordedAt: int,
    session: string,
    windowStart: Option<int>,
    windowEnd: Option<int>,
    litres: int,
    tank: string,
    storageLevel: int,
    grade: string,
    qualityScore: int,
    totalYield: int)

  /** Score stored for a grade; an unknown grade scores as standard. */
  function QualityScore(grade: string): (score: int)
    ensures grade == Premium ==> score == 98
    ensures grade == Low ==> score == 70
    ensures grade != Premium && grade != Low ==> score == 85
  {
    if grade == Premium then 98 else if grade == Standard then 85 else if grade == Low then 70 else 85
  }

  /** Tank capacities in litres; a tank not in the table has none. */
  function TankCapacity(tank: string): (cap: Option<int>)
    ensures cap.Some? <==> tank in {Unassigned, "Tank A", "Tank B", "Tank C", SpoiltTank}
    ensures cap.Some? ==> cap.value >= 0
    ensures cap == Some(0) <==> tank == Unassigned
  {
    if tank == Unassigned then Some(0)
    else if tank == "Tank A" then Some(500)
    else if tank == "Tank B" then Some(750)
    else if tank == "Tank C" then Some(1000)
    else if tank == SpoiltTank then Some(500)
    else None
  }

  /** Fill percentage of a tank holding `total` hundredths of a litre: zero
      for a tank without capacity, otherwise the nearest whole percentage,
      never above 100. */
  function StorageLevel(total: int, capacity: Option<int>): (level: int)
    ensures capacity.None? || capacity == Some(0) ==> level == 0
    ensures level <= 100
    ensures capacity.Some? && capacity.value > 0 && level < 100 ==>
              2 * Abs(total - level * capacity.value) <= capacity.value
    ensures capacity.Some? && capacity.value > 0 && total >= 100 * capacity.value ==> level == 100
  {
    match capacity
    case None => 0
    case Some(c) =>
      if c <= 0 then 0
      else
        var r := RoundHalfEven(total, c);
        if total >= 100 * c then
          FullTankRounds(total, c);
          Min(100, r)
        else Min(100, r)
  }

  lemma FullTankRounds(total: int, c: int)
    requires c > 0 && total >= 100 * c
    ensures RoundHalfEven(total, c) >= 100
  {
    RoundExact(100, c);
    RoundHalfEvenMonotone(100 * c, total, c);
  }

  /** More milk in the tank never shows a lower level. */
  lemma StorageLevelMonotone(t1: int, t2: int, capacity: Option<int>)
    requires t1 <= t2
    ensures StorageLevel(t1, capacity) <= StorageLevel(t2, capacity)
  {
    if capacity.Some? && capacity.value > 0 {
      RoundHalfEvenMonotone(t1, t2, capacity.value);
    }
  }

  /** Litres already recorded in `tank` on `date` among yields with id below
      `n`, leaving out the yield being saved. */
  function TankDayTotal(records: map<nat, Yield>, tank: string, date: int, exclude: Option<nat>, n: nat): int
  {
    if n == 0 then 0
    else
      var k := n - 1;
      var rest := TankDayTotal(records, tank, date, exclude, k);
      if k in records && records[k].tank == tank && DateOf(records[k].recordedAt) == date && exclude != Some(k)
      then rest + records[k].litres
      else rest
  }

  // ---- batches ----

  datatype BatchState = Open | Closed | Locked

  datatype Batch = Batch(
    id: nat,
    session: string,
    date: int,
    state: BatchState,
    reopenedAt: Option<int>,
    closedAt: Option<int>,
    openedBy: Option<nat>,
    closedBy: Option<nat>,
    members: set<nat>)

  function NewBatch(id: nat, session: string, date: int, initial: set<nat>): (b: Batch)
    ensures b.state == Open && b.closedAt.None? && b.members == initial
  {
    Batch(id, session, date, Open, None, None, None, None, initial)
  }

  datatype BatchError = LockedCannotReopen | LockedCannotClose | ClosedBatch

  /** `Batch.open`: refused for a locked batch; otherwise the batch is open,
      its closing is forgotten and the reopening time recorded. */
  function OpenBatch(b: Batch, user: Option<nat>, now: int): (r: Result<Batch, BatchError>)
    ensures r.Err? <==> b.state == Locked
    ensures r.Ok? ==> r.value.state == Open && r.value.closedAt.None? && r.value.closedBy.None?
                      && r.value.reopenedAt == Some(now)
                      && r.value.openedBy == (if user.Some? then user else b.openedBy)
                      && r.value.members == b.members && r.value.session == b.session && r.value.date == b.date
  {
    if b.state == Locked then Err(LockedCannotReopen)
    else Ok(b.(state := Open, closedAt := None, closedBy := None, reopenedAt := Some(now),
               openedBy := if user.Some? then user else b.openedBy))
  }

  /** `Batch.close`: refused for a locked batch; otherwise closed now. */
  function CloseBatch(b: Batch, user: Option<nat>, now: int): (r: Result<Batch, BatchError>)
    ensures r.Err? <==> b.state == Locked
    ensures r.Ok? ==> r.value.state == Closed && r.value.closedAt == Some(now)
                      && r.value.closedBy == (if user.Some? then user else b.closedBy)
                      && r.value.members == b.members && r.value.session == b.session && r.value.date == b.date
  {
    if b.state == Locked then Err(LockedCannotClose)
    else Ok(b.(state := Closed, closedAt := Some(now), closedBy := if user.Some? then user else b.closedBy))
  }

  /** `Batch.lock`: unconditional. */
  function LockBatch(b: Batch): (r: Batch)
    ensures r.state == Locked && r.members == b.members && r.session == b.session && r.date == b.date
  {
    b.(state := Locked)
  }

  lemma LockIdempotent(b: Batch)
    ensures LockBatch(LockBatch(b)) == LockBatch(b)
  {}

  /** A state change requested of one batch; a refused one leaves it as it was. */
  datatype Action = OpenAction(user: Option<nat>, at: int) | CloseAction(user: Option<nat>, at: int) | LockAction

  function Step(b: Batch, a: Action): Batch {
    match a
    case OpenAction(u, t) => (match OpenBatch(b, u, t) case Ok(b2) => b2 case Err(_) => b)
    case CloseAction(u, t) => (match CloseBatch(b, u, t) case Ok(b2) => b2 case Err(_) => b)
    case LockAction => LockBatch(b)
  }

  function Run(b: Batch, actions: seq<Action>): Batch
    decreases |actions|
  {
    if |actions| == 0 then b else Run(Step(b, actions[0]), actions[1..])
  }

  /** LOCKED is terminal: whatever is attempted afterwards, a locked batch
      stays locked and keeps its members. */
  lemma {:induction false} LockedIsTerminal(b: Batch, actions: seq<Action>)
    requires b.state == Locked
    ensures Run(b, actions) == b
    decreases |actions|
  {
    if |actions| > 0 {
      assert Step(b, actions[0]) == b;
      LockedIsTerminal(b, actions[1..]);
    }
  }

  predicate Matches(b: Batch, session: string, date: int) {
    b.session == session && b.date == date
  }

  /** `Batch.for_session` without creation: the index of the latest batch
      of the session and date, if any. */
  function LatestBatch(batches: seq<Batch>, session: string, date: int): (r: Option<nat>)
    ensures r.Some? ==> r.value < |batches| && Matches(batches[r.value], session, date)
                        && forall j :: r.value < j < |batches| ==> !Matches(batches[j], session, date)
    ensures r.None? <==> forall j :: 0 <= j < |batches| ==> !Matches(batches[j], session, date)
  {
    if |batches| == 0 then None
    else
      var last := |batches| - 1;
      if Matches(batches[last], session, date) then Some(last)
      else
        var r := LatestBatch(batches[..last], session, date);
        assert forall j :: 0 <= j < last ==> batches[..last][j] == batches[j];
        r
  }

  /** `Batch.for_session` with creation: an existing latest batch, or a new
      open one appended under the next id. */
  function ForSession(batches: seq<Batch>, nextBatch: nat, session: string, date: int)
    : (out: (seq<Batch>, nat, nat))
    ensures out.2 < |out.0| && Matches(out.0[out.2], session, date)
    ensures LatestBatch(batches, session, date).Some? ==>
              out.0 == batches && out.1 == nextBatch && out.2 == LatestBatch(batches, session, date).value
    ensures LatestBatch(batches, session, date).None? ==>
              out.0 == batches + [NewBatch(nextBatch, session, date, {})] && out.1 == nextBatch + 1
  {
    match LatestBatch(batches, session, date)
    case Some(i) => (batches, nextBatch, i)
    case None => (batches + [NewBatch(nextBatch, session, date, {})], nextBatch + 1, |batches|)
  }

  /** `MilkYield.is_session_available`: no session is never available; a
      session whose latest batch for the date is missing or open is. */
  predicate IsSessionAvailable(batches: seq<Batch>, session: string, date: int) {
    session != "" &&
    match LatestBatch(batches, session, date)
    case None => true
    case Some(i) => batches[i].state == Open
  }

  /** `Batch.ensure_yield_assignment`: put the yield into the latest open
      batch of its session and date; start a new batch when there is none or
      the latest is locked; refuse when the latest is closed. */
  function EnsureYieldAssignment(batches: seq<Batch>, nextBatch: nat, yieldId: nat, session: string, date: int)
    : (r: Result<(seq<Batch>, nat), BatchError>)
    ensures session == "" ==> r == Ok((batches, nextBatch))
    ensures r.Err? <==> session != "" && var i := LatestBatch(batches, session, date);
                        i.Some? && batches[i.value].state == Closed
    ensures r.Ok? && session != "" ==>
      var (bs, nb) := r.value;
      |bs| >= |batches| && nb >= nextBatch
      && (exists i :: 0 <= i < |bs| && yieldId in bs[i].members && bs[i].state == Open && Matches(bs[i], session, date))
      && (forall i :: 0 <= i < |batches| ==> bs[i].id == batches[i].id && bs[i].state == batches[i].state
                                              && batches[i].members <= bs[i].members
                                              && bs[i].members <= batches[i].members + {yieldId})
      && (forall i :: |batches| <= i < |bs| ==> bs[i] == NewBatch(nextBatch, session, date, {yieldId}))
    ensures var i := LatestBatch(batches, session, date);
            session != "" && i.Some? && batches[i.value].state == Open ==>
              r == Ok((batches[i.value := batches[i.value].(members := batches[i.value].members + {yieldId})], nextBatch))
    ensures var i := LatestBatch(batches, session, date);
            session != "" && (i.None? || batches[i.value].state == Locked) ==>
              r == Ok((batches + [NewBatch(nextBatch, session, date, {yieldId})], nextBatch + 1))
  {
    if session == "" then Ok((batches, nextBatch))
    else
      match LatestBatch(batches, session, date)
      case None =>
        var bs := batches + [NewBatch(nextBatch, session, date, {yieldId})];
        assert bs[|batches|].state == Open && yieldId in bs[|batches|].members;
        Ok((bs, nextBatch + 1))
      case Some(i) =>
        if batches[i].state == Locked then
          var bs := batches + [NewBatch(nextBatch, session, date, {yieldId})];
          assert bs[|batches|].state == Open && yieldId in bs[|batches|].members;
          Ok((bs, nextBatch + 1))
        else if batches[i].state == Closed then Err(ClosedBatch)
        else
          var bs := batches[i := batches[i].(members := batches[i].members + {yieldId})];
          assert yieldId in bs[i].members;
          Ok((bs, nextBatch))
  }

  // ---- the intake database ----

  datatype IntakeDb = IntakeDb(records: map<nat, Yield>, batches: seq<Batch>, nextYield: nat, nextBatch: nat)

  predicate Assigned(batches: seq<Batch>, k: nat) {
    exists i :: 0 <= i < |batches| && k in batches[i].members
  }

  /** Ids are below their counters, batches are listed in creation order,
      batches only hold recorded yields, and every yield is in some batch. */
  predicate Valid(db: IntakeDb) {
    (forall k :: k in db.records ==> k < db.nextYield && db.records[k].id == k)
    && (forall i :: 0 <= i < |db.batches| ==> db.batches[i].id < db.nextBatch)
    && (forall i, j :: 0 <= i < j < |db.batches| ==> db.batches[i].id < db.batches[j].id)
    && (forall i :: 0 <= i < |db.batches| ==> db.batches[i].members <= db.records.Keys)
    && (forall k :: k in db.records ==> Assigned(db.batches, k))
  }

  /** What the intake clerk submits. */
  datatype YieldInput = YieldInput(
    pk: Option<nat>,
    cow: nat,
    recordedAt: Option<int>,
    session: string,
    litres: int,
    tank: string,
    grade: string)

  datatype SaveError = OutsideWindows | SessionClosed | BatchClosed

  /** Drop a yield from the table and from every batch. */
  function DeleteYield(db: IntakeDb, id: nat): (db2: IntakeDb)
    ensures db2.records == db.records - {id} && |db2.batches| == |db.batches|
    ensures forall i :: 0 <= i < |db.batches| ==>
              db2.batches[i] == db.batches[i].(members := db.batches[i].members - {id})
  {
    db.(records := db.records - {id},
        batches := seq(|db.batches|, i requires 0 <= i < |db.batches| =>
                         db.batches[i].(members := db.batches[i].members - {id})))
  }

  /** The yield `MilkYield.save` would store: recording time, session,
      window bounds, totals, score and tank level. */
  function PrepareYield(db: IntakeDb, ws: seq<Window>, now: int, input: YieldInput, session: string): Yield {
    var m := input.recordedAt.GetOr(now);
    var bounds := WindowBounds(ws, session, DateOf(m), TimeOf(m));
    var id := input.pk.GetOr(db.nextYield);
    var existing := TankDayTotal(db.records, input.tank, DateOf(m), input.pk, db.nextYield);
    Yield(id, input.cow, m, session,
          if bounds.Some? then Some(bounds.value.start) else None,
          if bounds.Some? then Some(bounds.value.end) else None,
          input.litres, input.tank,
          StorageLevel(existing + input.litres, TankCapacity(input.tank)),
          input.grade, QualityScore(input.grade), input.litres)
  }

  /** The session a save would use, or why the save is refused before
      anything is written: the window containing the recording time wins;
      otherwise the requested session must be given and still available. */
  function SessionForSave(db: IntakeDb, ws: seq<Window>, m: int, requested: string): (r: Result<string, SaveError>)
    ensures ResolveSession(ws, TimeOf(m)).Some? ==> r == Ok(ResolveSession(ws, TimeOf(m)).value)
    ensures ResolveSession(ws, TimeOf(m)).None? ==>
      (r.Ok? <==> IsSessionAvailable(db.batches, requested, DateOf(m)))
      && (r.Ok? ==> r.value == requested)
      && (requested == "" ==> r == Err(OutsideWindows))
  {
    match ResolveSession(ws, TimeOf(m))
    case Some(key) => Ok(key)
    case None =>
      if requested == "" then Err(OutsideWindows)
      else if !IsSessionAvailable(db.batches, requested, DateOf(m)) then Err(SessionClosed)
      else Ok(requested)
  }

  /** Every window carries a session key, as the effective list always does. */
  predicate KeyedWindows(ws: seq<Window>) {
    forall i :: 0 <= i < |ws| ==> ws[i].key != ""
  }

  lemma SessionForSaveNotEmpty(db: IntakeDb, ws: seq<Window>, m: int, requested: string)
    requires KeyedWindows(ws)
    ensures SessionForSave(db, ws, m, requested).Ok? ==> SessionForSave(db, ws, m, requested).value != ""
  {
    var r := ResolveSession(ws, TimeOf(m));
    if r.Some? {
      var i :| 0 <= i < |ws| && ws[i].key == r.value && InWindow(ws[i].span, TimeOf(m))
               && forall j :: 0 <= j < i ==> !InWindow(ws[j].span, TimeOf(m));
    }
  }

  /** `MilkYield.save`: store the yield and attach it to its batch; when the
      batch refuses it, delete the yield again and report the error. */
  function SaveYield(db: IntakeDb, ws: seq<Window>, now: int, input: YieldInput): (out: (IntakeDb, Result<nat, SaveError>))
    ensures out.1.Ok? ==> out.1.value == input.pk.GetOr(db.nextYield) && out.1.value in out.0.records
    ensures out.1.Err? && out.1 != Err(BatchClosed) ==> out.0 == db
    ensures out.1 == Err(BatchClosed) ==> input.pk.GetOr(db.nextYield) !in out.0.records
  {
    var m := input.recordedAt.GetOr(now);
    match SessionForSave(db, ws, m, input.session)
    case Err(e) => (db, Err(e))
    case Ok(session) =>
      var y := PrepareYield(db, ws, now, input, session);
      var db1 := db.(records := db.records[y.id := y], nextYield := Max(db.nextYield, y.id + 1));
      match EnsureYieldAssignment(db1.batches, db1.nextBatch, y.id, session, DateOf(m))
      case Err(_) => (DeleteYield(db1, y.id), Err(BatchClosed))
      case Ok((bs, nb)) => (db1.(batches := bs, nextBatch := nb), Ok(y.id))
  }

  /** Storing a yield and deleting it again keeps the database valid. */
  lemma RollbackKeepsValid(db: IntakeDb, y: Yield)
    requires Valid(db)
    ensures Valid(DeleteYield(db.(records := db.records[y.id := y], nextYield := Max(db.nextYield, y.id + 1)), y.id))
  {
    var db1 := db.(records := db.records[y.id := y], nextYield := Max(db.nextYield, y.id + 1));
    var db2 := DeleteYield(db1, y.id);
    forall k | k in db2.records ensures Assigned(db2.batches, k) {
      assert k in db.records;
      var i :| 0 <= i < |db.batches| && k in db.batches[i].members;
      assert k in db2.batches[i].members;
    }
  }

  /** Storing a yield and attaching it to its batch keeps the database valid. */
  lemma AttachKeepsValid(db: IntakeDb, y: Yield, session: string, date: int)
    requires Valid(db) && session != ""
    requires EnsureYieldAssignment(db.batches, db.nextBatch, y.id, session, date).Ok?
    ensures var (bs, nb) := EnsureYieldAssignment(db.batches, db.nextBatch, y.id, session, date).value;
            Valid(db.(records := db.records[y.id := y], nextYield := Max(db.nextYield, y.id + 1),
                      batches := bs, nextBatch := nb))
  {
    var (bs, nb) := EnsureYieldAssignment(db.batches, db.nextBatch, y.id, session, date).value;
    var l := LatestBatch(db.batches, session, date);
    if l.Some? && db.batches[l.value].state == Open {
      assert |bs| == |db.batches|;
    } else {
      assert bs == db.batches + [NewBatch(db.nextBatch, session, date, {y.id})];
    }
    AttachedBatchesValid(db, y, bs, nb);
  }

  /** Batches that keep the old ones' ids and states, grow their members by
      at most the new yield, and append fresh batches numbered from the
      counter hold a valid database once the yield is stored. */
  lemma AttachedBatchesValid(db: IntakeDb, y: Yield, bs: seq<Batch>, nb: nat)
    requires Valid(db) && |bs| >= |db.batches| && nb >= db.nextBatch
    requires exists i :: 0 <= i < |bs| && y.id in bs[i].members
    requires forall i :: 0 <= i < |db.batches| ==>
               bs[i].id == db.batches[i].id && db.batches[i].members <= bs[i].members
               && bs[i].members <= db.batches[i].members + {y.id}
    requires |bs| > |db.batches| ==> |bs| == |db.batches| + 1 && nb == db.nextBatch + 1
    requires forall i :: |db.batches| <= i < |bs| ==> bs[i].id == db.nextBatch && bs[i].members == {y.id}
    ensures Valid(db.(records := db.records[y.id := y], nextYield := Max(db.nextYield, y.id + 1),
                      batches := bs, nextBatch := nb))
  {
    forall k | k in db.records[y.id := y] ensures Assigned(bs, k) {
      if k != y.id {
        var i :| 0 <= i < |db.batches| && k in db.batches[i].members;
        assert k in bs[i].members;
      }
    }
    forall i | 0 <= i < |bs| ensures bs[i].members <= db.records.Keys + {y.id} {
    }
    forall i, j | 0 <= i < j < |bs| ensures bs[i].id < bs[j].id {
      if j >= |db.batches| {
        assert i < |db.batches|;
      }
    }
  }

  /** Saving keeps the database valid; in particular no yield is ever left
      outside a batch, whether the save succeeds or is rolled back. */
  lemma SaveYieldPreservesValid(db: IntakeDb, ws: seq<Window>, now: int, input: YieldInput)
    requires Valid(db) && KeyedWindows(ws)
    ensures Valid(SaveYield(db, ws, now, input).0)
  {
    var m := input.recordedAt.GetOr(now);
    var sr := SessionForSave(db, ws, m, input.session);
    if sr.Ok? {
      var session := sr.value;
      SessionForSaveNotEmpty(db, ws, m, input.session);
      var y := PrepareYield(db, ws, now, input, session);
      if EnsureYieldAssignment(db.batches, db.nextBatch, y.id, session, DateOf(m)).Err? {
        RollbackKeepsValid(db, y);
      } else {
        AttachKeepsValid(db, y, session, DateOf(m));
      }
    }
  }

  /** A save that is refused for a new yield leaves no yield behind: the
      table of yields is what it was before. */
  lemma RefusedNewYieldLeavesNoTrace(db: IntakeDb, ws: seq<Window>, now: int, input: YieldInput)
    requires Valid(db) && input.pk.None?
    ensures var (db2, r) := SaveYield(db, ws, now, input);
            r.Err? ==> db2.records == db.records
  {
    var m := input.recordedAt.GetOr(now);
    var sr := SessionForSave(db, ws, m, input.session);
    if sr.Ok? {
      var y := PrepareYield(db, ws, now, input, sr.value);
      assert y.id == db.nextYield && y.id !in db.records;
      assert db.records[y.id := y] - {y.id} == db.records;
    }
  }

  /** A successful save records the derived fields and puts the yield in an
      open batch of its session and day. */
  lemma SavedYieldIsInOpenBatch(db: IntakeDb, ws: seq<Window>, now: int, input: YieldInput)
    requires Valid(db) && KeyedWindows(ws)
    ensures var (db2, r) := SaveYield(db, ws, now, input);
            r.Ok? ==>
              var m := input.recordedAt.GetOr(now);
              r.value in db2.records
              && db2.records[r.value].totalYield == input.litres
              && db2.records[r.value].qualityScore == QualityScore(input.grade)
              && db2.records[r.value].recordedAt == m
              && db2.records[r.value].storageLevel
                 == StorageLevel(TankDayTotal(db.records, input.tank, DateOf(m), input.pk, db.nextYield) + input.litres,
                                 TankCapacity(input.tank))
              && exists i :: 0 <= i < |db2.batches| && r.value in db2.batches[i].members
                   && db2.batches[i].state == Open
                   && Matches(db2.batches[i], db2.records[r.value].session, DateOf(m))
  {
    var m := input.recordedAt.GetOr(now);
    var sr := SessionForSave(db, ws, m, input.session);
    SessionForSaveNotEmpty(db, ws, m, input.session);
  }

  /** Outside every window, a session whose latest batch is closed or locked
      cannot take a yield. */
  lemma UnavailableSessionRefused(db: IntakeDb, ws: seq<Window>, now: int, input: YieldInput)
    requires var m := input.recordedAt.GetOr(now);
             ResolveSession(ws, TimeOf(m)).None? && !IsSessionAvailable(db.batches, input.session, DateOf(m))
    ensures SaveYield(db, ws, now, input) == (db, Err(if input.session == "" then OutsideWindows else SessionClosed))
  {}

  // ---- lab tests of intake batches ----

  datatype TestResult = Pending | Approved | Rejected

  datatype BatchTest = BatchTest(result: TestResult, contaminants: Option<string>)

  /** `BatchTest.approve`: the result is recorded and the batch locked. */
  function ApproveTest(t: BatchTest, b: Batch): (out: (BatchTest, Batch))
    ensures out.0.result == Approved && out.0.contaminants == t.contaminants
    ensures out.1.state == Locked && out.1.members == b.members
  {
    (t.(result := Approved), LockBatch(b))
  }

  /** `BatchTest.reject`: a non-empty reason replaces the contaminants
      note, a missing or empty one keeps it, and the batch is locked. */
  function RejectTest(t: BatchTest, b: Batch, reason: Option<string>): (out: (BatchTest, Batch))
    ensures out.0.result == Rejected
    ensures reason.Some? && reason.value != "" ==> out.0.contaminants == reason
    ensures reason.None? || reason.value == "" ==> out.0.contaminants == t.contaminants
    ensures out.0 == t.(result := Rejected, contaminants := out.0.contaminants)
    ensures out.1.state == Locked && out.1.members == b.members
  {
    var given := reason.Some? && reason.value != "";
    (t.(result := Rejected, contaminants := if given then reason else t.contaminants), LockBatch(b))
  }
}

=== FILE: inventory.dfy ===
/** Finished-stock items: the reorder and expiry predicates, the stock
    percentage, consumption and the application of a stock transaction.
    Quantities and money are hundredths; dates are day numbers. */
module Inventory {
  import opened Base

  datatype InventoryItem = InventoryItem(
    id: nat,
    name: string,
    sku: string,
    category: string,
    currentQuantity: int,
    reorderThreshold: int,
    reorderQuantity: int,
    lastRestocked: Option<int>,
    defaultPrice: int,
    sizeMl: Option<nat>,
    expiry: Option<int>,
    batchId: Option<nat>,
    processed: bool)

  /** The item names a production batch; a stored 0 counts as none, as
      Python's truthiness makes it. */
  predicate HasBatch(item: InventoryItem) {
    item.batchId.Some? && item.batchId.value != 0
  }

  /** `needs_reorder`. */
  predicate NeedsReorder(item: InventoryItem) {
    item.currentQuantity <= item.reorderThreshold
  }

  /** `is_expired`. */
  predicate IsExpired(item: InventoryItem, today: int) {
    item.expiry.Some? && item.expiry.value < today
  }

  /** `is_near_expiry`: two days or fewer to go, already expired included. */
  predicate IsNearExpiry(item: InventoryItem, today: int) {
    item.expiry.Some? && item.expiry.value - today <= 2
  }

  lemma ExpiredIsNearExpiry(item: InventoryItem, today: int)
    requires IsExpired(item, today)
    ensures IsNearExpiry(item, today)
  {}

  /** `stock_percentage`, in tenths of a percent: the stock as a share of
      the reorder threshold, rounded half-even to one decimal place; 0 when
      the threshold is not positive. */
  function StockPercentage(item: InventoryItem): (p: int)
    ensures item.reorderThreshold <= 0 ==> p == 0
    ensures item.reorderThreshold > 0 ==>
              2 * Abs(p * item.reorderThreshold - item.currentQuantity * 1000) <= item.reorderThreshold
  {
    if item.reorderThreshold > 0 then RoundHalfEven(item.currentQuantity * 1000, item.reorderThreshold)
    else 0
  }

  /** Stock exactly at the threshold shows as 100.0 percent. */
  lemma AtThresholdIsHundredPercent(item: InventoryItem)
    requires item.reorderThreshold > 0 && item.currentQuantity == item.reorderThreshold
    ensures StockPercentage(item) == 1000
  {
    RoundExact(1000, item.reorderThreshold);
    assert item.currentQuantity * 1000 == 1000 * item.reorderThreshold;
  }

  datatype StockError = NotEnoughStock | ExpiredStock

  /** `InventoryItem.consume`: refused for more than the stock or for an
      expired item; otherwise the stock drops by the amount. */
  function Consume(item: InventoryItem, amount: int, today: int): (r: Result<InventoryItem, StockError>)
    ensures r.Ok? <==> amount <= item.currentQuantity && !IsExpired(item, today)
    ensures amount > item.currentQuantity ==> r == Err(NotEnoughStock)
    ensures r.Ok? ==> r.value.currentQuantity >= 0
    ensures r.Ok? ==> r.value.currentQuantity + amount == item.currentQuantity
                      && r.value == item.(currentQuantity := r.value.currentQuantity)
  {
    if amount > item.currentQuantity then Err(NotEnoughStock)
    else if IsExpired(item, today) then Err(ExpiredStock)
    else Ok(item.(currentQuantity := item.currentQuantity - amount))
  }

  /** `InventoryTransaction.apply`: a restock of an expired item and a
      dispatch larger than the stock are refused; otherwise the quantity is
      added and the item is marked restocked today. */
  function Apply(item: InventoryItem, quantity: int, today: int): (r: Result<InventoryItem, StockError>)
    ensures r.Err? <==> (quantity > 0 && IsExpired(item, today)) || (quantity < 0 && -quantity > item.currentQuantity)
    ensures r.Ok? ==> r.value == item.(currentQuantity := item.currentQuantity + quantity, lastRestocked := Some(today))
  {
    if quantity > 0 && IsExpired(item, today) then Err(ExpiredStock)
    else if quantity < 0 && -quantity > item.currentQuantity then Err(NotEnoughStock)
    else Ok(item.(currentQuantity := item.currentQuantity + quantity, lastRestocked := Some(today)))
  }

  /** A positive consumption and a dispatch transaction of the same amount
      agree on the new stock, and a dispatch never leaves it negative. */
  lemma ConsumeAgreesWithDispatch(item: InventoryItem, amount: int, today: int)
    requires amount > 0 && !IsExpired(item, today)
    ensures Consume(item, amount, today).Ok? <==> Apply(item, -amount, today).Ok?
    ensures Apply(item, -amount, today).Ok? ==>
              Apply(item, -amount, today).value.currentQuantity == Consume(item, amount, today).value.currentQuantity >= 0
  {}

  /** A restock followed by a dispatch of the same amount restores the
      stock, unless the stock was already negative. */
  lemma RestockThenDispatch(item: InventoryItem, q: int, today: int)
    requires q > 0 && !IsExpired(item, today)
    ensures Apply(item, q, today).Ok?
    ensures item.currentQuantity >= 0 <==> Apply(Apply(item, q, today).value, -q, today).Ok?
    ensures item.currentQuantity >= 0 ==>
              Apply(Apply(item, q, today).value, -q, today).value.currentQuantity == item.currentQuantity
  {}

}

=== FILE: inventory_views.dfy ===
/** The inventory dashboard: the stock-status filters and the cold-storage
    overlay that shows, next to each item's own stock, what its batch holds
    in storage. Item quantities are hundredths; storage totals are packets,
    shown as hundredths. */
module InventoryViews {
  import opened Base
  import opened Inventory
  import opened Storage

  // ---- stock-status filters ----

  /** `low`: at or under the reorder threshold but not empty. */
  predicate LowStock(item: InventoryItem) {
    item.currentQuantity <= item.reorderThreshold && item.currentQuantity > 0
  }

  /** `out`: nothing (or less) left. */
  predicate OutOfStock(item: InventoryItem) {
    item.currentQuantity <= 0
  }

  /** `in_stock`: above the reorder threshold. */
  predicate InStock(item: InventoryItem) {
    item.currentQuantity > item.reorderThreshold
  }

  /** Whether an item passes the `stock_status` filter; any other value
      filters nothing. */
  predicate PassesFilter(status: string, item: InventoryItem) {
    if status == "low" then LowStock(item)
    else if status == "out" then OutOfStock(item)
    else if status == "in_stock" then InStock(item)
    else true
  }

  /** The items shown for a filter, in their order. */
  function FilterItems(items: seq<InventoryItem>, status: string): (r: seq<InventoryItem>)
    ensures forall x :: x in r <==> x in items && PassesFilter(status, x)
    ensures |r| <= |items|
  {
    if |items| == 0 then []
    else
      var rest := FilterItems(items[1..], status);
      assert forall x :: x in items <==> x == items[0] || x in items[1..];
      if PassesFilter(status, items[0]) then [items[0]] + rest else rest
  }

  /** With a threshold of zero or more, every item is in exactly one of the
      three stock states. */
  lemma FiltersPartition(item: InventoryItem)
    requires item.reorderThreshold >= 0
    ensures LowStock(item) || OutOfStock(item) || InStock(item)
    ensures !(LowStock(item) && OutOfStock(item))
    ensures !(LowStock(item) && InStock(item))
    ensures !(OutOfStock(item) && InStock(item))
  {}

  /** Below zero the states overlap: an empty item with a negative
      threshold is both out of stock and in stock. */
  lemma NegativeThresholdOverlaps(item: InventoryItem)
    requires item.reorderThreshold < 0 && item.currentQuantity == 0
    ensures OutOfStock(item) && InStock(item)
  {}

  // ---- storage quantities ----

  /** A lot's units as the database computes them: cartons times packets
      per carton plus loose packets, and nothing (`NULL`) without a
      packaging. */
  function SqlUnits(lot: Lot): (u: Option<int>)
    ensures u.Some? <==> lot.packaging.Some?
    ensures u.Some? ==> u.value == TotalUnits(lot)
  {
    match lot.packaging
    case None => None
    case Some(p) => Some(lot.cartons * p.packetsPerCarton + lot.loose)
  }

  /** `Sum` over a batch's lots: `NULL`s are skipped, and the sum of no
      values is `NULL`. */
  function SqlSum(lots: seq<Lot>, batch: nat): Option<int> {
    if |lots| == 0 then None
    else
      var rest := SqlSum(lots[..|lots| - 1], batch);
      var last := lots[|lots| - 1];
      var u := if last.batch == batch then SqlUnits(last) else None;
      if u.None? then rest
      else if rest.None? then u
      else Some(rest.value + u.value)
  }

  /** The packets a batch holds in storage, lot by lot. */
  function BatchUnits(lots: seq<Lot>, batch: nat): int {
    if |lots| == 0 then 0
    else
      var last := lots[|lots| - 1];
      BatchUnits(lots[..|lots| - 1], batch) + (if last.batch == batch then TotalUnits(last) else 0)
  }

  predicate AllPackaged(lots: seq<Lot>, batch: nat) {
    forall i :: 0 <= i < |lots| && lots[i].batch == batch ==> lots[i].packaging.Some?
  }

  predicate HasLot(lots: seq<Lot>, batch: nat) {
    exists i :: 0 <= i < |lots| && lots[i].batch == batch
  }

  /** When every lot of the batch has a packaging, the database sum is the
      batch's packets, and it is missing exactly when the batch has no
      lot. */
  lemma {:induction false} SqlSumIsBatchUnits(lots: seq<Lot>, batch: nat)
    requires AllPackaged(lots, batch)
    ensures SqlSum(lots, batch).Some? <==> HasLot(lots, batch)
    ensures SqlSum(lots, batch).Some? ==> SqlSum(lots, batch).value == BatchUnits(lots, batch)
    ensures SqlSum(lots, batch).None? ==> BatchUnits(lots, batch) == 0
  {
    if |lots| > 0 {
      var n := |lots| - 1;
      assert forall i :: 0 <= i < n ==> lots[..n][i] == lots[i];
      SqlSumIsBatchUnits(lots[..n], batch);
      if HasLot(lots[..n], batch) {
        var i :| 0 <= i < n && lots[..n][i].batch == batch;
        assert lots[i].batch == batch;
      }
      if HasLot(lots, batch) && lots[n].batch != batch {
        var i :| 0 <= i < |lots| && lots[i].batch == batch;
        assert lots[..n][i].batch == batch;
      }
    }
  }

  /** A lot without packaging adds nothing to the database sum, though it
      holds its loose packets. */
  lemma UnpackagedLotIgnored(lots: seq<Lot>, lot: Lot)
    requires lot.packaging.None?
    ensures SqlSum(lots + [lot], lot.batch) == SqlSum(lots, lot.batch)
    ensures BatchUnits(lots + [lot], lot.batch) == BatchUnits(lots, lot.batch) + lot.loose
  {
    assert (lots + [lot])[..|lots|] == lots;
  }

  /** The storage quantity of each listed batch, in hundredths; a batch
      whose sum is `NULL` has none. */
  function StorageQuantities(lots: seq<Lot>, batchIds: set<nat>): (m: map<nat, int>)
    ensures forall b :: b in m <==> b in batchIds && SqlSum(lots, b).Some?
    ensures forall b :: b in m ==> m[b] == SqlSum(lots, b).value * 100
  {
    map b | b in batchIds && SqlSum(lots, b).Some? :: SqlSum(lots, b).value * 100
  }

  /** The batches of the listed items, a batch id of 0 counting as none. */
  function BatchIds(items: seq<InventoryItem>): (ids: set<nat>)
    ensures forall b :: b in ids <==> exists i :: 0 <= i < |items| && HasBatch(items[i]) && items[i].batchId.value == b
  {
    set i | 0 <= i < |items| && HasBatch(items[i]) :: items[i].batchId.value
  }

  // ---- the overlay ----

  datatype OverlayRow = OverlayRow(
    system: int,
    storage: Option<int>,
    display: int,
    fromStorage: bool,
    systemNegative: bool,
    mismatch: bool)

  /** The storage quantity of an item's batch, if the map has one. */
  function StorageFor(item: InventoryItem, quantities: map<nat, int>): Option<int> {
    if item.batchId.Some? && item.batchId.value in quantities then Some(quantities[item.batchId.value]) else None
  }

  /** `apply_storage_overlay` on one item: show the storage quantity when
      there is one and the item's own stock otherwise, and flag a negative
      stock and a stock that disagrees with storage. */
  function Overlay(item: InventoryItem, quantities: map<nat, int>): (row: OverlayRow)
    ensures row.system == item.currentQuantity
    ensures row.fromStorage <==> row.storage.Some?
    ensures row.display == row.storage.GetOr(item.currentQuantity)
    ensures row.systemNegative <==> item.currentQuantity < 0
    ensures row.mismatch <==> row.storage.Some? && row.storage.value != item.currentQuantity
    ensures row.storage.Some? <==> item.batchId.Some? && item.batchId.value in quantities
  {
    var s := StorageFor(item, quantities);
    OverlayRow(item.currentQuantity, s, if s.Some? then s.value else item.currentQuantity,
               s.Some?, item.currentQuantity < 0, s.Some? && s.value != item.currentQuantity)
  }

  /** A flagged mismatch always shows the storage quantity, which differs
      from the item's stock; without a mismatch the shown quantity is the
      item's stock. */
  lemma MismatchShowsStorage(item: InventoryItem, quantities: map<nat, int>)
    ensures Overlay(item, quantities).mismatch ==>
              Overlay(item, quantities).fromStorage && Overlay(item, quantities).display != item.currentQuantity
    ensures !Overlay(item, quantities).mismatch ==> Overlay(item, quantities).display == item.currentQuantity
  {}

  /** On the dashboard, an item whose batch has packaged lots in storage
      shows those lots' packets; other items show their own stock. */
  lemma DashboardShowsStoredPackets(items: seq<InventoryItem>, lots: seq<Lot>, k: nat)
    requires k < |items| && HasBatch(items[k])
    requires AllPackaged(lots, items[k].batchId.value)
    ensures var row := Overlay(items[k], StorageQuantities(lots, BatchIds(items)));
            (HasLot(lots, items[k].batchId.value) ==>
               row.fromStorage && row.display == BatchUnits(lots, items[k].batchId.value) * 100)
            && (!HasLot(lots, items[k].batchId.value) ==> !row.fromStorage && row.display == items[k].currentQuantity)
  {
    SqlSumIsBatchUnits(lots, items[k].batchId.value);
    assert items[k].batchId.value in BatchIds(items);
  }
}

=== FILE: lab_approval.dfy ===
/** Lab approval of production batches: the verdict and expiry decide the
    batch's status, the approval form's checks, the storage assignment it
    writes, the destination tank, the shelf-life table, the approval view
    that strings these together, and the dashboard's row statuses for tests,
    production batches and stock. Dates are day numbers; quantities in the
    form are hundredths and lots hold whole packets. */
module LabApproval {
  import opened Base
  import opened Intake
  import opened Production
  import opened Storage
  import opened Inventory
  import opened LabViews

  datatype Verdict = Approve | Reject | Undecided

  /** A `LabBatchApproval`: the production batch it judges, if any. */
  datatype Approval = Approval(batch: Option<nat>, result: Verdict, expiry: Option<int>, remarks: string)

  // ---- the production batch follows the approval ----

  /** The status an approval calls for: ready for store once approved with
      an expiry, lab approved while the expiry is missing, pending the lab
      otherwise. */
  function DesiredStatus(result: Verdict, expiry: Option<int>): (s: BatchStatus)
    ensures s == ReadyForStore <==> result == Approve && expiry.Some?
    ensures s == LabApproved <==> result == Approve && expiry.None?
    ensures s == PendingLab <==> result != Approve
  {
    if result == Approve then (if expiry.Some? then ReadyForStore else LabApproved)
    else PendingLab
  }

  /** `_sync_production_batch_state` on one batch: it takes the desired
      status and is marked as moved to the lab; the flag says whether
      anything had to be saved. */
  function SyncBatchState(a: Approval, b: ProductionBatch): (r: (ProductionBatch, bool))
    ensures r.0 == b.(status := DesiredStatus(a.result, a.expiry), movedToLab := true)
    ensures r.1 <==> b.status != DesiredStatus(a.result, a.expiry) || !b.movedToLab
  {
    var desired := DesiredStatus(a.result, a.expiry);
    var changed := b.status != desired || !b.movedToLab;
    (b.(status := desired, movedToLab := true), changed)
  }

  /** Syncing twice saves nothing the second time. */
  lemma SyncBatchStateIdempotent(a: Approval, b: ProductionBatch)
    ensures SyncBatchState(a, SyncBatchState(a, b).0) == (SyncBatchState(a, b).0, false)
  {}

  /** `LabBatchApproval.save`: the approval is stored and the batch it
      names, if it names one that exists, follows it. */
  function SaveApproval(a: Approval, batches: map<nat, ProductionBatch>): (r: map<nat, ProductionBatch>)
    ensures r.Keys == batches.Keys
    ensures forall k :: k in batches && a.batch != Some(k) ==> r[k] == batches[k]
    ensures a.batch.Some? && a.batch.value in batches ==>
              r[a.batch.value].status == DesiredStatus(a.result, a.expiry) && r[a.batch.value].movedToLab
  {
    if a.batch.Some? && a.batch.value in batches then
      batches[a.batch.value := SyncBatchState(a, batches[a.batch.value]).0]
    else batches
  }

  /** `set_expiry`: the expiry becomes today plus the shelf life. */
  function SetExpiry(a: Approval, shelfLifeDays: int, today: int): (r: Approval)
    ensures r.expiry == Some(today + shelfLifeDays)
    ensures r == a.(expiry := r.expiry)
  {
    a.(expiry := Some(today + shelfLifeDays))
  }

  /** An approval given an expiry makes its batch ready for store. */
  lemma ApprovedWithExpiryIsReady(a: Approval, days: int, today: int, batches: map<nat, ProductionBatch>)
    requires a.result == Approve && a.batch.Some? && a.batch.value in batches
    ensures SaveApproval(SetExpiry(a, days, today), batches)[a.batch.value].status == ReadyForStore
  {}

  // ---- shelf life ----

  /** `DEFAULT_SHELF_LIFE_BY_PRODUCT`, with seven days for any other SKU. */
  function ShelfLifeDays(sku: string): (days: int)
    ensures days > 0
    ensures sku == "GHEE-PR-250" ==> days == 180
    ensures sku !in {"MALA-CL-500", "YOG-PL-250", "ESL-VAN-500", "ESL-STR-500", "GHEE-PR-250", "ATM-TOWN"} ==> days == 7
  {
    if sku == "MALA-CL-500" then 14
    else if sku == "YOG-PL-250" then 10
    else if sku == "ESL-VAN-500" then 21
    else if sku == "ESL-STR-500" then 21
    else if sku == "GHEE-PR-250" then 180
    else if sku == "ATM-TOWN" then 3
    else 7
  }

  /** `compute_expiry_for_sku`: the start date (today by default) plus the
      SKU's shelf life, always strictly later than the start. */
  function ComputeExpiry(sku: string, start: Option<int>, today: int): (e: int)
    ensures e > start.GetOr(today)
    ensures e - start.GetOr(today) == ShelfLifeDays(sku)
  {
    start.GetOr(today) + ShelfLifeDays(sku)
  }

  lemma ShelfLifeTable()
    ensures ComputeExpiry("MALA-CL-500", Some(0), 0) == 14
    ensures ComputeExpiry("YOG-PL-250", Some(0), 0) == 10
    ensures ComputeExpiry("ESL-VAN-500", Some(0), 0) == 21
    ensures ComputeExpiry("ESL-STR-500", Some(0), 0) == 21
    ensures ComputeExpiry("ATM-TOWN", Some(0), 0) == 3
    ensures ComputeExpiry("ATM-TOWN", None, 5) == 8
  {}

  // ---- the approval form ----

  /** A tank offered as a destination: any tank with a capacity except
      `Unassigned`. */
  predicate ActiveTank(tank: string) {
    TankCapacity(tank).Some? && tank != Unassigned
  }

  lemma ActiveTanks(tank: string)
    ensures ActiveTank(tank) <==> tank in {"Tank A", "Tank B", "Tank C", SpoiltTank}
  {}

  /** What the approval form receives; `None` or `""` for a blank field. */
  datatype ApprovalInput = ApprovalInput(
    result: Verdict,
    expiry: Option<int>,
    remarks: string,
    shelfLifeDays: Option<int>,
    location: Option<nat>,
    quantity: Option<int>,
    status: Option<LotStatus>,
    tank: string,
    notes: string)

  datatype FieldError =
    | ShelfLifeOutOfRange
    | QuantityTooSmall
    | UnknownTank
    | MissingLocation
    | MissingQuantity
    | MissingExpiry
    | MissingTank

  /** The shelf life field accepts 1 to 365 days. */
  predicate ShelfLifeValid(days: Option<int>) {
    days.None? || 1 <= days.value <= 365
  }

  /** The quantity field accepts 0.01 and above. */
  predicate QuantityValid(q: Option<int>) {
    q.None? || q.value >= 1
  }

  /** The tank field only offers the active tanks. */
  predicate TankValid(tank: string) {
    tank == "" || ActiveTank(tank)
  }

  /** What survives the field checks: a field that fails its own check is
      dropped from the cleaned data. */
  datatype Cleaned = Cleaned(shelfLifeDays: Option<int>, quantity: Option<int>, tank: string)

  function CleanFields(f: ApprovalInput): (c: Cleaned)
    ensures c.shelfLifeDays.Some? ==> 1 <= c.shelfLifeDays.value <= 365
    ensures c.quantity.Some? ==> c.quantity.value >= 1
    ensures c.tank == "" || ActiveTank(c.tank)
  {
    Cleaned(if ShelfLifeValid(f.shelfLifeDays) then f.shelfLifeDays else None,
            if QuantityValid(f.quantity) then f.quantity else None,
            if TankValid(f.tank) then f.tank else "")
  }

  /** The quantity moving into storage: the form's, else the existing
      record's when that is not zero. */
  function FormQuantity(c: Cleaned, record: Option<Lot>): Option<int> {
    if c.quantity.Some? then c.quantity
    else if record.Some? && LotQuantity(record.value) != 0 then Some(LotQuantity(record.value) * 100)
    else None
  }

  /** `LabBatchApprovalForm` validation: each field's own check, then, for
      an approval, a location, a quantity, an expiry or shelf life and a
      destination tank are all required. The form's own check of the tank
      against the active tanks can never fire, since the field already
      refuses any other tank. */
  function ApprovalErrors(f: ApprovalInput, record: Option<Lot>): (errs: set<FieldError>)
    ensures ShelfLifeOutOfRange in errs <==> !ShelfLifeValid(f.shelfLifeDays)
    ensures QuantityTooSmall in errs <==> !QuantityValid(f.quantity)
    ensures UnknownTank in errs <==> !TankValid(f.tank)
    ensures f.result != Approve ==> errs * {MissingLocation, MissingQuantity, MissingExpiry, MissingTank} == {}
    ensures f.result == Approve ==>
              (MissingLocation in errs <==> f.location.None?)
              && (MissingQuantity in errs <==> FormQuantity(CleanFields(f), record).None?)
              && (MissingExpiry in errs <==> f.expiry.None? && CleanFields(f).shelfLifeDays.None?)
              && (MissingTank in errs <==> CleanFields(f).tank == "")
  {
    var c := CleanFields(f);
    var field :=
      (if ShelfLifeValid(f.shelfLifeDays) then {} else {ShelfLifeOutOfRange})
      + (if QuantityValid(f.quantity) then {} else {QuantityTooSmall})
      + (if TankValid(f.tank) then {} else {UnknownTank});
    var required :=
      if f.result != Approve then {}
      else
        (if f.location.None? then {MissingLocation} else {})
        + (if FormQuantity(c, record).None? then {MissingQuantity} else {})
        + (if f.expiry.None? && c.shelfLifeDays.None? then {MissingExpiry} else {})
        + (if c.tank == "" then {MissingTank} else {});
    field + required
  }

  /** An approval the form accepts names a location, a quantity, an active
      tank, and an expiry or a shelf life within range. */
  lemma AcceptedApprovalIsComplete(f: ApprovalInput, record: Option<Lot>)
    requires f.result == Approve && ApprovalErrors(f, record) == {}
    ensures f.location.Some? && FormQuantity(CleanFields(f), record).Some?
    ensures ActiveTank(f.tank)
    ensures f.expiry.Some? || (f.shelfLifeDays.Some? && 1 <= f.shelfLifeDays.value <= 365)
  {
    assert MissingTank !in ApprovalErrors(f, record);
    assert UnknownTank !in ApprovalErrors(f, record);
  }

  // ---- the storage assignment ----

  /** Whole packets for a quantity in hundredths; nothing for none. */
  function PacketsOf(q: int): (n: nat)
    ensures q >= 100 ==> n >= 1
    ensures n * 100 <= Max(q, 0) < n * 100 + 100
  {
    if q <= 0 then 0 else q / 100
  }

  /** How many lots hold a batch. */
  function LotsFor(lots: seq<Lot>, batch: nat): nat {
    if |lots| == 0 then 0
    else LotsFor(lots[..|lots| - 1], batch) + (if lots[|lots| - 1].batch == batch then 1 else 0)
  }

  /** `save_storage_assignment`: nothing unless approved with a location.
      The quantity falls back to the batch's production, the status to in
      storage and the expiry to the production date. The batch's lot, if
      there is one, is updated in place; otherwise a loose lot is added. */
  function SaveStorageAssignment(a: Approval, f: ApprovalInput, c: Cleaned, b: ProductionBatch, lots: seq<Lot>,
                                 nextLot: nat, today: int): (r: (seq<Lot>, Option<Lot>))
    ensures r.1.None? <==> a.result != Approve || f.location.None?
    ensures r.1.None? ==> r.0 == lots
    ensures r.1.Some? ==>
              r.1.value in r.0 && r.1.value.batch == b.id && r.1.value.location == f.location.value
              && r.1.value.expiry == (if a.expiry.Some? then a.expiry.value else DateOf(b.producedAt))
              && r.1.value.status == f.status.GetOr(InStorage)
              && LotQuantity(r.1.value) == PacketsOf(c.quantity.GetOr(b.quantityProduced))
    ensures r.1.Some? && FindLot(lots, b.id).Some? ==>
              var i := FindLot(lots, b.id).value;
              r.0 == lots[i := r.1.value] && r.1.value.storageId == lots[i].storageId
    ensures r.1.Some? && FindLot(lots, b.id).None? ==> r.0 == lots + [r.1.value]
  {
    if a.result != Approve || f.location.None? then (lots, None)
    else
      var packets := PacketsOf(if c.quantity.Some? then c.quantity.value else b.quantityProduced);
      var status := f.status.GetOr(InStorage);
      var expiry := if a.expiry.Some? then a.expiry.value else DateOf(b.producedAt);
      match FindLot(lots, b.id)
      case Some(i) =>
        var lot := WithQuantity(lots[i].(location := f.location.value, status := status, expiry := expiry), packets);
        QuantityRoundTrip(lots[i].(location := f.location.value, status := status, expiry := expiry), packets);
        assert lots[i := lot][i] == lot;
        (lots[i := lot], Some(lot))
      case None =>
        var lot := Lot(nextLot, b.id, None, expiry, 0, packets, f.location.value, status, today);
        (lots + [lot], Some(lot))
  }

  lemma LotsForAppend(lots: seq<Lot>, lot: Lot, batch: nat)
    ensures LotsFor(lots + [lot], batch) == LotsFor(lots, batch) + (if lot.batch == batch then 1 else 0)
  {
    assert (lots + [lot])[..|lots|] == lots;
  }

  lemma {:induction false} LotsForUpdate(lots: seq<Lot>, i: nat, lot: Lot, batch: nat)
    requires i < |lots| && lots[i].batch == lot.batch
    ensures LotsFor(lots[i := lot], batch) == LotsFor(lots, batch)
  {
    var n := |lots| - 1;
    if i < n {
      assert lots[i := lot][..n] == lots[..n][i := lot];
      LotsForUpdate(lots[..n], i, lot, batch);
    } else {
      assert lots[i := lot][..n] == lots[..n];
    }
  }

  lemma {:induction false} FindLotNoneMeansNoLots(lots: seq<Lot>, batch: nat)
    requires FindLot(lots, batch).None?
    ensures LotsFor(lots, batch) == 0
  {
    if |lots| > 0 {
      var n := |lots| - 1;
      assert forall j :: 0 <= j < n ==> lots[..n][j] == lots[j];
      FindLotNoneMeansNoLots(lots[..n], batch);
    }
  }

  /** A batch with at most one lot has exactly one after an assignment. */
  lemma AssignmentKeepsOneLotPerBatch(a: Approval, f: ApprovalInput, c: Cleaned, b: ProductionBatch, lots: seq<Lot>,
                                      nextLot: nat, today: int)
    requires LotsFor(lots, b.id) <= 1
    requires a.result == Approve && f.location.Some?
    ensures LotsFor(SaveStorageAssignment(a, f, c, b, lots, nextLot, today).0, b.id) == 1
  {
    var r := SaveStorageAssignment(a, f, c, b, lots, nextLot, today);
    match FindLot(lots, b.id)
    case Some(i) =>
      LotsForUpdate(lots, i, r.0[i], b.id);
      assert r.0 == lots[i := r.0[i]];
      LotsForPositive(lots, i, b.id);
    case None =>
      FindLotNoneMeansNoLots(lots, b.id);
      LotsForAppend(lots, r.1.value, b.id);
  }

  lemma {:induction false} LotsForPositive(lots: seq<Lot>, i: nat, batch: nat)
    requires i < |lots| && lots[i].batch == batch
    ensures LotsFor(lots, batch) >= 1
  {
    var n := |lots| - 1;
    if i < n {
      assert lots[..n][i] == lots[i];
      LotsForPositive(lots[..n], i, batch);
    }
  }

  /** `sync_destination_tank`: nothing without a batch or a tank; otherwise
      the batch's source tank becomes the chosen tank. */
  function SyncDestinationTank(b: Option<ProductionBatch>, tank: string): (r: Option<ProductionBatch>)
    ensures r.None? <==> b.None? || tank == ""
    ensures r.Some? ==> r.value == b.value.(sourceTank := tank)
  {
    if b.None? || tank == "" then None
    else if b.value.sourceTank == tank then b
    else Some(b.value.(sourceTank := tank))
  }

  // ---- the approval view ----

  datatype ApprovalOutcome = ApprovalOutcome(approval: Approval, batch: ProductionBatch, lots: seq<Lot>, stored: Option<Lot>)

  /** `approve_batch` on a submitted form: refused with the form's errors,
      or the approval is saved (given an expiry from the shelf life when an
      approval has none), the batch follows it, the storage assignment is
      written and the destination tank recorded. */
  function ApproveBatch(b: ProductionBatch, existing: Option<Approval>, f: ApprovalInput, lots: seq<Lot>,
                        nextLot: nat, today: int): (r: Result<ApprovalOutcome, set<FieldError>>)
    ensures r.Err? <==> ApprovalErrors(f, FindRecord(lots, b.id)) != {}
    ensures r.Err? ==> r.error == ApprovalErrors(f, FindRecord(lots, b.id))
    ensures r.Ok? ==> r.value.approval.batch == Some(b.id) && r.value.approval.result == f.result
    ensures r.Ok? ==> r.value.batch.status == DesiredStatus(r.value.approval.result, r.value.approval.expiry)
                      && r.value.batch.movedToLab
  {
    var record := FindRecord(lots, b.id);
    var errs := ApprovalErrors(f, record);
    if errs != {} then Err(errs)
    else
      var c := CleanFields(f);
      var base := existing.GetOr(Approval(None, Undecided, None, ""));
      var a0 := base.(batch := Some(b.id), result := f.result, expiry := f.expiry, remarks := f.remarks);
      var shelf := c.shelfLifeDays.GetOr(0);
      var a := if a0.result == Approve && a0.expiry.None? && shelf != 0 then SetExpiry(a0, shelf, today) else a0;
      var synced := SyncBatchState(a, b).0;
      var (lots2, stored) := SaveStorageAssignment(a, f, c, b, lots, nextLot, today);
      var tanked := SyncDestinationTank(Some(synced), c.tank);
      Ok(ApprovalOutcome(a, tanked.GetOr(synced), lots2, stored))
  }

  /** The batch's existing storage record. */
  function FindRecord(lots: seq<Lot>, batch: nat): Option<Lot> {
    match FindLot(lots, batch)
    case Some(i) => Some(lots[i])
    case None => None
  }

  /** An accepted approval makes the batch ready for store, moves it into
      storage at the chosen location and puts it in the chosen tank. */
  lemma AcceptedApprovalStoresBatch(b: ProductionBatch, existing: Option<Approval>, f: ApprovalInput, lots: seq<Lot>,
                                    nextLot: nat, today: int)
    requires f.result == Approve
    requires ApproveBatch(b, existing, f, lots, nextLot, today).Ok?
    ensures var o := ApproveBatch(b, existing, f, lots, nextLot, today).value;
            o.batch.status == ReadyForStore && o.batch.sourceTank == f.tank && ActiveTank(f.tank)
            && o.stored.Some? && o.stored.value in o.lots && o.stored.value.location == f.location.value
            && o.stored.value.batch == b.id
  {
    AcceptedApprovalIsComplete(f, FindRecord(lots, b.id));
  }

  /** A rejection sends the batch back to pending the lab and stores
      nothing. */
  lemma RejectionStoresNothing(b: ProductionBatch, existing: Option<Approval>, f: ApprovalInput, lots: seq<Lot>,
                               nextLot: nat, today: int)
    requires f.result == Reject
    requires ApproveBatch(b, existing, f, lots, nextLot, today).Ok?
    ensures var o := ApproveBatch(b, existing, f, lots, nextLot, today).value;
            o.batch.status == PendingLab && o.stored.None? && o.lots == lots
  {}

  // ---- dashboard rows ----

  /** A lab test row: approved passes, rejected fails, anything else
      waits. */
  function LabRowStatus(result: TestResult): (s: RowStatus)
    ensures s == Pass <==> result == Approved
    ensures s == Fail <==> result == Rejected
  {
    match result
    case Approved => Pass
    case Rejected => Fail
    case Pending => Waiting
  }

  /** A production row: a rejection fails, an approval with an expiry
      passes, and everything else waits (the batch's own status only
      changes the wording). */
  function ProductionRowStatus(approval: Option<Approval>): (s: RowStatus)
    ensures s == Fail <==> approval.Some? && approval.value.result == Reject
    ensures s == Pass <==> approval.Some? && approval.value.result == Approve && approval.value.expiry.Some?
  {
    if approval.Some? && approval.value.result == Reject then Fail
    else if approval.Some? && approval.value.result == Approve && approval.value.expiry.Some? then Pass
    else Waiting
  }

  /** A production row passes exactly when its batch's synced status is
      ready for store. */
  lemma ProductionRowAgreesWithStatus(a: Approval, b: ProductionBatch)
    ensures ProductionRowStatus(Some(a)) == Pass
            <==> SyncBatchState(a, b).0.status == ReadyForStore
  {}

  /** A stock row: expired fails, near expiry waits, anything else
      passes. */
  function StockRowStatus(item: InventoryItem, today: int): (s: RowStatus)
    ensures s == Fail <==> IsExpired(item, today)
    ensures s == Waiting <==> IsNearExpiry(item, today) && !IsExpired(item, today)
    ensures s == Pass <==> !IsNearExpiry(item, today)
  {
    if IsExpired(item, today) then Fail
    else if IsNearExpiry(item, today) then Waiting
    else Pass
  }
}

=== FILE: lab_views.dfy ===
/** The decisions the lab screens take over intake batches: opening and
    closing a session's batch, recording a quick test or a full test run,
    editing a batch, and the status shown for a collection row. */
module LabViews {
  import opened Base
  import opened CollectionWindows
  import opened Intake
  import opened Text

  // ---- session toggle ----

  datatype ToggleOutcome = InvalidSession | Opened | ClosedNow | UnknownAction | Refused(error: BatchError)

  /** `collection_session_toggle`: an unknown session key touches nothing;
      otherwise the session's batch for the day is found or created, and
      the requested transition is tried; a refusal is reported, not raised. */
  function SessionToggle(db: IntakeDb, key: string, action: string, date: int, user: nat, now: int)
    : (out: (IntakeDb, ToggleOutcome))
    ensures !IsSessionKey(key) ==> out == (db, InvalidSession)
    ensures out.0.records == db.records
    ensures IsSessionKey(key) ==>
      var (bs, _, i) := ForSession(db.batches, db.nextBatch, key, date);
      |out.0.batches| == |bs|
      && (forall j :: 0 <= j < |bs| && j != i ==> out.0.batches[j] == bs[j])
      && (bs[i].state == Locked ==> out.0.batches[i] == bs[i] && out.1 != Opened && out.1 != ClosedNow)
      && (out.1 == Opened <==> action == "open" && bs[i].state != Locked)
      && (out.1 == ClosedNow <==> action == "close" && bs[i].state != Locked)
      && (out.1 == Opened ==> out.0.batches[i].state == Open)
      && (out.1 == ClosedNow ==> out.0.batches[i].state == Closed)
    ensures IsSessionKey(key) && action != "open" && action != "close" ==>
      var (bs, nb, _) := ForSession(db.batches, db.nextBatch, key, date);
      out.1 == UnknownAction && out.0.batches == bs && out.0.nextBatch == nb
    ensures IsSessionKey(key) && (action == "open" || action == "close") ==>
      var (bs, _, i) := ForSession(db.batches, db.nextBatch, key, date);
      (out.1.Refused? <==> bs[i].state == Locked)
  {
    if !IsSessionKey(key) then (db, InvalidSession)
    else
      var (bs, nb, i) := ForSession(db.batches, db.nextBatch, key, date);
      var db1 := db.(batches := bs, nextBatch := nb);
      if action == "open" then
        match OpenBatch(bs[i], Some(user), now)
        case Ok(b) => (db1.(batches := bs[i := b]), Opened)
        case Err(e) => (db1, Refused(e))
      else if action == "close" then
        match CloseBatch(bs[i], Some(user), now)
        case Ok(b) => (db1.(batches := bs[i := b]), ClosedNow)
        case Err(e) => (db1, Refused(e))
      else (db1, UnknownAction)
  }

  // ---- the tank of an intake batch ----

  /** The real tanks (not blank, not "Unassigned") holding a batch's yields. */
  function TanksOf(records: map<nat, Yield>, members: set<nat>): set<string> {
    set k | k in members && k in records && records[k].tank != "" && records[k].tank != Unassigned :: records[k].tank
  }

  /** The current-tank helper: the batch's tank when its yields are in
      exactly one real tank, otherwise blank. */
  function CurrentTank(records: map<nat, Yield>, members: set<nat>): (tank: string)
    ensures tank != "" <==> |TanksOf(records, members)| == 1
    ensures tank != "" ==> TanksOf(records, members) == {tank}
  {
    var tanks := TanksOf(records, members);
    if |tanks| == 1 then
      SingletonElement(tanks)
    else ""
  }

  function SingletonElement(s: set<string>): (x: string)
    requires |s| == 1
    ensures s == {x}
  {
    var x :| x in s;
    assert s - {x} == {} by { assert |s - {x}| == 0; }
    x
  }

  /** Move every yield of a batch into a tank. */
  function RetankMembers(records: map<nat, Yield>, members: set<nat>, tank: string): (r: map<nat, Yield>)
    ensures r.Keys == records.Keys
    ensures forall k :: k in r ==> r[k] == (if k in members then records[k].(tank := tank) else records[k])
  {
    map k | k in records :: if k in members then records[k].(tank := tank) else records[k]
  }

  /** After retanking, a batch that holds any yield sits in exactly that tank. */
  lemma RetankedBatchHasThatTank(records: map<nat, Yield>, members: set<nat>, tank: string)
    requires exists k :: k in members && k in records
    requires tank != "" && tank != Unassigned
    ensures CurrentTank(RetankMembers(records, members, tank), members) == tank
  {
    var r := RetankMembers(records, members, tank);
    var k :| k in members && k in records;
    assert r[k].tank == tank;
    assert TanksOf(r, members) == {tank};
  }

  // ---- recording a verdict ----

  /** Tanks a quick test may put a batch in. */
  const QuickTestTanks: set<string> := {"Tank A", "Tank B", "Tank C"}

  /** Tanks a full test run may put a batch in: every tank but "Unassigned". */
  const TestRunTanks: set<string> := {"Tank A", "Tank B", "Tank C", SpoiltTank}

  /** Store a test for a batch and apply its verdict: an approval or a
      rejection locks the batch, a pending result leaves it as it is. */
  function RecordTest(db: IntakeDb, tests: map<nat, BatchTest>, i: nat, t: BatchTest)
    : (out: (IntakeDb, map<nat, BatchTest>))
    requires i < |db.batches|
    ensures out.0.records == db.records && |out.0.batches| == |db.batches|
    ensures forall j :: 0 <= j < |db.batches| && j != i ==> out.0.batches[j] == db.batches[j]
    ensures out.0.batches[i].members == db.batches[i].members
    ensures out.0.batches[i].state == (if t.result == Pending then db.batches[i].state else Locked)
    ensures out.1 == tests[db.batches[i].id := t]
  {
    var b := db.batches[i];
    match t.result
    case Approved =>
      var (t2, b2) := ApproveTest(t, b);
      (db.(batches := db.batches[i := LockBatch(b2)]), tests[b.id := t2])
    case Rejected =>
      var reason := if t.contaminants == Some("") then None else t.contaminants;
      var (t2, b2) := RejectTest(t, b, reason);
      (db.(batches := db.batches[i := LockBatch(b2)]), tests[b.id := t2])
    case Pending =>
      (db, tests[b.id := t])
  }

  datatype TestOutcome = AlreadyTested | BatchLocked | NotClosed | InvalidTank | InvalidForm | Recorded

  /** The recording step of a quick test: the batch's yields move to the
      chosen tank and the verdict is recorded. */
  function RetankAndRecord(db: IntakeDb, tests: map<nat, BatchTest>, i: nat, tank: string, t: BatchTest)
    : (out: (IntakeDb, map<nat, BatchTest>))
    requires i < |db.batches| && tank in QuickTestTanks
    ensures |out.0.batches| == |db.batches|
    ensures out.0.batches[i].state == (if t.result == Pending then db.batches[i].state else Locked)
    ensures out.1 == tests[db.batches[i].id := t]
    ensures (exists k :: k in db.batches[i].members && k in db.records) ==>
              CurrentTank(out.0.records, db.batches[i].members) == tank
  {
    var members := db.batches[i].members;
    var db2 := if tank != CurrentTank(db.records, members)
               then db.(records := RetankMembers(db.records, members, tank))
               else db;
    assert (exists k :: k in members && k in db.records) ==>
             CurrentTank(db2.records, members) == tank by {
      if (exists k :: k in members && k in db.records) && tank != CurrentTank(db.records, members) {
        RetankedBatchHasThatTank(db.records, members, tank);
      }
    }
    RecordTest(db2, tests, i, t)
  }

  /** The quick-test action of the approvals screen: a batch already tested
      or locked is refused untouched; an open batch is closed first; then
      the tank must be a certified one and the form valid; the batch's
      yields are moved to the chosen tank and the verdict recorded. */
  function QuickTest(db: IntakeDb, tests: map<nat, BatchTest>, i: nat, selectedTank: string,
                     formValid: bool, t: BatchTest, user: nat, now: int)
    : (out: (IntakeDb, map<nat, BatchTest>, TestOutcome))
    requires i < |db.batches|
    ensures var b := db.batches[i];
            (b.id in tests ==> out == (db, tests, AlreadyTested))
            && (b.id !in tests && b.state == Locked ==> out == (db, tests, BatchLocked))
    ensures |out.0.batches| == |db.batches|
    ensures db.batches[i].id !in tests && db.batches[i].state != Locked ==>
              out.0.batches[i].state != Open
    ensures out.2 == Recorded ==>
              (out.0.batches[i].state == Locked <==> t.result != Pending)
              && out.1 == tests[db.batches[i].id := t]
              && ((exists k :: k in db.batches[i].members && k in db.records) ==>
                   CurrentTank(out.0.records, db.batches[i].members) == Strip(selectedTank))
  {
    var b := db.batches[i];
    if b.id in tests then (db, tests, AlreadyTested)
    else if b.state == Locked then (db, tests, BatchLocked)
    else
      var closed := if b.state == Open then CloseBatch(b, Some(user), now).value else b;
      var db1 := db.(batches := db.batches[i := closed]);
      var tank := Strip(selectedTank);
      if tank !in QuickTestTanks then (db1, tests, InvalidTank)
      else if !formValid then (db1, tests, InvalidForm)
      else
        var (db3, tests3) := RetankAndRecord(db1, tests, i, tank, t);
        (db3, tests3, Recorded)
  }

  /** `batch_test_run`: a batch with no test yet must be closed (neither
      open nor locked). A chosen tank must be any tank but "Unassigned" and
      is applied to the yields before the form is checked. */
  function TestRun(db: IntakeDb, tests: map<nat, BatchTest>, i: nat, selectedTank: string,
                   formValid: bool, t: BatchTest)
    : (out: (IntakeDb, map<nat, BatchTest>, TestOutcome))
    requires i < |db.batches|
    ensures var b := db.batches[i];
            b.id !in tests && b.state != Closed ==> out == (db, tests, NotClosed)
    ensures out.2 == InvalidTank ==> out.0 == db && out.1 == tests
    ensures out.0.batches == db.batches || out.2 == Recorded
    ensures |out.0.batches| == |db.batches|
    ensures out.2 == Recorded ==>
              (t.result != Pending ==> out.0.batches[i].state == Locked)
              && (t.result == Pending ==> out.0.batches[i].state == db.batches[i].state)
              && out.1 == tests[db.batches[i].id := t]
  {
    var b := db.batches[i];
    if b.id !in tests && b.state != Closed then (db, tests, NotClosed)
    else if selectedTank != "" && selectedTank !in TestRunTanks then (db, tests, InvalidTank)
    else
      var db1 := if selectedTank != "" && selectedTank != CurrentTank(db.records, b.members)
                 then db.(records := RetankMembers(db.records, b.members, selectedTank))
                 else db;
      if !formValid then (db1, tests, InvalidForm)
      else
        var (db2, tests2) := RecordTest(db1, tests, i, t);
        (db2, tests2, Recorded)
  }

  /** Whatever screen records it, an approval or a rejection leaves the
      batch locked and a pending result never does on a batch that was
      closed. */
  lemma VerdictLocks(db: IntakeDb, tests: map<nat, BatchTest>, i: nat, tank: string, t: BatchTest, user: nat, now: int)
    requires i < |db.batches| && db.batches[i].state == Closed && db.batches[i].id !in tests
    ensures var q := QuickTest(db, tests, i, tank, true, t, user, now);
            q.2 == Recorded ==> (q.0.batches[i].state == Locked <==> t.result in {Approved, Rejected})
    ensures var r := TestRun(db, tests, i, tank, true, t);
            r.2 == Recorded ==> (r.0.batches[i].state == Locked <==> t.result in {Approved, Rejected})
  {}

  // ---- editing a batch ----

  datatype EditOutcome = Deleted | Updated | EditRefused(error: BatchError)

  /** `batch_edit`: delete the batch, or save a changed session and date
      and then ask for a transition only when the desired state differs
      from the current one. */
  function BatchEdit(db: IntakeDb, i: nat, delete: bool, session: string, date: int,
                     desired: BatchState, user: nat, now: int)
    : (out: (IntakeDb, EditOutcome))
    requires i < |db.batches|
    ensures delete ==> out == (db.(batches := db.batches[..i] + db.batches[i + 1..]), Deleted)
    ensures !delete ==> |out.0.batches| == |db.batches| && out.0.records == db.records
                        && out.0.batches[i].session == session && out.0.batches[i].date == date
                        && out.0.batches[i].members == db.batches[i].members
    ensures !delete && desired == db.batches[i].state ==>
              out.1 == Updated && out.0.batches[i].state == db.batches[i].state
    ensures !delete && out.1 == Updated ==> out.0.batches[i].state == desired
    ensures !delete ==> (out.1.EditRefused? <==>
                         db.batches[i].state == Locked && desired != Locked)
  {
    if delete then (db.(batches := db.batches[..i] + db.batches[i + 1..]), Deleted)
    else
      var b := db.batches[i].(session := session, date := date);
      var db1 := db.(batches := db.batches[i := b]);
      if desired == b.state then (db1, Updated)
      else
        match desired
        case Open =>
          (match OpenBatch(b, Some(user), now)
           case Ok(b2) => (db1.(batches := db1.batches[i := b2]), Updated)
           case Err(e) => (db1, EditRefused(e)))
        case Closed =>
          (match CloseBatch(b, Some(user), now)
           case Ok(b2) => (db1.(batches := db1.batches[i := b2]), Updated)
           case Err(e) => (db1, EditRefused(e)))
        case Locked => (db1.(batches := db1.batches[i := LockBatch(b)]), Updated)
  }

  /** `batch_edit` as written: validating the model form copies the posted
      state onto the batch before the view reads `original_state`, so the
      two always agree, no transition is ever asked for, and only session
      and date are saved. */
  function BatchEditAsWritten(db: IntakeDb, i: nat, delete: bool, session: string, date: int,
                              desired: BatchState, user: nat, now: int)
    : (out: (IntakeDb, EditOutcome))
    requires i < |db.batches|
    ensures delete ==> out.1 == Deleted && out.0.records == db.records
                       && out.0.batches == db.batches[..i] + db.batches[i + 1..]
    ensures !delete ==> out.1 == Updated && out.0.records == db.records
                        && |out.0.batches| == |db.batches|
                        && out.0.batches[i].state == db.batches[i].state
                        && out.0.batches[i].session == session && out.0.batches[i].date == date
                        && forall j :: 0 <= j < |db.batches| && j != i ==> out.0.batches[j] == db.batches[j]
  {
    if delete then (db.(batches := db.batches[..i] + db.batches[i + 1..]), Deleted)
    else (db.(batches := db.batches[i := db.batches[i].(session := session, date := date)]), Updated)
  }

  /** The posted state is ignored as written: a locked batch posted open is
      reported updated and stays locked where the intended edit refuses,
      and a closed batch posted locked stays closed where the intended edit
      locks it. */
  lemma PostedStateIgnoredAsWritten(db: IntakeDb, i: nat, session: string, date: int, user: nat, now: int)
    requires i < |db.batches|
    ensures db.batches[i].state == Locked ==>
              var w := BatchEditAsWritten(db, i, false, session, date, Open, user, now);
              var c := BatchEdit(db, i, false, session, date, Open, user, now);
              w.1 == Updated && w.0.batches[i].state == Locked && c.1.EditRefused?
    ensures db.batches[i].state == Closed ==>
              var w := BatchEditAsWritten(db, i, false, session, date, Locked, user, now);
              var c := BatchEdit(db, i, false, session, date, Locked, user, now);
              w.1 == Updated && w.0.batches[i].state == Closed
              && c.1 == Updated && c.0.batches[i].state == Locked
  {}

  // ---- dashboard ----

  datatype RowStatus = Pass | Fail | Waiting

  /** Whether the yield was recorded between its window's start and end,
      both included. */
  predicate RecordedInWindow(y: Yield) {
    y.windowStart.Some? && y.windowEnd.Some?
    && y.windowStart.value <= y.recordedAt <= y.windowEnd.value
  }

  /** The status of a collection row: recorded outside its window or low
      grade fails, premium passes, anything else waits. */
  function CollectionRowStatus(y: Yield): (s: RowStatus)
    ensures s == Fail <==> !RecordedInWindow(y) || y.grade == Low
    ensures s == Pass <==> RecordedInWindow(y) && y.grade == Premium
  {
    if !RecordedInWindow(y) then Fail
    else if y.grade == Low then Fail
    else if y.grade == Premium then Pass
    else Waiting
  }

  /** A yield whose session came from the window it was recorded in is
      shown as collected inside its window. */
  lemma ResolvedYieldShownInWindow(db: IntakeDb, overrides: map<string, Span>, now: int, input: YieldInput)
    requires Valid(db)
    requires ResolveSession(EffectiveWindows(overrides), TimeOf(input.recordedAt.GetOr(now))).Some?
    ensures var (db2, r) := SaveYield(db, EffectiveWindows(overrides), now, input);
            r.Ok? ==> RecordedInWindow(db2.records[r.value])
  {
    var ws := EffectiveWindows(overrides);
    var m := input.recordedAt.GetOr(now);
    EffectiveKeysDistinct(overrides);
    AtSplits(DateOf(m), TimeOf(m));
    assert At(DateOf(m), TimeOf(m)) == m;
    ResolvedSessionBoundsContainMeasurement(ws, DateOf(m), TimeOf(m));
    SavedYieldIsInOpenBatch(db, ws, now, input);
  }
}

=== FILE: loyalty.dfy ===
/** Customer loyalty: the tier that a purchase amount earns points in, the
    manual adjustment of a balance, and the ledger exported as CSV text.
    Spend bounds are hundredths; purchase amounts are ten-thousandths, as a
    sum of quantity times unit price is. */
module Loyalty {
  import opened Base
  import opened Text

  /** A tier: spend from `minSpend` up to `maxSpend` (open-ended when
      absent), both inclusive, earns `points`. */
  datatype Tier = Tier(name: string, minSpend: int, maxSpend: Option<int>, points: nat)

  predicate Eligible(t: Tier, amount: int) {
    t.minSpend <= amount && (t.maxSpend.None? || t.maxSpend.value >= amount)
  }

  predicate AnyEligible(tiers: seq<Tier>, amount: int) {
    exists i :: 0 <= i < |tiers| && Eligible(tiers[i], amount)
  }

  /** The eligible tier with the largest lower bound; among equal lower
      bounds, the one listed first. */
  function BestTier(tiers: seq<Tier>, amount: int): (r: Option<nat>)
    ensures r.Some? <==> AnyEligible(tiers, amount)
    ensures r.Some? ==> r.value < |tiers| && Eligible(tiers[r.value], amount)
    ensures r.Some? ==> forall i :: 0 <= i < |tiers| && Eligible(tiers[i], amount) ==>
                          tiers[i].minSpend <= tiers[r.value].minSpend
    ensures r.Some? ==> forall i :: 0 <= i < r.value && Eligible(tiers[i], amount) ==>
                          tiers[i].minSpend < tiers[r.value].minSpend
  {
    if |tiers| == 0 then None
    else
      var n := |tiers| - 1;
      var rest := BestTier(tiers[..n], amount);
      assert forall i :: 0 <= i < n ==> tiers[..n][i] == tiers[i];
      if Eligible(tiers[n], amount) && (rest.None? || tiers[rest.value].minSpend < tiers[n].minSpend) then Some(n)
      else
        rest
  }

  /** `LoyaltyTier.points_for_amount`: the amount is rounded half-even to
      hundredths, then the best eligible tier's points are earned, or none. */
  function PointsForAmount(tiers: seq<Tier>, amount: int): (p: nat)
    ensures !AnyEligible(tiers, RoundHalfEven(amount, 100)) ==> p == 0
    ensures AnyEligible(tiers, RoundHalfEven(amount, 100)) ==>
              exists i :: 0 <= i < |tiers| && Eligible(tiers[i], RoundHalfEven(amount, 100)) && p == tiers[i].points
                          && forall j :: 0 <= j < |tiers| && Eligible(tiers[j], RoundHalfEven(amount, 100)) ==>
                                           tiers[j].minSpend <= tiers[i].minSpend
  {
    match BestTier(tiers, RoundHalfEven(amount, 100))
    case None => 0
    case Some(i) => tiers[i].points
  }

  /** The tiers the system is seeded with. */
  const SeedTiers: seq<Tier> := [
    Tier("Starter", 0, Some(2500), 5),
    Tier("Bronze", 2500, Some(5000), 10),
    Tier("Silver", 5000, Some(10000), 20),
    Tier("Gold", 10000, Some(25000), 30),
    Tier("Platinum", 25000, Some(50000), 50),
    Tier("Diamond", 50000, None, 80)]

  /** The seeded tiers as a step function of the rounded amount: a shared
      bound belongs to the higher tier. */
  function SeedPoints(cents: int): nat {
    if cents < 0 then 0
    else if cents < 2500 then 5
    else if cents < 5000 then 10
    else if cents < 10000 then 20
    else if cents < 25000 then 30
    else if cents < 50000 then 50
    else 80
  }

  lemma SeedTiersAreSteps(amount: int)
    ensures PointsForAmount(SeedTiers, amount) == SeedPoints(RoundHalfEven(amount, 100))
  {
    var a := RoundHalfEven(amount, 100);
    var r := BestTier(SeedTiers, a);
    if a < 0 {
      assert forall i :: 0 <= i < |SeedTiers| ==> !Eligible(SeedTiers[i], a);
    } else {
      assert Eligible(SeedTiers[SeedIndex(a)], a);
      assert r.Some?;
      assert r.value == SeedIndex(a) by {
        assert forall i :: 0 <= i < |SeedTiers| && Eligible(SeedTiers[i], a) ==> i <= SeedIndex(a);
        assert forall i :: 0 <= i < |SeedTiers| ==> SeedTiers[i].minSpend <= SeedTiers[SeedIndex(a)].minSpend ==> i <= SeedIndex(a);
      }
    }
  }

  /** The seeded tier a non-negative rounded amount lands in. */
  function SeedIndex(cents: int): (i: nat)
    requires cents >= 0
    ensures i < |SeedTiers| && SeedTiers[i].points == SeedPoints(cents)
  {
    if cents < 2500 then 0
    else if cents < 5000 then 1
    else if cents < 10000 then 2
    else if cents < 25000 then 3
    else if cents < 50000 then 4
    else 5
  }

  /** A spend of exactly 25.00 is on the Starter and Bronze bounds and earns
      Bronze's 10 points; 24.995 rounds (half to even) up to it. */
  lemma SeedBoundaries()
    ensures PointsForAmount(SeedTiers, 250000) == 10
    ensures PointsForAmount(SeedTiers, 249950) == 10
    ensures PointsForAmount(SeedTiers, 249900) == 5
    ensures PointsForAmount(SeedTiers, 0) == 5
    ensures PointsForAmount(SeedTiers, -100) == 0
  {
    SeedTiersAreSteps(250000);
    SeedTiersAreSteps(249950);
    SeedTiersAreSteps(249900);
    SeedTiersAreSteps(0);
    SeedTiersAreSteps(-100);
    RoundExact(2500, 100);
    RoundExact(2499, 100);
    RoundExact(0, 100);
    RoundExact(-1, 100);
  }

  /** With the seeded tiers, spending more never earns fewer points. */
  lemma SeedPointsMonotone(a: int, b: int)
    requires a <= b
    ensures PointsForAmount(SeedTiers, a) <= PointsForAmount(SeedTiers, b)
  {
    SeedTiersAreSteps(a);
    SeedTiersAreSteps(b);
    RoundHalfEvenMonotone(a, b, 100);
  }

  // ---- adjustment ----

  /** `LoyaltyAdjustView.post`: the balance moves by the adjustment but
      never below zero. */
  function AdjustPoints(balance: nat, points: int): (r: nat)
    ensures balance + points >= 0 ==> r - balance == points
    ensures balance + points < 0 ==> r == 0
  {
    if balance + points < 0 then 0 else balance + points
  }

  /** An adjustment that keeps the balance non-negative is undone by its
      opposite, and adjustments past zero are clamped. */
  lemma AdjustUndo(balance: nat, points: int)
    ensures balance + points >= 0 ==> AdjustPoints(AdjustPoints(balance, points), -points) == balance
    ensures AdjustPoints(balance, -(balance + 1)) == 0
  {}

  // ---- CSV export ----

  /** A ledger entry, with its timestamp already rendered. */
  datatype Entry = Entry(when: string, reason: string, pointsChange: int, balanceAfter: int)

  const Header: string := "Date,Reason,Points Change,Balance After"

  /** One CSV row: the fields joined by commas, unquoted. */
  function Row(e: Entry): string {
    e.when + "," + e.reason + "," + IntToString(e.pointsChange) + "," + IntToString(e.balanceAfter)
  }

  function Rows(entries: seq<Entry>): (rows: seq<string>)
    ensures |rows| == |entries|
    ensures forall i :: 0 <= i < |entries| ==> rows[i] == Row(entries[i])
  {
    if |entries| == 0 then [] else [Row(entries[0])] + Rows(entries[1..])
  }

  /** `LoyaltyExportView.get`: the header and one row per entry, on lines of
      their own. */
  function ExportCsv(entries: seq<Entry>): string {
    Join([Header] + Rows(entries), '\n')
  }

  predicate OneLine(e: Entry) {
    '\n' !in e.when && '\n' !in e.reason
  }

  lemma {:induction false} NoNewlineInNumber(i: int)
    ensures '\n' !in IntToString(i)
  {
    var s := NatToString(if i < 0 then -i else i);
    assert forall k :: 0 <= k < |s| ==> s[k] != '\n';
  }

  lemma RowOneLine(e: Entry)
    requires OneLine(e)
    ensures '\n' !in Row(e)
  {
    NoNewlineInNumber(e.pointsChange);
    NoNewlineInNumber(e.balanceAfter);
  }

  lemma HeaderOneLine()
    ensures '\n' !in Header
  {
    assert forall k :: 0 <= k < |Header| ==> Header[k] != '\n';
  }

  /** The export's lines are the header followed by the entries' rows,
      provided no timestamp or reason holds a line break. */
  lemma {:induction false} ExportLines(entries: seq<Entry>)
    requires forall i :: 0 <= i < |entries| ==> OneLine(entries[i])
    ensures Split(ExportCsv(entries), '\n') == [Header] + Rows(entries)
  {
    var rows := Rows(entries);
    forall i | 0 <= i < |rows|
      ensures '\n' !in rows[i]
    {
      RowOneLine(entries[i]);
    }
    HeaderOneLine();
    var lines := [Header] + rows;
    assert forall i :: 0 <= i < |lines| ==> '\n' !in lines[i] by {
      forall i | 0 <= i < |lines|
        ensures '\n' !in lines[i]
      {
        if i > 0 {
          assert lines[i] == rows[i - 1];
        }
      }
    }
    SplitJoin(lines, '\n');
  }

  /** Whatever the entries hold, the first line is the header. */
  lemma {:induction false} ExportStartsWithHeader(entries: seq<Entry>)
    ensures Split(ExportCsv(entries), '\n')[0] == Header
  {
    HeaderOneLine();
    var rows := Rows(entries);
    if |rows| == 0 {
      assert ExportCsv(entries) == Header;
      SplitNoSep(Header, '\n');
    } else {
      assert ExportCsv(entries) == Header + ['\n'] + Join(rows, '\n') by {
        assert ([Header] + rows)[1..] == rows;
      }
      SplitPrefix(Header, Join(rows, '\n'), '\n');
    }
  }
}

=== FILE: production.dfy ===
/** Production from tank milk: the production batch record, first-in
    first-out consumption of graded yields, the unit/litre conversion of
    the production form, the intake form's session rule and the grade set
    by milk approval. Litres and units are in hundredths. */
module Production {
  import opened Base
  import opened CollectionWindows
  import opened Intake

  datatype BatchStatus = PendingLab | LabApproved | ReadyForStore

  datatype ProductionBatch = ProductionBatch(
    id: nat,
    sourceTank: string,
    productType: string,
    sku: string,
    quantityProduced: int,
    litersUsed: int,
    producedAt: int,
    movedToLab: bool,
    status: BatchStatus)

  /** `get_product_type_display`: the label of a product type, the stored
      value itself when it is not one of the choices. */
  function ProductDisplay(productType: string): (name: string)
    ensures productType == "ghee" ==> name == "Ghee"
    ensures productType !in {"atm", "raw", "esl", "yogurt", "mala", "ghee"} ==> name == productType
  {
    if productType == "atm" then "Fresh Milk ATM"
    else if productType == "raw" then "Raw Milk (Bulk)"
    else if productType == "esl" then "ESL Milk"
    else if productType == "yogurt" then "Yogurt"
    else if productType == "mala" then "Mala"
    else if productType == "ghee" then "Ghee"
    else productType
  }

  // ---- first-in first-out consumption ----

  /** Yields production may draw on: in the source tank and graded premium
      or standard. */
  predicate Consumable(y: Yield, tank: string) {
    y.tank == tank && (y.grade == Premium || y.grade == Standard)
  }

  /** The consumable yields, in recording order. `order` lists yield ids
      oldest first. */
  function EligibleIds(records: map<nat, Yield>, order: seq<nat>, tank: string): (ids: seq<nat>)
    ensures forall i :: 0 <= i < |ids| ==> ids[i] in records && Consumable(records[ids[i]], tank)
    ensures forall k :: k in order && k in records && Consumable(records[k], tank) ==> k in ids
    ensures forall k :: k in ids ==> k in order
    ensures (forall i, j :: 0 <= i < j < |order| ==> order[i] != order[j]) ==>
              forall i, j :: 0 <= i < j < |ids| ==> ids[i] != ids[j]
  {
    if |order| == 0 then []
    else
      var rest := EligibleIds(records, order[1..], tank);
      if order[0] in records && Consumable(records[order[0]], tank) then [order[0]] + rest else rest
  }

  /** `a` comes before `b` in `order`. */
  predicate Before(order: seq<nat>, a: nat, b: nat) {
    exists p, q :: 0 <= p < q < |order| && order[p] == a && order[q] == b
  }

  /** Of any two of `ids`, the earlier one comes earlier in `order`. */
  predicate InOrderOf(ids: seq<nat>, order: seq<nat>) {
    forall i, j :: 0 <= i < j < |ids| ==> Before(order, ids[i], ids[j])
  }

  /** The consumable ids keep the recording order: of any two, the earlier
      one was recorded first. */
  lemma {:induction false} EligibleIdsKeepOrder(records: map<nat, Yield>, order: seq<nat>, tank: string)
    ensures InOrderOf(EligibleIds(records, order, tank), order)
    decreases |order|
  {
    if |order| > 0 {
      EligibleIdsKeepOrder(records, order[1..], tank);
      ConsKeepsOrder(order, EligibleIds(records, order[1..], tank),
                     order[0] in records && Consumable(records[order[0]], tank));
    }
  }

  /** Putting the first of `order` in front of ids that keep the order of
      the rest of it, or leaving them as they are, keeps the order of
      `order`. */
  lemma ConsKeepsOrder(order: seq<nat>, rest: seq<nat>, take: bool)
    requires |order| > 0
    requires forall k :: k in rest ==> k in order[1..]
    requires InOrderOf(rest, order[1..])
    ensures InOrderOf(if take then [order[0]] + rest else rest, order)
  {
    var ids := if take then [order[0]] + rest else rest;
    forall i, j | 0 <= i < j < |ids|
      ensures Before(order, ids[i], ids[j])
    {
      if take && i == 0 {
        assert ids[j] == rest[j - 1] && rest[j - 1] in rest;
        var q :| 0 <= q < |order| - 1 && order[1..][q] == rest[j - 1];
        assert order[0] == ids[i] && order[q + 1] == ids[j];
      } else {
        var a, b := if take then i - 1 else i, if take then j - 1 else j;
        assert ids[i] == rest[a] && ids[j] == rest[b];
        assert Before(order[1..], rest[a], rest[b]);
        var p, q :| 0 <= p < q < |order[1..]| && order[1..][p] == rest[a] && order[1..][q] == rest[b];
        assert order[p + 1] == ids[i] && order[q + 1] == ids[j];
      }
    }
  }

  function LitresOf(records: map<nat, Yield>, ids: seq<nat>): (ls: seq<int>)
    requires forall i :: 0 <= i < |ids| ==> ids[i] in records
    ensures |ls| == |ids| && forall i :: 0 <= i < |ids| ==> ls[i] == records[ids[i]].litres
  {
    seq(|ids|, i requires 0 <= i < |ids| => records[ids[i]].litres)
  }

  /** How much the loop takes from each yield, oldest first: the smaller of
      what is still needed and what the yield holds, nothing once the need
      is met. */
  function Deductions(litres: seq<int>, needed: int): (ds: seq<int>)
    ensures |ds| == |litres|
  {
    if |litres| == 0 then []
    else if needed <= 0 then seq(|litres|, _ => 0)
    else
      var d := Min(needed, litres[0]);
      [d] + Deductions(litres[1..], needed - d)
  }

  predicate NonNegative(xs: seq<int>) {
    forall i :: 0 <= i < |xs| ==> xs[i] >= 0
  }

  /** Reference reading of the loop: each yield gives what is still needed
      after the older ones, capped by what it holds. */
  lemma {:induction false} DeductionsClosedForm(litres: seq<int>, needed: int, i: nat)
    requires NonNegative(litres) && i < |litres|
    ensures Deductions(litres, needed)[i] == Min(Max(0, needed - Sum(litres[..i])), litres[i])
    decreases |litres|
  {
    if needed <= 0 {
      SumPrefixNonNegative(litres, i);
    } else {
      var d := Min(needed, litres[0]);
      if i > 0 {
        DeductionsClosedForm(litres[1..], needed - d, i - 1);
        assert litres[1..][..i - 1] == litres[1..i];
        SumCons(litres[..i]);
        assert litres[..i][1..] == litres[1..i];
        assert litres[1..][i - 1] == litres[i];
        if d < needed {
          assert d == litres[0];
        } else {
          assert needed - d == 0;
          SumPrefixNonNegative(litres[1..], i - 1);
          assert needed - Sum(litres[..i]) <= 0;
        }
      }
    }
  }

  lemma {:induction false} SumPrefixNonNegative(xs: seq<int>, i: nat)
    requires NonNegative(xs) && i <= |xs|
    ensures Sum(xs[..i]) >= 0
    decreases i
  {
    if i > 0 {
      SumPrefixNonNegative(xs, i - 1);
      assert xs[..i][..i - 1] == xs[..i - 1];
    }
  }

  /** With non-negative yields and enough milk, every yield keeps a
      non-negative amount and exactly the need is taken in total. */
  lemma {:induction false} DeductionsTakeExactly(litres: seq<int>, needed: int)
    requires NonNegative(litres) && 0 <= needed <= Sum(litres)
    ensures var ds := Deductions(litres, needed);
            Sum(ds) == needed && forall i :: 0 <= i < |ds| ==> 0 <= ds[i] <= litres[i]
    decreases |litres|
  {
    var ds := Deductions(litres, needed);
    if |litres| == 0 {
    } else if needed <= 0 {
      ZerosSum(|litres|);
    } else {
      var d := Min(needed, litres[0]);
      SumCons(litres);
      SumPrefixNonNegative(litres[1..], |litres| - 1);
      assert litres[1..][..|litres| - 1] == litres[1..];
      DeductionsTakeExactly(litres[1..], needed - d);
      SumCons(ds);
      assert ds[1..] == Deductions(litres[1..], needed - d);
      forall i | 0 <= i < |ds| ensures 0 <= ds[i] <= litres[i] {
        if i > 0 { assert ds[i] == ds[1..][i - 1] && litres[i] == litres[1..][i - 1]; }
      }
    }
  }

  lemma {:induction false} ZerosSum(n: nat)
    ensures Sum(seq(n, _ => 0)) == 0
    decreases n
  {
    if n > 0 {
      ZerosSum(n - 1);
      assert seq(n, _ => 0)[..n - 1] == seq(n - 1, _ => 0);
    }
  }

  /** Which yield gives how much: the i-th id gives the i-th deduction. */
  function DeductionMap(ids: seq<nat>, ds: seq<int>): (m: map<nat, int>)
    requires |ids| == |ds|
    requires forall i, j :: 0 <= i < j < |ids| ==> ids[i] != ids[j]
    ensures forall k :: k in m <==> k in ids
    ensures forall i :: 0 <= i < |ids| ==> m[ids[i]] == ds[i]
    decreases |ids|
  {
    if |ids| == 0 then map[]
    else
      var n := |ids| - 1;
      DistinctFront(ids);
      var m := DeductionMap(ids[..n], ds[..n]);
      assert forall i :: 0 <= i < n ==> ds[..n][i] == ds[i];
      m[ids[n] := ds[n]]
  }

  /** Dropping the last of distinct ids keeps the others in place, none of
      them the dropped one. */
  lemma DistinctFront(ids: seq<nat>)
    requires |ids| > 0
    requires forall i, j :: 0 <= i < j < |ids| ==> ids[i] != ids[j]
    ensures forall i :: 0 <= i < |ids| - 1 ==> ids[..|ids| - 1][i] == ids[i] && ids[i] != ids[|ids| - 1]
    ensures forall k :: k in ids <==> k in ids[..|ids| - 1] || k == ids[|ids| - 1]
  {
    assert ids == ids[..|ids| - 1] + [ids[|ids| - 1]];
  }

  /** Write the deductions back into the yields they came from. */
  function ApplyDeductions(records: map<nat, Yield>, dm: map<nat, int>): (r: map<nat, Yield>)
    ensures r.Keys == records.Keys
    ensures forall k :: k in records ==>
              r[k] == if k in dm then records[k].(litres := records[k].litres - dm[k]) else records[k]
  {
    map k | k in records :: if k in dm then records[k].(litres := records[k].litres - dm[k]) else records[k]
  }

  datatype ConsumeError = NothingToConsume | NotEnoughMilk

  /** `ProductionBatch.consume_milk` with the deduction written as a plain
      update of each yield's litres: refused when nothing is to be used or
      the tank's consumable milk is short, and then nothing changes;
      otherwise the oldest consumable yields are drawn down. */
  function ConsumeMilk(records: map<nat, Yield>, order: seq<nat>, tank: string, needed: int)
    : (r: Result<map<nat, Yield>, ConsumeError>)
    requires forall i, j :: 0 <= i < j < |order| ==> order[i] != order[j]
    ensures needed <= 0 ==> r == Err(NothingToConsume)
    ensures var ids := EligibleIds(records, order, tank);
            r.Err? <==> needed <= 0 || Sum(LitresOf(records, ids)) < needed
    ensures r.Ok? ==> r.value.Keys == records.Keys
  {
    if needed <= 0 then Err(NothingToConsume)
    else
      var ids := EligibleIds(records, order, tank);
      var ls := LitresOf(records, ids);
      if Sum(ls) < needed then Err(NotEnoughMilk)
      else Ok(ApplyDeductions(records, DeductionMap(ids, Deductions(ls, needed))))
  }

  /** On success exactly the litres used leave the tank's consumable
      yields. */
  lemma ConsumeMilkTakesExactly(records: map<nat, Yield>, order: seq<nat>, tank: string, needed: int)
    requires forall i, j :: 0 <= i < j < |order| ==> order[i] != order[j]
    requires forall k :: k in records ==> records[k].litres >= 0
    ensures var r := ConsumeMilk(records, order, tank, needed);
            var ids := EligibleIds(records, order, tank);
            r.Ok? ==> Sum(LitresOf(r.value, ids)) == Sum(LitresOf(records, ids)) - needed
  {
    var r := ConsumeMilk(records, order, tank, needed);
    if r.Ok? {
      var ids := EligibleIds(records, order, tank);
      var ls := LitresOf(records, ids);
      var ds := Deductions(ls, needed);
      var dm := DeductionMap(ids, ds);
      assert r.value == ApplyDeductions(records, dm);
      DeductionsTakeExactly(ls, needed);
      var after := LitresOf(r.value, ids);
      forall i | 0 <= i < |ids| ensures after[i] == ls[i] - ds[i] {
        assert dm[ids[i]] == ds[i];
      }
      SumDifference(ls, ds, after);
    }
  }

  /** After drawing, the i-th of `ids` holds what it had less what was
      still needed after the ones before it, capped by what it held. */
  predicate DrawnOldestFirst(drawn: map<nat, Yield>, ids: seq<nat>, ls: seq<int>, needed: int, i: nat) {
    i < |ids| == |ls| && ids[i] in drawn
    && drawn[ids[i]].litres == ls[i] - Min(Max(0, needed - Sum(ls[..i])), ls[i])
  }

  /** On success the i-th consumable yield, oldest first, gives what is
      still needed after the older ones, capped by what it holds. */
  lemma ConsumeMilkOldestFirst(records: map<nat, Yield>, order: seq<nat>, tank: string, needed: int, i: nat)
    requires forall i, j :: 0 <= i < j < |order| ==> order[i] != order[j]
    requires forall k :: k in records ==> records[k].litres >= 0
    requires i < |EligibleIds(records, order, tank)|
    ensures var ids := EligibleIds(records, order, tank);
            var r := ConsumeMilk(records, order, tank, needed);
            r.Ok? ==> DrawnOldestFirst(r.value, ids, LitresOf(records, ids), needed, i)
  {
    var r := ConsumeMilk(records, order, tank, needed);
    if r.Ok? {
      var ids := EligibleIds(records, order, tank);
      var ls := LitresOf(records, ids);
      assert r.value == ApplyDeductions(records, DeductionMap(ids, Deductions(ls, needed)));
      DrawnInOrder(records, ids, needed, i);
    }
  }

  /** Drawing `needed` from distinct yields in the order given: the i-th
      loses what is still needed after the ones before it, capped by what
      it holds. */
  lemma DrawnInOrder(records: map<nat, Yield>, ids: seq<nat>, needed: int, i: nat)
    requires forall k :: k in records ==> records[k].litres >= 0
    requires forall j :: 0 <= j < |ids| ==> ids[j] in records
    requires forall a, b :: 0 <= a < b < |ids| ==> ids[a] != ids[b]
    requires i < |ids|
    ensures var ls := LitresOf(records, ids);
            DrawnOldestFirst(ApplyDeductions(records, DeductionMap(ids, Deductions(ls, needed))), ids, ls, needed, i)
  {
    var ls := LitresOf(records, ids);
    assert NonNegative(ls) by {
      forall j | 0 <= j < |ls| ensures ls[j] >= 0 { assert ids[j] in records; }
    }
    var ds := Deductions(ls, needed);
    DeductionsClosedForm(ls, needed, i);
    assert ds[i] == Min(Max(0, needed - Sum(ls[..i])), ls[i]);
    DrawnAt(records, ids, ds, i);
    var r := ApplyDeductions(records, DeductionMap(ids, ds));
    assert r[ids[i]].litres == records[ids[i]].litres - ds[i];
    assert records[ids[i]].litres == ls[i];
    assert r[ids[i]].litres == ls[i] - ds[i];
  }

  /** The i-th id loses exactly the i-th deduction. */
  lemma DrawnAt(records: map<nat, Yield>, ids: seq<nat>, ds: seq<int>, i: nat)
    requires |ids| == |ds| && i < |ids| && forall j :: 0 <= j < |ids| ==> ids[j] in records
    requires forall a, b :: 0 <= a < b < |ids| ==> ids[a] != ids[b]
    ensures var r := ApplyDeductions(records, DeductionMap(ids, ds));
            ids[i] in r && r[ids[i]].litres == records[ids[i]].litres - ds[i]
  {
    var dm := DeductionMap(ids, ds);
    assert dm[ids[i]] == ds[i];
  }

  /** On success each yield keeps a non-negative amount, no more than it
      had; only litres change, and yields production may not draw on are
      untouched. */
  lemma ConsumeMilkOnlyDrawsDown(records: map<nat, Yield>, order: seq<nat>, tank: string, needed: int, k: nat)
    requires forall i, j :: 0 <= i < j < |order| ==> order[i] != order[j]
    requires forall k :: k in records ==> records[k].litres >= 0
    requires k in records
    ensures var r := ConsumeMilk(records, order, tank, needed);
            r.Ok? ==> 0 <= r.value[k].litres <= records[k].litres
                      && r.value[k] == records[k].(litres := r.value[k].litres)
                      && (!Consumable(records[k], tank) ==> r.value[k] == records[k])
  {
    var r := ConsumeMilk(records, order, tank, needed);
    if r.Ok? {
      var ids := EligibleIds(records, order, tank);
      var ls := LitresOf(records, ids);
      var ds := Deductions(ls, needed);
      var dm := DeductionMap(ids, ds);
      assert r.value == ApplyDeductions(records, dm);
      if k in dm {
        DeductionsTakeExactly(ls, needed);
        var i :| 0 <= i < |ids| && ids[i] == k;
        assert dm[k] == ds[i] && ls[i] == records[k].litres;
      }
    }
  }

  lemma {:induction false} SumDifference(xs: seq<int>, ys: seq<int>, zs: seq<int>)
    requires |xs| == |ys| == |zs| && forall i :: 0 <= i < |xs| ==> zs[i] == xs[i] - ys[i]
    ensures Sum(zs) == Sum(xs) - Sum(ys)
    decreases |xs|
  {
    if |xs| > 0 {
      var n := |xs| - 1;
      SumDifference(xs[..n], ys[..n], zs[..n]);
    }
  }

  /** `batch_form`: the production batch is stored only once its milk has
      been consumed; it is then marked moved to the lab and awaiting the
      lab. On a refusal neither the yields nor the batches change. */
  function CreateBatch(records: map<nat, Yield>, order: seq<nat>, batches: seq<ProductionBatch>, pb: ProductionBatch)
    : (out: (map<nat, Yield>, seq<ProductionBatch>, Result<ProductionBatch, ConsumeError>))
    requires forall i, j :: 0 <= i < j < |order| ==> order[i] != order[j]
    ensures out.2.Err? ==> out.0 == records && out.1 == batches
    ensures out.2.Ok? ==> out.1 == batches + [out.2.value]
                          && out.2.value == pb.(movedToLab := true, status := PendingLab)
    ensures out.2.Err? <==> ConsumeMilk(records, order, pb.sourceTank, pb.litersUsed).Err?
  {
    match ConsumeMilk(records, order, pb.sourceTank, pb.litersUsed)
    case Err(e) => (records, batches, Err(e))
    case Ok(r) =>
      var saved := pb.(movedToLab := true, status := PendingLab);
      (r, batches + [saved], Ok(saved))
  }

  // ---- consumption as the source writes it ----

  /** `MilkYield.save(update_fields=[...])` on the stored yield `id`, held
      in memory as `row`: the session is resolved again (a closed requested
      session is refused before writing), the row is written, and the yield
      is attached again to the latest batch of that session; a closed batch
      makes the save delete the yield. */
  function ResaveYield(db: IntakeDb, ws: seq<Window>, id: nat, row: Yield): (out: (IntakeDb, Result<(), SaveError>))
    ensures out.1.Ok? ==> id in out.0.records && out.0.records[id] == row
    ensures out.1 == Err(BatchClosed) ==> id !in out.0.records
    ensures out.1.Err? && out.1 != Err(BatchClosed) ==> out.0 == db
  {
    var m := row.recordedAt;
    match SessionForSave(db, ws, m, row.session)
    case Err(e) =>
      assert e != BatchClosed;
      (db, Err(e))
    case Ok(session) =>
      var db1 := db.(records := db.records[id := row]);
      match EnsureYieldAssignment(db1.batches, db1.nextBatch, id, session, DateOf(m))
      case Err(_) => (DeleteYield(db1, id), Err(BatchClosed))
      case Ok((bs, nb)) => (db1.(batches := bs, nextBatch := nb), Ok(()))
  }

  /** The deduction loop over the yields read at the start (`rows`, by id,
      oldest first), each saved through `ResaveYield`; the first refusal
      ends the loop with the earlier yields already written. */
  function DeductAsWritten(db: IntakeDb, ws: seq<Window>, ids: seq<nat>, rows: map<nat, Yield>, remaining: int)
    : (out: (IntakeDb, Result<(), SaveError>))
    requires forall i :: 0 <= i < |ids| ==> ids[i] in rows
    decreases |ids|
  {
    if |ids| == 0 || remaining <= 0 then (db, Ok(()))
    else
      var y := rows[ids[0]];
      var d := Min(remaining, y.litres);
      var (db1, r) := ResaveYield(db, ws, ids[0], y.(litres := y.litres - d));
      if r.Err? then (db1, r) else DeductAsWritten(db1, ws, ids[1..], rows, remaining - d)
  }

  datatype AsWrittenError = Refused(consume: ConsumeError) | SaveFailed(save: SaveError)

  /** `consume_milk` exactly as written: the same checks, then each yield
      saved through the model's save override. */
  function ConsumeMilkAsWritten(db: IntakeDb, ws: seq<Window>, order: seq<nat>, tank: string, needed: int)
    : (out: (IntakeDb, Result<(), AsWrittenError>))
  {
    if needed <= 0 then (db, Err(Refused(NothingToConsume)))
    else
      var ids := EligibleIds(db.records, order, tank);
      var ls := LitresOf(db.records, ids);
      if Sum(ls) < needed then (db, Err(Refused(NotEnoughMilk)))
      else
        var (db2, r) := DeductAsWritten(db, ws, ids, db.records, needed);
        if r.Err? then (db2, Err(SaveFailed(r.error))) else (db2, Ok(()))
  }

  /** A concrete intake day: one premium 10 L yield in Tank A recorded at
      05:00 on day 10, held by that morning's batch, which the lab has
      closed. */
  function ClosedMorningDb(): IntakeDb {
    var y := Yield(0, 1, At(10, 300), Morning, Some(At(10, 0)), Some(At(10, 360)),
                   1000, "Tank A", 2, Premium, 98, 1000);
    var b := Batch(0, Morning, 10, Closed, None, Some(At(10, 400)), None, None, {0});
    IntakeDb(map[0 := y], [b], 1, 1)
  }

  /** Using 5 L from that tank as written deletes the whole yield and fails
      half-way, while the plain deduction leaves 5 L in it. */
  lemma ConsumeAsWrittenDeletesYield()
    ensures var db := ClosedMorningDb();
            var (db2, r) := ConsumeMilkAsWritten(db, EffectiveWindows(map[]), [0], "Tank A", 500);
            r == Err(SaveFailed(BatchClosed)) && 0 !in db2.records
    ensures var db := ClosedMorningDb();
            var r := ConsumeMilk(db.records, [0], "Tank A", 500);
            r.Ok? && r.value[0].litres == 500
  {
    var db := ClosedMorningDb();
    var ws := EffectiveWindows(map[]);
    DefaultResolution(300);
    assert ResolveSession(ws, TimeOf(At(10, 300))) == Some(Morning) by { AtSplits(10, 300); }
    assert LatestBatch(db.batches, Morning, 10) == Some(0);
    var ids := EligibleIds(db.records, [0], "Tank A");
    assert [0][1..] == [];
    assert EligibleIds(db.records, [], "Tank A") == [];
    assert Consumable(db.records[0], "Tank A");
    assert ids == [0];
    assert Sum(LitresOf(db.records, ids)) == 1000 by {
      assert LitresOf(db.records, ids) == [1000];
    }
    assert DateOf(At(10, 300)) == 10 by { AtSplits(10, 300); }
    var ls := LitresOf(db.records, ids);
    assert Deductions(ls, 500) == [500];
  }

  // ---- production form ----

  datatype FormError =
    | NeitherPositive | QuantityNotPositive | LitresNotPositive
    | MissingSku | UnknownSku | NoSize | Misaligned
    | QuantityRequired | LitresRequired | SkuRequired

  /** Litres (hundredths) for a quantity (hundredths of a unit) of packets
      of `size` ml, to the nearest hundredth. */
  function LitresForQuantity(q: int, size: nat): (l: int)
    requires size > 0
    ensures 2 * Abs(l * 1000 - q * size) <= 1000
  {
    RoundHalfEven(q * size, 1000)
  }

  /** Quantity (hundredths of a unit) for litres (hundredths), to the
      nearest hundredth. */
  function QuantityForLitres(l: int, size: nat): (q: int)
    requires size > 0
    ensures 2 * Abs(q * size - l * 1000) <= size
  {
    RoundHalfEven(l * 1000, size)
  }

  /** Both amounts given agree with the packet size to within 0.05 L. */
  predicate Aligned(q: int, l: int, size: nat) {
    Abs(q * size - l * 1000) <= 5000
  }

  /** `ProductionBatchForm.clean` as its help text describes it: either
      amount may be left blank and is then derived from the other.
      Quantities are hundredths of a unit,
      litres hundredths of a litre; `sizes` maps each SKU to its packet size
      in ml, zero standing for none. The result is the set of errors and
      the cleaned quantity and litres. */
  function CleanProductionForm(quantity: Option<int>, litres: Option<int>, sku: string, sizes: map<string, nat>)
    : (out: (set<FormError>, Option<int>, Option<int>))
    ensures out.0 == {} ==> sku != "" && sku in sizes && sizes[sku] > 0
    ensures out.0 == {} && quantity.Some? && litres.None? ==>
              out.1 == quantity && out.2 == Some(LitresForQuantity(quantity.value, sizes[sku]))
    ensures out.0 == {} && litres.Some? && quantity.None? ==>
              out.2 == litres && out.1 == Some(QuantityForLitres(litres.value, sizes[sku]))
    ensures out.0 == {} && quantity.Some? && litres.Some? ==> out.1 == quantity && out.2 == litres
  {
    if (quantity.None? || quantity.value <= 0) && (litres.None? || litres.value <= 0) then
      ({NeitherPositive}, quantity, litres)
    else
      var e1 := if quantity.Some? && quantity.value <= 0 then {QuantityNotPositive} else {};
      var q := if quantity.Some? && quantity.value <= 0 then None else quantity;
      var e2 := if litres.Some? && litres.value <= 0 then {LitresNotPositive} else {};
      var l := if litres.Some? && litres.value <= 0 then None else litres;
      var errs := e1 + e2;
      if sku == "" then (errs + {MissingSku}, q, l)
      else if sku !in sizes then (errs + {UnknownSku}, q, l)
      else if sizes[sku] == 0 then (errs + {NoSize}, q, l)
      else
        var size := sizes[sku];
        if q.Some? && l.None? then (errs, q, Some(LitresForQuantity(q.value, size)))
        else if l.Some? && q.None? then (errs, Some(QuantityForLitres(l.value, size)), l)
        else if !Aligned(q.value, l.value, size) then (errs + {Misaligned}, q, l)
        else (errs, q, l)
  }

  /** The form is accepted exactly when some amount is positive, no amount
      given is non-positive, the SKU is known and sized, and two given
      amounts agree; with nothing positive the only error is that one. */
  lemma ProductionFormAcceptedIff(quantity: Option<int>, litres: Option<int>, sku: string, sizes: map<string, nat>)
    ensures var out := CleanProductionForm(quantity, litres, sku, sizes);
            out.0 == {} <==>
              ((quantity.Some? && quantity.value > 0) || (litres.Some? && litres.value > 0))
              && (quantity.None? || quantity.value > 0) && (litres.None? || litres.value > 0)
              && sku != "" && sku in sizes && sizes[sku] > 0
              && (quantity.Some? && litres.Some? ==> Aligned(quantity.value, litres.value, sizes[sku]))
    ensures (quantity.None? || quantity.value <= 0) && (litres.None? || litres.value <= 0) ==>
              CleanProductionForm(quantity, litres, sku, sizes).0 == {NeitherPositive}
  {}

  /** The form as its fields are declared: quantity, litres and SKU are
      model fields without `blank=True`, so each blank one is refused as
      required before `clean` runs, and `clean` then sees it as missing. */
  function CleanProductionFormAsWritten(quantity: Option<int>, litres: Option<int>, sku: string, sizes: map<string, nat>)
    : (out: (set<FormError>, Option<int>, Option<int>))
    ensures quantity.None? ==> QuantityRequired in out.0
    ensures litres.None? ==> LitresRequired in out.0
    ensures sku == "" ==> SkuRequired in out.0
  {
    var required := (if quantity.None? then {QuantityRequired} else {})
                    + (if litres.None? then {LitresRequired} else {})
                    + (if sku == "" then {SkuRequired} else {});
    var (errs, q, l) := CleanProductionForm(quantity, litres, sku, sizes);
    (required + errs, q, l)
  }

  /** As declared, the form is accepted only with both amounts filled in,
      and then exactly when the intended form accepts them; nothing is
      ever derived. */
  lemma ProductionFormAsWrittenNeedsBoth(quantity: Option<int>, litres: Option<int>, sku: string, sizes: map<string, nat>)
    ensures var out := CleanProductionFormAsWritten(quantity, litres, sku, sizes);
            out.0 == {} <==>
              quantity.Some? && litres.Some? && quantity.value > 0 && litres.value > 0
              && sku != "" && sku in sizes && sizes[sku] > 0
              && Aligned(quantity.value, litres.value, sizes[sku])
    ensures var out := CleanProductionFormAsWritten(quantity, litres, sku, sizes);
            out.0 == {} ==> out.1 == quantity && out.2 == litres
  {
    ProductionFormAcceptedIff(quantity, litres, sku, sizes);
  }

  /** Five units of 500 ml packets with the litres left blank: the declared
      form refuses them as missing litres, the intended one derives 2.50 L. */
  lemma SingleAmountRefusedAsWritten()
    ensures CleanProductionFormAsWritten(Some(500), None, "MILK500", map["MILK500" := 500]).0 == {LitresRequired}
    ensures CleanProductionForm(Some(500), None, "MILK500", map["MILK500" := 500]) == ({}, Some(500), Some(250))
  {
    var sizes := map["MILK500" := 500];
    assert sizes["MILK500"] == 500;
    assert LitresForQuantity(500, 500) == 250 by { RoundExact(250, 1000); }
    assert CleanProductionForm(Some(500), None, "MILK500", sizes).0 == {};
  }

  /** `MilkYieldForm.clean`: editing keeps the stored session; a new yield
      takes the window open now, or else a requested session that is still
      available, or is refused. */
  function CleanYieldForm(db: IntakeDb, ws: seq<Window>, now: int, editing: bool, requested: string)
    : (r: Result<string, SaveError>)
    ensures editing ==> r == Ok(requested)
    ensures !editing && ResolveSession(ws, TimeOf(now)).Some? ==> r == Ok(ResolveSession(ws, TimeOf(now)).value)
    ensures !editing && ResolveSession(ws, TimeOf(now)).None? ==>
              (r.Ok? <==> IsSessionAvailable(db.batches, requested, DateOf(now))) && (r.Ok? ==> r.value == requested)
  {
    if editing then Ok(requested)
    else
      match ResolveSession(ws, TimeOf(now))
      case Some(key) => Ok(key)
      case None =>
        if requested != "" && IsSessionAvailable(db.batches, requested, DateOf(now)) then Ok(requested)
        else Err(SessionClosed)
  }

  /** A new yield the form accepts at a given moment passes the save's own
      session check at that same moment. */
  lemma FormAcceptedSessionSaves(db: IntakeDb, ws: seq<Window>, now: int, requested: string)
    requires CleanYieldForm(db, ws, now, false, requested).Ok?
    ensures var session := CleanYieldForm(db, ws, now, false, requested).value;
            SessionForSave(db, ws, now, session).Ok?
            && SessionForSave(db, ws, now, session).value == session
  {}

  // ---- milk approval ----

  /** `MilkApprovalView.post`: approving grades a yield premium, rejecting
      grades it low, anything else keeps the grade. */
  function GradeForAction(action: string, grade: string): (g: string)
    ensures action == "approve" ==> g == Premium
    ensures action == "reject" ==> g == Low
    ensures action != "approve" && action != "reject" ==> g == grade
  {
    if action == "approve" then Premium else if action == "reject" then Low else grade
  }

  /** A rejected yield is never drawn on by production. */
  lemma RejectedNotConsumable(y: Yield, tank: string)
    ensures !Consumable(y.(grade := GradeForAction("reject", y.grade)), tank)
  {}

  /** Approval stores the new grade through the save override. */
  function ApproveYield(db: IntakeDb, ws: seq<Window>, id: nat, action: string): (out: (IntakeDb, Result<(), SaveError>))
    requires id in db.records
    ensures out.1.Ok? ==> id in out.0.records && out.0.records[id].grade == GradeForAction(action, db.records[id].grade)
  {
    var y := db.records[id];
    ResaveYield(db, ws, id, y.(grade := GradeForAction(action, y.grade)))
  }
}

=== FILE: querystring.dfy ===
/** The `url_with_query` template tag: the current request's query with
    some parameters replaced or removed, rendered as `?…` or as nothing.
    Percent-encoding is a parameter: any function from text to text. */
module QueryString {
  import opened Base
  import opened Text

  /** A query parameter and its values, as a query dictionary keeps them. */
  datatype Param = Param(key: string, values: seq<string>)

  /** A query: parameters in insertion order, each key once, each with at
      least one value. */
  type Query = seq<Param>

  predicate WellFormed(q: Query) {
    (forall i, j :: 0 <= i < j < |q| ==> q[i].key != q[j].key)
    && (forall i :: 0 <= i < |q| ==> |q[i].values| > 0)
  }

  /** A template argument: `None`, a string, or another value shown by its
      `str`. */
  datatype Value = Null | Str(s: string) | Other(shown: string)

  /** `_is_empty`: `None`, or a string that is blank once stripped. */
  predicate IsEmpty(v: Value) {
    v.Null? || (v.Str? && Strip(v.s) == "")
  }

  function Shown(v: Value): string {
    match v
    case Null => ""
    case Str(s) => s
    case Other(shown) => shown
  }

  /** The values a key has, if it is present. */
  function Lookup(q: Query, key: string): (r: Option<seq<string>>)
    ensures r.None? <==> forall i :: 0 <= i < |q| ==> q[i].key != key
    ensures r.Some? ==> exists i :: 0 <= i < |q| && q[i].key == key && q[i].values == r.value
  {
    if |q| == 0 then None
    else if q[|q| - 1].key == key then Some(q[|q| - 1].values)
    else Lookup(q[..|q| - 1], key)
  }

  lemma LookupSnoc(q: Query, p: Param, key: string)
    ensures Lookup(q + [p], key) == if p.key == key then Some(p.values) else Lookup(q, key)
  {
    assert (q + [p])[..|q|] == q;
  }

  /** `query.pop(key)`: the key's parameter removed, the others in order. */
  function Remove(q: Query, key: string): (r: Query)
    ensures forall i :: 0 <= i < |r| ==> r[i].key != key && r[i] in q
  {
    if |q| == 0 then []
    else
      var n := |q| - 1;
      var rest := Remove(q[..n], key);
      if q[n].key == key then rest else rest + [q[n]]
  }

  lemma {:induction false} RemoveWellFormed(q: Query, key: string)
    requires WellFormed(q)
    ensures WellFormed(Remove(q, key))
  {
    if |q| > 0 {
      var n := |q| - 1;
      var prefix := q[..n];
      assert WellFormed(prefix);
      RemoveWellFormed(prefix, key);
      var rest := Remove(prefix, key);
      if q[n].key != key {
        forall i | 0 <= i < |rest| ensures rest[i].key != q[n].key {
          var j :| 0 <= j < n && prefix[j] == rest[i];
        }
      }
    }
  }

  lemma {:induction false} RemoveLookup(q: Query, key: string, k: string)
    ensures Lookup(Remove(q, key), k) == if k == key then None else Lookup(q, k)
  {
    if |q| > 0 {
      var n := |q| - 1;
      var prefix := q[..n];
      RemoveLookup(prefix, key, k);
      assert prefix + [q[n]] == q;
      LookupSnoc(prefix, q[n], k);
      if q[n].key != key {
        LookupSnoc(Remove(prefix, key), q[n], k);
      }
    }
  }

  /** `query[key] = value`: the key now has the one value, in its old place
      if it had one, else at the end. */
  function Set(q: Query, key: string, value: string): (r: Query)
    ensures |r| > 0
  {
    if |q| == 0 then [Param(key, [value])]
    else
      var n := |q| - 1;
      if q[n].key == key then q[..n] + [Param(key, [value])]
      else Set(q[..n], key, value) + [q[n]]
  }

  lemma {:induction false} SetKeys(q: Query, key: string, value: string)
    ensures forall i :: 0 <= i < |Set(q, key, value)| ==> Set(q, key, value)[i].key == key || Set(q, key, value)[i] in q
  {
    if |q| > 0 {
      var n := |q| - 1;
      if q[n].key != key {
        SetKeys(q[..n], key, value);
      }
    }
  }

  lemma {:induction false} SetWellFormed(q: Query, key: string, value: string)
    requires WellFormed(q)
    ensures WellFormed(Set(q, key, value))
  {
    if |q| > 0 {
      var n := |q| - 1;
      var prefix := q[..n];
      assert WellFormed(prefix);
      if q[n].key == key {
        var r := prefix + [Param(key, [value])];
        forall i, j | 0 <= i < j < |r| ensures r[i].key != r[j].key {
          if j < n { assert r[i] == q[i] && r[j] == q[j]; } else { assert r[i] == q[i]; }
        }
      } else {
        SetWellFormed(prefix, key, value);
        var rest := Set(prefix, key, value);
        SetKeys(prefix, key, value);
        forall i | 0 <= i < |rest| ensures rest[i].key != q[n].key {
          if rest[i].key != key {
            var j :| 0 <= j < n && prefix[j] == rest[i];
          }
        }
      }
    }
  }

  lemma {:induction false} SetLookup(q: Query, key: string, value: string, k: string)
    ensures Lookup(Set(q, key, value), k) == if k == key then Some([value]) else Lookup(q, k)
  {
    if |q| > 0 {
      var n := |q| - 1;
      var prefix := q[..n];
      assert prefix + [q[n]] == q;
      LookupSnoc(prefix, q[n], k);
      if q[n].key == key {
        LookupSnoc(prefix, Param(key, [value]), k);
      } else {
        SetLookup(prefix, key, value, k);
        LookupSnoc(Set(prefix, key, value), q[n], k);
      }
    }
  }

  /** An override: a key and the value passed for it. */
  datatype Override = Override(key: string, value: Value)

  /** The overrides in turn: an empty value removes its key, any other
      sets it. */
  function ApplyOverrides(q: Query, overrides: seq<Override>): (r: Query)
    requires WellFormed(q)
    ensures WellFormed(r)
  {
    if |overrides| == 0 then q
    else
      var o := overrides[|overrides| - 1];
      var prior := ApplyOverrides(q, overrides[..|overrides| - 1]);
      RemoveWellFormed(prior, o.key);
      SetWellFormed(prior, o.key, Shown(o.value));
      if IsEmpty(o.value) then Remove(prior, o.key) else Set(prior, o.key, Shown(o.value))
  }

  predicate Overridden(overrides: seq<Override>, key: string) {
    exists i :: 0 <= i < |overrides| && overrides[i].key == key
  }

  /** The value an override leaves for its key: none when it is empty,
      the shown value otherwise. */
  function OverrideResult(o: Override): Option<seq<string>> {
    if IsEmpty(o.value) then None else Some([Shown(o.value)])
  }

  /** A key no override names keeps its values. */
  lemma {:induction false} UnoverriddenKept(q: Query, overrides: seq<Override>, key: string)
    requires WellFormed(q) && !Overridden(overrides, key)
    ensures Lookup(ApplyOverrides(q, overrides), key) == Lookup(q, key)
  {
    if |overrides| > 0 {
      var n := |overrides| - 1;
      var o := overrides[n];
      var prior := ApplyOverrides(q, overrides[..n]);
      RemoveLookup(prior, o.key, key);
      SetLookup(prior, o.key, Shown(o.value), key);
      assert !Overridden(overrides[..n], key) by {
        forall i | 0 <= i < n ensures overrides[..n][i].key != key { assert overrides[..n][i] == overrides[i]; }
      }
      UnoverriddenKept(q, overrides[..n], key);
    }
  }

  /** Applying one more override changes only its own key, to what that
      override leaves. */
  lemma OverrideLookupStep(q: Query, overrides: seq<Override>, key: string)
    requires WellFormed(q) && |overrides| > 0
    ensures var o := overrides[|overrides| - 1];
            Lookup(ApplyOverrides(q, overrides), key)
            == if o.key == key then OverrideResult(o)
               else Lookup(ApplyOverrides(q, overrides[..|overrides| - 1]), key)
  {
    var o := overrides[|overrides| - 1];
    var prior := ApplyOverrides(q, overrides[..|overrides| - 1]);
    RemoveLookup(prior, o.key, key);
    SetLookup(prior, o.key, Shown(o.value), key);
  }

  /** The last override of a key decides what is left of it. */
  lemma {:induction false} LastOverrideWins(q: Query, overrides: seq<Override>, i: nat)
    requires WellFormed(q) && i < |overrides|
    requires forall j :: i < j < |overrides| ==> overrides[j].key != overrides[i].key
    ensures Lookup(ApplyOverrides(q, overrides), overrides[i].key) == OverrideResult(overrides[i])
  {
    var n := |overrides| - 1;
    var key := overrides[i].key;
    OverrideLookupStep(q, overrides, key);
    if i < n {
      var front := overrides[..n];
      assert front[i] == overrides[i];
      assert forall j :: i < j < n ==> front[j].key != key by {
        forall j | i < j < n ensures front[j].key != key { assert front[j] == overrides[j]; }
      }
      LastOverrideWins(q, front, i);
    }
  }

  /** Keys that are not overridden keep their values; an overridden key
      ends as its last override leaves it. */
  lemma ApplyOverridesEffect(q: Query, overrides: seq<Override>, key: string)
    requires WellFormed(q)
    ensures !Overridden(overrides, key) ==> Lookup(ApplyOverrides(q, overrides), key) == Lookup(q, key)
    ensures forall i :: 0 <= i < |overrides| && overrides[i].key == key
                        && (forall j :: i < j < |overrides| ==> overrides[j].key != key) ==>
              Lookup(ApplyOverrides(q, overrides), key) == OverrideResult(overrides[i])
  {
    if !Overridden(overrides, key) {
      UnoverriddenKept(q, overrides, key);
    }
    forall i | 0 <= i < |overrides| && overrides[i].key == key
               && (forall j :: i < j < |overrides| ==> overrides[j].key != key)
      ensures Lookup(ApplyOverrides(q, overrides), key) == OverrideResult(overrides[i])
    {
      LastOverrideWins(q, overrides, i);
    }
  }

  /** The `key=value` pairs of a query, encoded, in order. */
  function Pairs(q: Query, quote: string -> string): (ps: seq<string>)
    ensures forall i :: 0 <= i < |ps| ==> |ps[i]| > 0
  {
    if |q| == 0 then []
    else Pairs(q[..|q| - 1], quote)
         + seq(|q[|q| - 1].values|, j requires 0 <= j < |q[|q| - 1].values| =>
                 quote(q[|q| - 1].key) + "=" + quote(q[|q| - 1].values[j]))
  }

  /** `QueryDict.urlencode`. */
  function Encode(q: Query, quote: string -> string): string {
    Join(Pairs(q, quote), '&')
  }

  /** `url_with_query`: the request's query (or none) with the overrides
      applied, prefixed with `?` unless it encodes to nothing. */
  function UrlWithQuery(request: Option<Query>, overrides: seq<Override>, quote: string -> string): string
    requires request.Some? ==> WellFormed(request.value)
  {
    var q := ApplyOverrides(if request.Some? then request.value else [], overrides);
    var e := Encode(q, quote);
    if e == "" then "" else "?" + e
  }

  lemma {:induction false} JoinEmpty(parts: seq<string>, sep: char)
    requires forall i :: 0 <= i < |parts| ==> |parts[i]| > 0
    ensures Join(parts, sep) == "" <==> |parts| == 0
  {
    if |parts| > 1 {
      assert |Join(parts, sep)| >= |parts[0]|;
    }
  }

  lemma {:induction false} PairsEmpty(q: Query, quote: string -> string)
    requires WellFormed(q)
    ensures |Pairs(q, quote)| == 0 <==> |q| == 0
  {
    if |q| > 0 {
      assert |q[|q| - 1].values| > 0;
    }
  }

  /** The link is empty exactly when no parameter is left, and otherwise
      is `?` followed by the encoded query. */
  lemma UrlWithQueryShape(request: Option<Query>, overrides: seq<Override>, quote: string -> string)
    requires request.Some? ==> WellFormed(request.value)
    ensures var q := ApplyOverrides(if request.Some? then request.value else [], overrides);
            (UrlWithQuery(request, overrides, quote) == "" <==> |q| == 0)
            && (|q| > 0 ==> UrlWithQuery(request, overrides, quote) == "?" + Encode(q, quote))
  {
    var q := ApplyOverrides(if request.Some? then request.value else [], overrides);
    PairsEmpty(q, quote);
    JoinEmpty(Pairs(q, quote), '&');
  }

  /** Blank text and `None` are empty; text with a non-space character is
      not, and neither is any other value. */
  lemma IsEmptyIffBlank(v: Value)
    ensures IsEmpty(v) <==> v.Null? || (v.Str? && AllSpace(v.s))
  {
    if v.Str? {
      StripEmptyIffAllSpace(v.s);
    }
  }
}

=== FILE: sales.dfy ===
/** Posting a sale at the counter: each line's unit price, the stock it
    takes, the transaction total and the loyalty points the customer earns.
    Quantities and prices are hundredths, so a line total and the sum of
    them are ten-thousandths. */
module Sales {
  import opened Base
  import opened Inventory
  import Loyalty
  import DataQuality

  /** A customer's balance and the credits booked to it, newest last. */
  datatype Credit = Credit(pointsChange: int, balanceAfter: int, transactionId: string, amount: int)
  datatype Customer = Customer(name: string, points: nat, ledger: seq<Credit>)

  /** The records a sale touches: items and customers by id, and the
      product prices by item id. */
  datatype Shop = Shop(items: map<nat, InventoryItem>, prices: map<nat, int>, customers: map<nat, Customer>)

  /** One form of the line formset: left blank, or naming an item and
      perhaps a quantity. */
  datatype LineForm = Blank | Line(item: nat, quantity: Option<int>)

  /** A line as posted: its item, quantity and resolved unit price. */
  datatype Posting = Posting(item: nat, quantity: int, price: int)

  datatype PostError = UnknownCustomer | UnknownItem | MissingQuantity

  /** `_resolve_price`: the item's product price if it has one, else its
      default price. */
  function UnitPrice(shop: Shop, item: nat): (p: int)
    requires item in shop.items
    ensures item in shop.prices ==> p == shop.prices[item]
    ensures item !in shop.prices ==> p == shop.items[item].defaultPrice
  {
    if item in shop.prices then shop.prices[item] else shop.items[item].defaultPrice
  }

  /** An item's price record: its SKU and name copied from the item, the
      price, and who last changed it. */
  datatype ProductPrice = ProductPrice(item: nat, sku: string, productName: string, price: int, updatedBy: Option<nat>)

  /** A logged price change. */
  datatype PriceChange = PriceChange(oldPrice: Option<int>, newPrice: int, changedBy: nat)

  /** `ProductPrice.save`: the SKU and name are refreshed from the item;
      a change is logged on the first save or when the price moved, and
      only when someone is recorded as making it. `previous` is the stored
      price, none before the first save. */
  function SavePrice(p: ProductPrice, items: map<nat, InventoryItem>, previous: Option<int>)
    : (r: (ProductPrice, Option<PriceChange>))
    ensures p.item in items ==> r.0 == p.(sku := items[p.item].sku, productName := items[p.item].name)
    ensures p.item !in items ==> r.0 == p
    ensures r.1.Some? <==> p.updatedBy.Some? && previous != Some(p.price)
    ensures r.1.Some? ==> r.1.value == PriceChange(previous, p.price, p.updatedBy.value)
  {
    var saved := if p.item in items then p.(sku := items[p.item].sku, productName := items[p.item].name) else p;
    var log := if p.updatedBy.Some? && (previous.None? || previous.value != p.price)
               then Some(PriceChange(previous, p.price, p.updatedBy.value)) else None;
    (saved, log)
  }

  /** Saving a record again without changing its price logs nothing. */
  lemma ResaveLogsNothing(p: ProductPrice, items: map<nat, InventoryItem>, previous: Option<int>)
    ensures var (saved, _) := SavePrice(p, items, previous);
            SavePrice(saved, items, Some(saved.price)) == (saved, None)
  {}

  /** Once a price record is saved for an item, the counter charges the
      saved price for it. */
  lemma SavedPriceIsCharged(shop: Shop, p: ProductPrice, previous: Option<int>)
    requires p.item in shop.items
    ensures var saved := SavePrice(p, shop.items, previous).0;
            saved.item == p.item
            && UnitPrice(shop.(prices := shop.prices[saved.item := saved.price]), p.item) == p.price
  {}

  /** Saving one item's price record changes the price charged for no
      other item: an item with its own record keeps it, and an item
      without one is still charged its default price. */
  lemma SavePriceLeavesOthers(shop: Shop, p: ProductPrice, previous: Option<int>, other: nat)
    requires p.item in shop.items && other in shop.items && other != p.item
    ensures var saved := SavePrice(p, shop.items, previous).0;
            var after := shop.(prices := shop.prices[saved.item := saved.price]);
            UnitPrice(after, other) == UnitPrice(shop, other)
            && (other !in shop.prices ==> UnitPrice(after, other) == shop.items[other].defaultPrice)
  {}

  predicate KnownItems(shop: Shop, lines: seq<LineForm>) {
    forall i :: 0 <= i < |lines| && lines[i].Line? ==> lines[i].item in shop.items
  }

  predicate Quantified(lines: seq<LineForm>) {
    forall i :: 0 <= i < |lines| && lines[i].Line? ==> lines[i].quantity.Some?
  }

  function FilledCount(lines: seq<LineForm>): nat {
    if |lines| == 0 then 0 else (if lines[0].Line? then 1 else 0) + FilledCount(lines[1..])
  }

  /** How much the filled lines ask of one item. */
  function LinesTaken(lines: seq<LineForm>, item: nat): int {
    if |lines| == 0 then 0
    else
      var here := match lines[0]
                  case Line(i, Some(q)) => if i == item then q else 0
                  case _ => 0;
      here + LinesTaken(lines[1..], item)
  }

  /** What the filled lines are worth at the shop's prices, in
      ten-thousandths. */
  function LinesTotal(shop: Shop, lines: seq<LineForm>): int
    requires KnownItems(shop, lines)
  {
    if |lines| == 0 then 0
    else
      var here := match lines[0]
                  case Line(i, Some(q)) => q * UnitPrice(shop, i)
                  case _ => 0;
      here + LinesTotal(shop, lines[1..])
  }

  /** The filled lines, each priced, in form order. */
  function Postings(shop: Shop, lines: seq<LineForm>): (ps: seq<Posting>)
    requires KnownItems(shop, lines) && Quantified(lines)
    ensures |ps| == FilledCount(lines)
    ensures forall p :: p in ps ==> p.item in shop.items && p.price == UnitPrice(shop, p.item)
    ensures forall id :: Taken(ps, id) == LinesTaken(lines, id)
    ensures Total(ps) == LinesTotal(shop, lines)
  {
    if |lines| == 0 then []
    else
      var rest := Postings(shop, lines[1..]);
      match lines[0]
      case Blank => rest
      case Line(item, q) =>
        var ps := [Posting(item, q.value, UnitPrice(shop, item))] + rest;
        assert ps[1..] == rest;
        ps
  }

  /** The sum of quantity times price, in ten-thousandths. */
  function Total(ps: seq<Posting>): int {
    if |ps| == 0 then 0 else ps[0].quantity * ps[0].price + Total(ps[1..])
  }

  /** How much the postings take of one item. */
  function Taken(ps: seq<Posting>, item: nat): int {
    if |ps| == 0 then 0 else (if ps[0].item == item then ps[0].quantity else 0) + Taken(ps[1..], item)
  }

  predicate Stocked(items: map<nat, InventoryItem>, ps: seq<Posting>) {
    forall p :: p in ps ==> p.item in items
  }

  /** Each line takes its quantity from its item's stock as it stands at
      that moment; there is no check that enough is left. */
  function Deduct(items: map<nat, InventoryItem>, ps: seq<Posting>): (r: map<nat, InventoryItem>)
    requires Stocked(items, ps)
    ensures r.Keys == items.Keys
    ensures forall id :: id in items ==> r[id] == items[id].(currentQuantity := items[id].currentQuantity - Taken(ps, id))
  {
    if |ps| == 0 then items
    else
      var p := ps[0];
      var next := items[p.item := items[p.item].(currentQuantity := items[p.item].currentQuantity - p.quantity)];
      assert forall q :: q in ps[1..] ==> q in ps;
      Deduct(next, ps[1..])
  }

  /** The deduction as the view performs it: every form holds the item as
      it was loaded when the formset was validated, and each line saves
      that copy's stock less its own quantity, so a later line for the same
      item overwrites an earlier one. */
  function DeductAsWritten(loaded: map<nat, InventoryItem>, items: map<nat, InventoryItem>, ps: seq<Posting>)
    : (r: map<nat, InventoryItem>)
    requires Stocked(loaded, ps) && Stocked(items, ps)
    ensures r.Keys == items.Keys
  {
    if |ps| == 0 then items
    else
      var p := ps[0];
      assert forall q :: q in ps[1..] ==> q in ps;
      DeductAsWritten(loaded, items[p.item := items[p.item].(currentQuantity := loaded[p.item].currentQuantity - p.quantity)], ps[1..])
  }

  /** The quantity of the last posting for an item, if any. */
  function LastTaken(ps: seq<Posting>, item: nat): Option<int> {
    if |ps| == 0 then None
    else
      var rest := LastTaken(ps[1..], item);
      if rest.Some? then rest else if ps[0].item == item then Some(ps[0].quantity) else None
  }

  /** As written, an item ends at its loaded stock less the quantity of its
      last line alone. */
  lemma {:induction false} AsWrittenLastLineWins(loaded: map<nat, InventoryItem>, items: map<nat, InventoryItem>,
                                                 ps: seq<Posting>, id: nat)
    requires Stocked(loaded, ps) && Stocked(items, ps) && id in items && id in loaded
    ensures LastTaken(ps, id).Some? ==>
              DeductAsWritten(loaded, items, ps)[id].currentQuantity == loaded[id].currentQuantity - LastTaken(ps, id).value
    ensures LastTaken(ps, id).None? ==> DeductAsWritten(loaded, items, ps)[id] == items[id]
  {
    if |ps| > 0 {
      var p := ps[0];
      var next := items[p.item := items[p.item].(currentQuantity := loaded[p.item].currentQuantity - p.quantity)];
      assert forall q :: q in ps[1..] ==> q in ps;
      AsWrittenLastLineWins(loaded, next, ps[1..], id);
    }
  }

  /** Two lines for one item: as written only the second line's quantity
      is taken off, where both were meant to be. */
  lemma DuplicateLineLosesDeduction()
    ensures var item := InventoryItem(1, "Milk", "MILK1", "", 1000, 0, 0, None, 0, None, None, None, false);
            var items := map[1 := item];
            var ps := [Posting(1, 100, 0), Posting(1, 200, 0)];
            DeductAsWritten(items, items, ps)[1].currentQuantity == 800
            && Deduct(items, ps)[1].currentQuantity == 700
  {
    var item := InventoryItem(1, "Milk", "MILK1", "", 1000, 0, 0, None, 0, None, None, None, false);
    var items := map[1 := item];
    var ps := [Posting(1, 100, 0), Posting(1, 200, 0)];
    assert ps[1..][1..] == [];
    assert LastTaken(ps, 1) == Some(200);
    AsWrittenLastLineWins(items, items, ps, 1);
    assert Taken(ps, 1) == 300;
  }

  /** The transaction as stored: the total rounded (half to even) to the
      two places of its column, with its lines. */
  datatype Receipt = Receipt(transactionId: string, customer: Option<nat>, total: int, postings: seq<Posting>)

  /** The loyalty step: a set customer with a non-zero total earns the
      points of the tier that total falls in; a credit is booked only when
      there are points to book. */
  function Credited(c: Customer, tiers: seq<Loyalty.Tier>, total: int, transactionId: string): (r: Customer)
    ensures r.name == c.name
    ensures var pts := Loyalty.PointsForAmount(tiers, total);
            if total != 0 && pts != 0 then
              r.points == c.points + pts && r.ledger == c.ledger + [Credit(pts, r.points, transactionId, RoundHalfEven(total, 100))]
            else r == c
  {
    var pts := Loyalty.PointsForAmount(tiers, total);
    if total != 0 && pts != 0 then
      var balance := c.points + pts;
      c.(points := balance, ledger := c.ledger + [Credit(pts, balance, transactionId, RoundHalfEven(total, 100))])
    else c
  }

  /** A sale whose lines passed the checks: the stock is taken, the
      customer credited and the receipt written. */
  function Settle(shop: Shop, customer: Option<nat>, lines: seq<LineForm>, transactionId: string,
                  tiers: seq<Loyalty.Tier>): (r: (Shop, Receipt))
    requires customer.Some? ==> customer.value in shop.customers
    requires KnownItems(shop, lines) && Quantified(lines)
    ensures r.0.items.Keys == shop.items.Keys && r.0.prices == shop.prices
    ensures r.0.customers == CreditBuyer(shop.customers, customer, tiers, Total(r.1.postings), transactionId)
    ensures r.1.postings == Postings(shop, lines) && |r.1.postings| == FilledCount(lines)
    ensures forall id :: id in shop.items ==>
              id in r.0.items && Taken(r.1.postings, id) == LinesTaken(lines, id)
              && r.0.items[id].currentQuantity == shop.items[id].currentQuantity - Taken(r.1.postings, id)
    ensures Total(r.1.postings) == LinesTotal(shop, lines) && 2 * Abs(r.1.total * 100 - Total(r.1.postings)) <= 100
  {
    var ps := Postings(shop, lines);
    var total := Total(ps);
    var items := Deduct(shop.items, ps);
    (Shop(items, shop.prices, CreditBuyer(shop.customers, customer, tiers, total, transactionId)),
     Receipt(transactionId, customer, RoundHalfEven(total, 100), ps))
  }

  /** The customers after a sale of `total`: only the buyer, if one is set,
      is credited. */
  function CreditBuyer(customers: map<nat, Customer>, customer: Option<nat>, tiers: seq<Loyalty.Tier>,
                       total: int, transactionId: string): (r: map<nat, Customer>)
    requires customer.Some? ==> customer.value in customers
    ensures r.Keys == customers.Keys
    ensures forall c :: c in customers && customer != Some(c) ==> r[c] == customers[c]
    ensures customer.Some? ==> r[customer.value] == Credited(customers[customer.value], tiers, total, transactionId)
  {
    if customer.Some? then customers[customer.value := Credited(customers[customer.value], tiers, total, transactionId)]
    else customers
  }

  /** `SalesCreateView.post`, with each line's stock taken off in turn. */
  function PostSale(shop: Shop, customer: Option<nat>, lines: seq<LineForm>, transactionId: string,
                    tiers: seq<Loyalty.Tier>): (r: Result<(Shop, Receipt), PostError>)
    ensures r.Err? <==> (customer.Some? && customer.value !in shop.customers) || !KnownItems(shop, lines) || !Quantified(lines)
    ensures r.Ok? ==> r.value.0.items.Keys == shop.items.Keys && r.value.0.prices == shop.prices
    ensures r.Ok? ==> |r.value.1.postings| == FilledCount(lines)
    ensures r.Ok? ==> forall id :: id in shop.items ==>
              id in r.value.0.items && Taken(r.value.1.postings, id) == LinesTaken(lines, id)
              && r.value.0.items[id].currentQuantity == shop.items[id].currentQuantity - Taken(r.value.1.postings, id)
    ensures r.Ok? ==> Total(r.value.1.postings) == LinesTotal(shop, lines)
                      && 2 * Abs(r.value.1.total * 100 - Total(r.value.1.postings)) <= 100
  {
    if customer.Some? && customer.value !in shop.customers then Err(UnknownCustomer)
    else if !KnownItems(shop, lines) then Err(UnknownItem)
    else if !Quantified(lines) then Err(MissingQuantity)
    else Ok(Settle(shop, customer, lines, transactionId, tiers))
  }

  /** Points go only to a set customer, by exactly the points the total
      earns, and the booked credit records the new balance; no other
      customer changes. */
  lemma PostSaleCreditsCustomer(shop: Shop, customer: Option<nat>, lines: seq<LineForm>, transactionId: string,
                                tiers: seq<Loyalty.Tier>)
    requires PostSale(shop, customer, lines, transactionId, tiers).Ok?
    ensures var (s2, rec) := PostSale(shop, customer, lines, transactionId, tiers).value;
            var pts := Loyalty.PointsForAmount(tiers, Total(rec.postings));
            s2.customers.Keys == shop.customers.Keys
            && (forall c :: c in shop.customers && customer != Some(c) ==> s2.customers[c] == shop.customers[c])
            && (customer.Some? && Total(rec.postings) != 0 && pts != 0 ==>
                  s2.customers[customer.value].points == shop.customers[customer.value].points + pts
                  && s2.customers[customer.value].ledger[|s2.customers[customer.value].ledger| - 1].balanceAfter
                     == s2.customers[customer.value].points)
            && (customer.Some? && (Total(rec.postings) == 0 || pts == 0) ==>
                  s2.customers[customer.value] == shop.customers[customer.value])
  {}

  /** A posted sale never trips the sales-total check: its stored total is
      within half a hundredth of its lines' sum. */
  lemma PostedSaleIsConsistent(shop: Shop, customer: Option<nat>, lines: seq<LineForm>, transactionId: string,
                               tiers: seq<Loyalty.Tier>, id: nat)
    requires PostSale(shop, customer, lines, transactionId, tiers).Ok?
    ensures var rec := PostSale(shop, customer, lines, transactionId, tiers).value.1;
            !DataQuality.TotalMismatch(DataQuality.Sale(id, transactionId, rec.total, AsLines(rec.postings)))
  {
    var rec := PostSale(shop, customer, lines, transactionId, tiers).value.1;
    var ls := AsLines(rec.postings);
    LinesTotalIsTotal(rec.postings);
    var x := Abs(rec.total * 100 - DataQuality.LinesTotal(ls));
    assert 0 <= x <= 50;
    RoundHalfEvenMonotone(x, 50, 100);
    RoundHalfEvenMonotone(0, x, 100);
    RoundExact(0, 100);
    assert RoundHalfEven(50, 100) == 0;
  }

  /** The sale's lines as the data-quality check reads them. */
  function AsLines(ps: seq<Posting>): (ls: seq<DataQuality.Line>)
    ensures |ls| == |ps|
    ensures forall i :: 0 <= i < |ps| ==> ls[i] == DataQuality.Line(ps[i].quantity, ps[i].price)
  {
    seq(|ps|, i requires 0 <= i < |ps| => DataQuality.Line(ps[i].quantity, ps[i].price))
  }

  lemma {:induction false} LinesTotalIsTotal(ps: seq<Posting>)
    ensures DataQuality.LinesTotal(AsLines(ps)) == Total(ps)
  {
    if |ps| > 0 {
      var n := |ps| - 1;
      assert AsLines(ps)[..n] == AsLines(ps[..n]);
      LinesTotalIsTotal(ps[..n]);
      TotalSnoc(ps[..n], ps[n]);
      assert ps[..n] + [ps[n]] == ps;
    }
  }

  lemma {:induction false} TotalSnoc(ps: seq<Posting>, p: Posting)
    ensures Total(ps + [p]) == Total(ps) + p.quantity * p.price
  {
    if |ps| > 0 {
      assert (ps + [p])[1..] == ps[1..] + [p];
      TotalSnoc(ps[1..], p);
    }
  }
}

=== FILE: sellers.dfy ===
/** Sellers: the stock a served seller transaction takes, and the report
    that sets what each product sold at the counter beside what sellers
    took. Item quantities are hundredths; seller quantities are whole
    units. */
module Sellers {
  import opened Base
  import opened Inventory

  datatype TransactionStatus = Served | PendingService | Cancelled

  datatype SellerTransaction = SellerTransaction(seller: nat, product: nat, quantity: nat, status: TransactionStatus)

  /** `serve_seller`: the product's stock is lowered by the transaction's
      quantity in the database itself, whatever status the transaction
      records. */
  function Serve(items: map<nat, InventoryItem>, t: SellerTransaction): (r: map<nat, InventoryItem>)
    requires t.product in items
    ensures r.Keys == items.Keys
    ensures r[t.product] == items[t.product].(currentQuantity := items[t.product].currentQuantity - t.quantity * 100)
    ensures forall id :: id in items && id != t.product ==> r[id] == items[id]
  {
    items[t.product := items[t.product].(currentQuantity := items[t.product].currentQuantity - t.quantity * 100)]
  }

  function Taken(ts: seq<SellerTransaction>, product: nat): int {
    if |ts| == 0 then 0 else (if ts[0].product == product then ts[0].quantity * 100 else 0) + Taken(ts[1..], product)
  }

  predicate Known(items: map<nat, InventoryItem>, ts: seq<SellerTransaction>) {
    forall i :: 0 <= i < |ts| ==> ts[i].product in items
  }

  function ServeAll(items: map<nat, InventoryItem>, ts: seq<SellerTransaction>): map<nat, InventoryItem>
    requires Known(items, ts)
  {
    if |ts| == 0 then items else ServeAll(Serve(items, ts[0]), ts[1..])
  }

  /** Because each deduction is made by the database on the current value,
      a run of transactions takes their total from each product, none
      lost. */
  lemma {:induction false} ServeAllTakesTotal(items: map<nat, InventoryItem>, ts: seq<SellerTransaction>)
    requires Known(items, ts)
    ensures ServeAll(items, ts).Keys == items.Keys
    ensures forall id :: id in items ==>
              ServeAll(items, ts)[id] == items[id].(currentQuantity := items[id].currentQuantity - Taken(ts, id))
  {
    if |ts| > 0 {
      ServeAllTakesTotal(Serve(items, ts[0]), ts[1..]);
    }
  }

  // ---- the combined report ----

  /** A grouped total: a product name (possibly empty) and its sum. */
  datatype Total = Total(name: string, total: int)

  /** What sales and sellers took of one product. */
  datatype Impact = Impact(sales: int, sellers: int)

  /** A report row. */
  datatype Row = Row(product: string, sales: int, sellers: int)

  /** The total the last entry with a name gives it, 0 when none does. */
  function TotalFor(ts: seq<Total>, name: string): int {
    if |ts| == 0 then 0
    else if ts[|ts| - 1].name == name then ts[|ts| - 1].total
    else TotalFor(ts[..|ts| - 1], name)
  }

  predicate Listed(ts: seq<Total>, name: string) {
    exists i :: 0 <= i < |ts| && ts[i].name == name
  }

  /** A name is listed in a non-empty list when it is listed before the
      last entry or is the last entry's. */
  lemma ListedSnoc(ts: seq<Total>)
    requires |ts| > 0
    ensures forall p :: Listed(ts, p) <==> Listed(ts[..|ts| - 1], p) || ts[|ts| - 1].name == p
  {
    assert forall i :: 0 <= i < |ts| - 1 ==> ts[..|ts| - 1][i] == ts[i];
  }

  /** The sales pass over the report's dictionary: each named product is
      set to its sales and no seller quantity; an empty name is skipped. */
  function AddSales(sales: seq<Total>): (m: map<string, Impact>)
    ensures forall p :: p in m <==> p != "" && Listed(sales, p)
    ensures forall p :: p in m ==> m[p] == Impact(TotalFor(sales, p), 0)
  {
    if |sales| == 0 then map[]
    else
      var n := |sales| - 1;
      var m := AddSales(sales[..n]);
      ListedSnoc(sales);
      if sales[n].name == "" then m else m[sales[n].name := Impact(sales[n].total, 0)]
  }

  /** The sellers pass: a listed product gets its seller quantity, a new
      one is added with no sales. */
  function AddSellers(m: map<string, Impact>, sellers: seq<Total>): (r: map<string, Impact>)
    ensures forall p :: p in r <==> p in m || (p != "" && Listed(sellers, p))
    ensures forall p :: p in r && !Listed(sellers, p) ==> r[p] == m[p]
    ensures forall p :: p in r && p != "" && Listed(sellers, p) ==>
              r[p] == Impact(if p in m then m[p].sales else 0, TotalFor(sellers, p))
  {
    if |sellers| == 0 then m
    else
      var n := |sellers| - 1;
      var prior := AddSellers(m, sellers[..n]);
      ListedSnoc(sellers);
      var t := sellers[n];
      if t.name == "" then prior
      else prior[t.name := Impact(if t.name in prior then prior[t.name].sales else 0, t.total)]
  }

  /** The report's products, in the order the dictionary first met them. */
  function Order(names: seq<string>): (o: seq<string>)
    ensures forall p :: p in o <==> p != "" && p in names
    ensures forall i, j :: 0 <= i < j < |o| ==> o[i] != o[j]
  {
    if |names| == 0 then []
    else
      var n := |names| - 1;
      var prior := Order(names[..n]);
      assert forall p :: p in names <==> p in names[..n] || p == names[n];
      if names[n] == "" || names[n] in prior then prior else prior + [names[n]]
  }

  function NamesOf(ts: seq<Total>): (ns: seq<string>)
    ensures |ns| == |ts|
    ensures forall i :: 0 <= i < |ts| ==> ns[i] == ts[i].name
  {
    seq(|ts|, i requires 0 <= i < |ts| => ts[i].name)
  }

  /** `combined_inventory_impact_report`: one row per named product, sales
      first, then sellers. */
  function CombinedReport(sales: seq<Total>, sellers: seq<Total>): seq<Row> {
    var m := AddSellers(AddSales(sales), sellers);
    var o := Order(NamesOf(sales) + NamesOf(sellers));
    seq(|o|, i requires 0 <= i < |o| => if o[i] in m then Row(o[i], m[o[i]].sales, m[o[i]].sellers) else Row(o[i], 0, 0))
  }

  lemma NamesListed(sales: seq<Total>, sellers: seq<Total>, p: string)
    ensures p in NamesOf(sales) + NamesOf(sellers) <==> Listed(sales, p) || Listed(sellers, p)
  {
    var names := NamesOf(sales) + NamesOf(sellers);
    if p in names {
      var k :| 0 <= k < |names| && names[k] == p;
      if k < |sales| { assert sales[k].name == p; } else { assert sellers[k - |sales|].name == p; }
    }
    if Listed(sales, p) {
      var k :| 0 <= k < |sales| && sales[k].name == p;
      assert names[k] == p;
    }
    if Listed(sellers, p) {
      var k :| 0 <= k < |sellers| && sellers[k].name == p;
      assert names[|sales| + k] == p;
    }
  }

  /** Each product appears in the report at most once. */
  lemma ReportDistinct(sales: seq<Total>, sellers: seq<Total>)
    ensures forall i, j :: 0 <= i < j < |CombinedReport(sales, sellers)| ==>
              CombinedReport(sales, sellers)[i].product != CombinedReport(sales, sellers)[j].product
  {}

  /** The report's products are exactly the names either side gives, the
      empty name left out. */
  lemma ReportProducts(sales: seq<Total>, sellers: seq<Total>, p: string)
    ensures (exists i :: 0 <= i < |CombinedReport(sales, sellers)| && CombinedReport(sales, sellers)[i].product == p)
            <==> p != "" && (Listed(sales, p) || Listed(sellers, p))
  {
    var rows := CombinedReport(sales, sellers);
    var o := Order(NamesOf(sales) + NamesOf(sellers));
    NamesListed(sales, sellers, p);
    if p in o {
      var i :| 0 <= i < |o| && o[i] == p;
      assert rows[i].product == p;
    }
  }

  /** Each row carries both sides' totals, 0 for a side that does not name
      its product. */
  lemma ReportTotals(sales: seq<Total>, sellers: seq<Total>, i: nat)
    requires i < |CombinedReport(sales, sellers)|
    ensures CombinedReport(sales, sellers)[i].sales == TotalFor(sales, CombinedReport(sales, sellers)[i].product)
    ensures CombinedReport(sales, sellers)[i].sellers == TotalFor(sellers, CombinedReport(sales, sellers)[i].product)
  {
    var o := Order(NamesOf(sales) + NamesOf(sellers));
    var p := o[i];
    assert p in o;
    NamesListed(sales, sellers, p);
    if !Listed(sales, p) { NotListedNoTotal(sales, p); }
    if !Listed(sellers, p) { NotListedNoTotal(sellers, p); }
  }

  lemma {:induction false} NotListedNoTotal(ts: seq<Total>, name: string)
    requires !Listed(ts, name)
    ensures TotalFor(ts, name) == 0
  {
    if |ts| > 0 {
      var n := |ts| - 1;
      assert !Listed(ts[..n], name) by {
        forall i | 0 <= i < n ensures ts[..n][i].name != name { assert ts[..n][i] == ts[i]; }
      }
      NotListedNoTotal(ts[..n], name);
    }
  }
}

=== FILE: storage.dfy ===
/** Cold-storage lots: cartons and loose packets under an optional
    packaging, the expiry status rule, moving a lot to the expired register,
    adjusting a lot by a stock delta, per-SKU totals and reconciliation with
    the inventory. Lot quantities are whole packets; inventory quantities
    are hundredths. */
module Storage {
  import opened Base
  import opened Inventory

  datatype Packaging = Packaging(id: nat, product: nat, packSizeMl: nat, packetsPerCarton: nat)

  datatype LotStatus = InStorage | NearExpiry | Expired

  /** A cold-storage record; `batch` is the production batch it holds. */
  datatype Lot = Lot(
    storageId: nat,
    batch: nat,
    packaging: Option<Packaging>,
    expiry: int,
    cartons: nat,
    loose: nat,
    location: nat,
    status: LotStatus,
    lastRestocked: int)

  /** The register of expired stock. */
  datatype ExpiredLot = ExpiredLot(
    product: nat,
    packaging: Packaging,
    cartons: int,
    loose: int,
    expiry: int,
    batchId: string,
    location: nat)

  /** Packets per carton, when the lot has a packaging that says so. */
  predicate Packed(lot: Lot) {
    lot.packaging.Some? && lot.packaging.value.packetsPerCarton != 0
  }

  /** `ColdStorageInventory.total_units`: full cartons times packets per
      carton plus loose packets; loose packets only without a usable
      packaging. */
  function TotalUnits(lot: Lot): (n: nat)
    ensures Packed(lot) ==> n >= lot.loose && n - lot.loose == lot.cartons * lot.packaging.value.packetsPerCarton
    ensures !Packed(lot) ==> n == lot.loose
  {
    if Packed(lot) then lot.cartons * lot.packaging.value.packetsPerCarton + lot.loose else lot.loose
  }

  /** `ExpiredStockInventory.total_units`. */
  function ExpiredTotalUnits(e: ExpiredLot): int {
    e.cartons * e.packaging.packetsPerCarton + e.loose
  }

  /** `_status_for_expiry`, the same rule as `update_status`: expired
      before today, near expiry within three days, otherwise in storage. */
  function StatusForExpiry(expiry: int, today: int): (s: LotStatus)
    ensures s == Expired <==> expiry < today
    ensures s == NearExpiry <==> today <= expiry <= today + 3
    ensures s == InStorage <==> expiry > today + 3
  {
    if expiry < today then Expired
    else if expiry - today <= 3 then NearExpiry
    else InStorage
  }

  /** `ColdStorageInventory.update_status`. */
  function UpdateStatus(lot: Lot, today: int): (r: Lot)
    ensures r == lot.(status := r.status)
    ensures r.status == Expired <==> lot.expiry < today
    ensures r.status == NearExpiry <==> today <= lot.expiry <= today + 3
  {
    lot.(status := StatusForExpiry(lot.expiry, today))
  }

  /** The status only worsens as days pass. */
  lemma StatusWorsensOverTime(expiry: int, d1: int, d2: int)
    requires d1 <= d2
    ensures StatusForExpiry(expiry, d1) == Expired ==> StatusForExpiry(expiry, d2) == Expired
    ensures StatusForExpiry(expiry, d2) == InStorage ==> StatusForExpiry(expiry, d1) == InStorage
  {}

  datatype MoveError = NoPackaging

  /** `move_to_expired`: copy the lot into the expired register and empty
      it. The register needs a packaging, so a lot without one is refused.
      The lot has no `batch_id` attribute, so the copy's batch id is the
      empty default. */
  function MoveToExpired(lot: Lot): (r: Result<(ExpiredLot, Lot), MoveError>)
    ensures r.Err? <==> lot.packaging.None?
    ensures r.Ok? ==> ExpiredTotalUnits(r.value.0) == TotalUnits(lot)
    ensures r.Ok? ==> TotalUnits(r.value.1) == 0 && r.value.1.status == Expired
    ensures r.Ok? ==> r.value.0.expiry == lot.expiry && r.value.0.location == lot.location
                      && r.value.0.batchId == ""
    ensures r.Ok? ==> r.value.1 == lot.(cartons := 0, loose := 0, status := Expired)
  {
    match lot.packaging
    case None => Err(NoPackaging)
    case Some(p) =>
      Ok((ExpiredLot(p.product, p, lot.cartons, lot.loose, lot.expiry, "", lot.location),
          lot.(cartons := 0, loose := 0, status := Expired)))
  }

  // ---- the flat quantity other code reads and writes ----

  /** The single quantity that code written for a flat lot reads: its
      packets. */
  function LotQuantity(lot: Lot): nat {
    TotalUnits(lot)
  }

  /** Storing a number of packets: full cartons and the remainder under a
      usable packaging, all loose otherwise. */
  function WithQuantity(lot: Lot, n: nat): (r: Lot)
    ensures r == lot.(cartons := r.cartons, loose := r.loose)
    ensures Packed(lot) ==> r.loose < lot.packaging.value.packetsPerCarton
    ensures !Packed(lot) ==> r.cartons == 0
  {
    if Packed(lot) then
      var per := lot.packaging.value.packetsPerCarton;
      lot.(cartons := n / per, loose := n % per)
    else lot.(cartons := 0, loose := n)
  }

  /** Writing a quantity and reading it back gives that quantity. */
  lemma QuantityRoundTrip(lot: Lot, n: nat)
    ensures LotQuantity(WithQuantity(lot, n)) == n
  {
    if Packed(lot) {
      var per := lot.packaging.value.packetsPerCarton;
      assert (n / per) * per + n % per == n;
    }
  }

  // ---- adjusting a lot ----

  /** The position of the lot holding a batch. */
  function FindLot(lots: seq<Lot>, batch: nat): (r: Option<nat>)
    ensures r.Some? ==> r.value < |lots| && lots[r.value].batch == batch
                        && forall j :: 0 <= j < r.value ==> lots[j].batch != batch
    ensures r.None? ==> forall j :: 0 <= j < |lots| ==> lots[j].batch != batch
  {
    if |lots| == 0 then None
    else if lots[0].batch == batch then Some(0)
    else
      match FindLot(lots[1..], batch)
      case None => None
      case Some(i) => Some(i + 1)
  }

  /** Drop the lot at a position. */
  function RemoveAt<T>(xs: seq<T>, i: nat): (r: seq<T>)
    requires i < |xs|
    ensures |r| == |xs| - 1
    ensures forall j :: 0 <= j < i ==> r[j] == xs[j]
    ensures forall j :: i <= j < |r| ==> r[j] == xs[j + 1]
  {
    xs[..i] + xs[i + 1..]
  }

  /** `adjust_storage_for_inventory_item`: apply a stock delta (hundredths,
      truncated to whole packets) to the lot of the item's batch. Nothing
      happens without a batch, for a zero delta or without a lot; a lot
      brought to zero or below is deleted; otherwise the new total is split
      into cartons and loose packets and the status recomputed. The boolean
      says whether storage changed. */
  function Adjust(lots: seq<Lot>, item: InventoryItem, delta: int, today: int, now: int)
    : (out: (seq<Lot>, bool))
    ensures !out.1 <==> (!HasBatch(item) || delta == 0 || FindLot(lots, item.batchId.value).None?)
    ensures !out.1 ==> out.0 == lots
    ensures out.1 ==>
              var i := FindLot(lots, item.batchId.value).value;
              var newTotal := TotalUnits(lots[i]) + TruncateCents(delta);
              (newTotal <= 0 ==> out.0 == RemoveAt(lots, i))
              && (newTotal > 0 ==>
                    |out.0| == |lots| && TotalUnits(out.0[i]) == newTotal
                    && out.0[i].status == StatusForExpiry(lots[i].expiry, today)
                    && (Packed(lots[i]) ==> out.0[i].loose < lots[i].packaging.value.packetsPerCarton)
                    && forall j :: 0 <= j < |lots| && j != i ==> out.0[j] == lots[j])
  {
    if !HasBatch(item) || delta == 0 then (lots, false)
    else
      match FindLot(lots, item.batchId.value)
      case None => (lots, false)
      case Some(i) =>
        var lot := lots[i];
        var newTotal := TotalUnits(lot) + TruncateCents(delta);
        if newTotal <= 0 then (RemoveAt(lots, i), true)
        else
          var split := WithQuantity(lot, newTotal);
          QuantityRoundTrip(lot, newTotal);
          (lots[i := split.(lastRestocked := now, status := StatusForExpiry(lot.expiry, today))], true)
  }

  // ---- per-SKU totals ----

  /** The SKU of the production batch a lot holds; "" when unknown. */
  function SkuOf(lot: Lot, skus: map<nat, string>): string {
    if lot.batch in skus then skus[lot.batch] else ""
  }

  /** Reference: the packets of every lot of one SKU. */
  function SkuTotal(lots: seq<Lot>, skus: map<nat, string>, sku: string): int {
    if |lots| == 0 then 0
    else
      var last := lots[|lots| - 1];
      SkuTotal(lots[..|lots| - 1], skus, sku) + (if SkuOf(last, skus) == sku then TotalUnits(last) else 0)
  }

  predicate HasSku(lots: seq<Lot>, skus: map<nat, string>, sku: string) {
    exists i :: 0 <= i < |lots| && SkuOf(lots[i], skus) == sku
  }

  /** `aggregate_storage_by_sku`: packets in storage per SKU, over lots
      whose batch has a SKU. */
  function AggregateBySku(lots: seq<Lot>, skus: map<nat, string>): (totals: map<string, int>)
    ensures forall s :: s in totals <==> s != "" && HasSku(lots, skus, s)
    ensures forall s :: s in totals ==> totals[s] == SkuTotal(lots, skus, s)
  {
    if |lots| == 0 then map[]
    else
      var n := |lots| - 1;
      var m := AggregateBySku(lots[..n], skus);
      var s := SkuOf(lots[n], skus);
      assert forall j :: 0 <= j < n ==> lots[..n][j] == lots[j];
      if s == "" then m
      else
        assert s in m ==> m[s] == SkuTotal(lots[..n], skus, s);
        assert !(s in m) ==> SkuTotal(lots[..n], skus, s) == 0 by {
          if s !in m { NoLotsNoTotal(lots[..n], skus, s); }
        }
        m[s := (if s in m then m[s] else 0) + TotalUnits(lots[n])]
  }

  lemma {:induction false} NoLotsNoTotal(lots: seq<Lot>, skus: map<nat, string>, sku: string)
    requires !HasSku(lots, skus, sku)
    ensures SkuTotal(lots, skus, sku) == 0
  {
    if |lots| > 0 {
      var n := |lots| - 1;
      assert forall j :: 0 <= j < n ==> lots[..n][j] == lots[j];
      NoLotsNoTotal(lots[..n], skus, sku);
    }
  }

  // ---- reconciliation ----

  datatype Mismatch = Mismatch(sku: string, name: string, inventoryQty: int, storageQty: int)

  datatype Report = Report(missingLinks: seq<(string, string)>, mismatched: seq<Mismatch>, lotsRemoved: seq<nat>)

  /** Storage and inventory disagree by more than 0.01. */
  predicate Disagree(storagePackets: int, quantity: int) {
    Abs(storagePackets * 100 - quantity) > 1
  }

  function StorageFor(totals: map<string, int>, sku: string): int {
    if sku in totals then totals[sku] else 0
  }

  function MissingLinks(items: seq<InventoryItem>): (r: seq<(string, string)>)
    ensures forall it :: it in items && !HasBatch(it) ==> (it.sku, it.name) in r
    ensures forall p :: p in r ==> exists it :: it in items && !HasBatch(it) && p == (it.sku, it.name)
  {
    if |items| == 0 then []
    else
      var rest := MissingLinks(items[1..]);
      if !HasBatch(items[0]) then [(items[0].sku, items[0].name)] + rest else rest
  }

  function Mismatches(items: seq<InventoryItem>, totals: map<string, int>): (r: seq<Mismatch>)
    ensures forall it :: it in items && HasBatch(it) && Disagree(StorageFor(totals, it.sku), it.currentQuantity) ==>
              Mismatch(it.sku, it.name, it.currentQuantity, StorageFor(totals, it.sku)) in r
    ensures forall m :: m in r ==>
              exists it :: (it in items && HasBatch(it)
                            && Disagree(StorageFor(totals, it.sku), it.currentQuantity)
                            && m == Mismatch(it.sku, it.name, it.currentQuantity, StorageFor(totals, it.sku)))
  {
    if |items| == 0 then []
    else
      var it := items[0];
      var rest := Mismatches(items[1..], totals);
      if HasBatch(it) && Disagree(StorageFor(totals, it.sku), it.currentQuantity) then
        [Mismatch(it.sku, it.name, it.currentQuantity, StorageFor(totals, it.sku))] + rest
      else rest
  }

  function EmptyLotIds(lots: seq<Lot>): (r: seq<nat>)
    ensures forall l :: l in lots && TotalUnits(l) == 0 ==> l.storageId in r
    ensures forall id :: id in r ==> exists l :: l in lots && TotalUnits(l) == 0 && l.storageId == id
  {
    if |lots| == 0 then []
    else
      var rest := EmptyLotIds(lots[1..]);
      if TotalUnits(lots[0]) == 0 then [lots[0].storageId] + rest else rest
  }

  function NonEmptyLots(lots: seq<Lot>): (r: seq<Lot>)
    ensures forall l :: l in r <==> l in lots && TotalUnits(l) > 0
    ensures |r| <= |lots|
  {
    if |lots| == 0 then []
    else
      var rest := NonEmptyLots(lots[1..]);
      if TotalUnits(lots[0]) > 0 then [lots[0]] + rest else rest
  }

  /** `reconcile_storage_records`: items without a batch are reported as
      missing links and not compared; every other item whose stock differs
      from its SKU's packets in storage by more than 0.01 is a mismatch;
      empty lots are listed either way and deleted only outside a dry run.
      Mismatches are never corrected. */
  function Reconcile(items: seq<InventoryItem>, lots: seq<Lot>, skus: map<nat, string>, dryRun: bool)
    : (out: (Report, seq<Lot>))
    ensures dryRun ==> out.1 == lots
    ensures !dryRun ==> forall l :: l in out.1 <==> l in lots && TotalUnits(l) > 0
    ensures out.0.lotsRemoved == EmptyLotIds(lots)
    ensures out.0.missingLinks == MissingLinks(items)
    ensures forall it :: it in items && !HasBatch(it) ==> (it.sku, it.name) in out.0.missingLinks
    ensures forall p :: p in out.0.missingLinks ==> exists it :: it in items && !HasBatch(it) && p == (it.sku, it.name)
    ensures forall m :: m in out.0.mismatched ==>
              exists it :: it in items && HasBatch(it) && m.sku == it.sku && m.name == it.name
                           && m.inventoryQty == it.currentQuantity
  {
    var totals := AggregateBySku(lots, skus);
    var report := Report(MissingLinks(items), Mismatches(items, totals), EmptyLotIds(lots));
    (report, if dryRun then lots else NonEmptyLots(lots))
  }

  /** An item with a batch is reported as a mismatch exactly when its
      stock and its SKU's packets in storage differ by more than 0.01. */
  lemma ReconcileFlagsExactly(items: seq<InventoryItem>, lots: seq<Lot>, skus: map<nat, string>, dryRun: bool, it: InventoryItem)
    requires it in items && HasBatch(it)
    ensures var report := Reconcile(items, lots, skus, dryRun).0;
            var storage := if it.sku != "" && HasSku(lots, skus, it.sku) then SkuTotal(lots, skus, it.sku) else 0;
            Disagree(storage, it.currentQuantity) <==>
              Mismatch(it.sku, it.name, it.currentQuantity, storage) in report.mismatched
  {
    var totals := AggregateBySku(lots, skus);
    var storage := StorageFor(totals, it.sku);
    var r := Mismatches(items, totals);
    if Mismatch(it.sku, it.name, it.currentQuantity, storage) in r {
      var it2 :| it2 in items && HasBatch(it2) && Disagree(StorageFor(totals, it2.sku), it2.currentQuantity)
                 && Mismatch(it.sku, it.name, it.currentQuantity, storage) == Mismatch(it2.sku, it2.name, it2.currentQuantity, StorageFor(totals, it2.sku));
    }
  }
}

=== FILE: storage_sync.dfy ===
/** Keeping inventory items in step with cold storage: the per-SKU sync run
    whenever a lot is saved or deleted, and the create/update plan of the
    sync command and how it is applied. Every stock change is logged as an
    inventory transaction, so an item whose transactions add up to its stock
    keeps that balance. Item quantities are hundredths; lot quantities are
    packets, so a packet is 100 hundredths. */
module StorageSync {
  import opened Base
  import opened Inventory
  import opened Storage
  import opened Production

  datatype Txn = Txn(item: nat, quantity: int, reason: string, batchId: Option<nat>)

  /** Items by SKU (the SKU is unique), the transaction log, and the next
      item id. */
  datatype StockDb = StockDb(items: map<string, InventoryItem>, txns: seq<Txn>, nextItem: nat)

  predicate WellFormed(db: StockDb) {
    (forall s :: s in db.items ==> db.items[s].sku == s && db.items[s].id < db.nextItem)
    && (forall s, t :: s in db.items && t in db.items && s != t ==> db.items[s].id != db.items[t].id)
    && (forall i :: 0 <= i < |db.txns| ==> db.txns[i].item < db.nextItem)
  }

  /** What the transactions of one item add up to. */
  function TxnTotal(txns: seq<Txn>, item: nat): int {
    if |txns| == 0 then 0
    else
      var last := txns[|txns| - 1];
      TxnTotal(txns[..|txns| - 1], item) + (if last.item == item then last.quantity else 0)
  }

  /** Every item's stock is what its transactions add up to. */
  predicate Balanced(db: StockDb) {
    forall s :: s in db.items ==> TxnTotal(db.txns, db.items[s].id) == db.items[s].currentQuantity
  }

  lemma {:induction false} FreshItemHasNoTxns(txns: seq<Txn>, id: nat)
    requires forall i :: 0 <= i < |txns| ==> txns[i].item < id
    ensures TxnTotal(txns, id) == 0
  {
    if |txns| > 0 {
      FreshItemHasNoTxns(txns[..|txns| - 1], id);
    }
  }

  function SkuMap(batches: map<nat, ProductionBatch>): map<nat, string> {
    map b | b in batches :: batches[b].sku
  }

  /** The earliest expiry among the lots of a SKU. */
  function EarliestExpiry(lots: seq<Lot>, skus: map<nat, string>, sku: string): (e: Option<int>)
    ensures e.Some? <==> HasSku(lots, skus, sku)
    ensures e.Some? ==> forall i :: 0 <= i < |lots| && SkuOf(lots[i], skus) == sku ==> e.value <= lots[i].expiry
    ensures e.Some? ==> exists i :: 0 <= i < |lots| && SkuOf(lots[i], skus) == sku && e.value == lots[i].expiry
  {
    if |lots| == 0 then None
    else
      var n := |lots| - 1;
      var rest := EarliestExpiry(lots[..n], skus, sku);
      assert forall i :: 0 <= i < n ==> lots[..n][i] == lots[i];
      if SkuOf(lots[n], skus) != sku then rest
      else if rest.None? || lots[n].expiry < rest.value then Some(lots[n].expiry)
      else rest
  }

  /** The most recently restocked lot of a SKU (the first of equals). */
  function LatestRestocked(lots: seq<Lot>, skus: map<nat, string>, sku: string): (r: Option<Lot>)
    ensures r.Some? <==> HasSku(lots, skus, sku)
    ensures r.Some? ==> r.value in lots && SkuOf(r.value, skus) == sku
    ensures r.Some? ==> forall i :: 0 <= i < |lots| && SkuOf(lots[i], skus) == sku ==>
                          lots[i].lastRestocked <= r.value.lastRestocked
  {
    if |lots| == 0 then None
    else
      var rest := LatestRestocked(lots[1..], skus, sku);
      assert forall i :: 0 < i < |lots| ==> lots[i] == lots[1..][i - 1];
      if SkuOf(lots[0], skus) != sku then rest
      else if rest.Some? && rest.value.lastRestocked > lots[0].lastRestocked then rest
      else Some(lots[0])
  }

  /** A new item created from storage. */
  function NewItem(id: nat, sku: string, name: string, category: string, quantity: int,
                   batchId: Option<nat>, expiry: Option<int>, today: int): InventoryItem {
    InventoryItem(id, name, sku, category, quantity, 0, 0, Some(today), 0, None, expiry, batchId, true)
  }

  /** Add a new item together with its opening transaction. */
  function Created(db: StockDb, item: InventoryItem, reason: string, batchId: Option<nat>): StockDb {
    StockDb(db.items[item.sku := item], db.txns + [Txn(item.id, item.currentQuantity, reason, batchId)], db.nextItem + 1)
  }

  /** Replace an item, logging the change of stock when it is not zero. */
  function Updated(db: StockDb, sku: string, item: InventoryItem, delta: int, reason: string, batchId: Option<nat>): StockDb {
    db.(items := db.items[sku := item],
        txns := if delta != 0 then db.txns + [Txn(item.id, delta, reason, batchId)] else db.txns)
  }

  lemma LogOne(txns: seq<Txn>, t: Txn, id: nat)
    ensures TxnTotal(txns + [t], id) == TxnTotal(txns, id) + (if t.item == id then t.quantity else 0)
  {
    assert (txns + [t])[..|txns|] == txns;
  }

  lemma CreatedKeepsLedgerBalanced(db: StockDb, item: InventoryItem, reason: string, batchId: Option<nat>)
    requires WellFormed(db) && Balanced(db)
    requires item.id == db.nextItem
    ensures WellFormed(Created(db, item, reason, batchId)) && Balanced(Created(db, item, reason, batchId))
  {
    var db2 := Created(db, item, reason, batchId);
    var t := Txn(item.id, item.currentQuantity, reason, batchId);
    FreshItemHasNoTxns(db.txns, db.nextItem);
    forall s | s in db2.items
      ensures TxnTotal(db2.txns, db2.items[s].id) == db2.items[s].currentQuantity
    {
      LogOne(db.txns, t, db2.items[s].id);
    }
  }

  lemma UpdatedKeepsLedgerBalanced(db: StockDb, sku: string, item: InventoryItem, delta: int, reason: string, batchId: Option<nat>)
    requires WellFormed(db) && Balanced(db)
    requires sku in db.items && item.sku == sku && item.id == db.items[sku].id
    requires item.currentQuantity == db.items[sku].currentQuantity + delta
    ensures WellFormed(Updated(db, sku, item, delta, reason, batchId)) && Balanced(Updated(db, sku, item, delta, reason, batchId))
  {
    var db2 := Updated(db, sku, item, delta, reason, batchId);
    if delta != 0 {
      var t := Txn(item.id, delta, reason, batchId);
      forall s | s in db2.items
        ensures TxnTotal(db2.txns, db2.items[s].id) == db2.items[s].currentQuantity
      {
        LogOne(db.txns, t, db2.items[s].id);
      }
    }
  }

  /** The batch a sync names: the batch of the saved or deleted lot, or
      else the batch of the most recently restocked lot of the SKU. */
  function LatestBatch(lots: seq<Lot>, batches: map<nat, ProductionBatch>, sku: string,
                       trigger: Option<ProductionBatch>): Option<ProductionBatch> {
    if trigger.Some? then trigger
    else
      match LatestRestocked(lots, SkuMap(batches), sku)
      case Some(lot) => if lot.batch in batches then Some(batches[lot.batch]) else None
      case None => None
  }

  /** `_sync_inventory_for_sku`: the SKU's item takes the packets of all its
      lots as its stock, the latest batch when it is a real one, and the
      earliest expiry when there is one, and the change is logged when it
      is not zero. Without an item, one is created only for stock in
      storage from a known batch. */
  function SyncSku(db: StockDb, lots: seq<Lot>, batches: map<nat, ProductionBatch>, sku: string,
                   trigger: Option<ProductionBatch>, reason: string, today: int): (db2: StockDb)
    ensures sku == "" ==> db2 == db
    ensures sku != "" && sku in db2.items ==> db2.items[sku].currentQuantity == SkuTotal(lots, SkuMap(batches), sku) * 100
    ensures forall s :: s in db.items && s != sku ==> s in db2.items && db2.items[s] == db.items[s]
    ensures sku != "" && sku in db.items ==>
              (|db2.txns| == |db.txns| + 1 <==> SkuTotal(lots, SkuMap(batches), sku) * 100 != db.items[sku].currentQuantity)
  {
    if sku == "" then db
    else
      var skus := SkuMap(batches);
      var total := SkuTotal(lots, skus, sku) * 100;
      var expiry := EarliestExpiry(lots, skus, sku);
      var latest := LatestBatch(lots, batches, sku, trigger);
      var latestId := if latest.Some? then Some(latest.value.id) else None;
      if sku !in db.items then
        if total > 0 && latest.Some? then
          var b := latest.value;
          Created(db, NewItem(db.nextItem, sku, ProductDisplay(b.productType), b.productType, total, latestId, expiry, today),
                  reason, latestId)
        else db
      else
        var item := db.items[sku];
        var batchId := if latestId.Some? && latestId.value != 0 && item.batchId != latestId then latestId else item.batchId;
        var item2 := item.(currentQuantity := total, batchId := batchId,
                           expiry := if expiry.Some? then expiry else item.expiry, lastRestocked := Some(today));
        Updated(db, sku, item2, total - item.currentQuantity, reason, latestId)
  }

  /** After a sync the SKU's item, if there is one, holds exactly the
      packets of the SKU's lots; a change is logged exactly when the stock
      moved; an item is created exactly for stock in storage from a known
      batch; and no other item changes. */
  lemma SyncSetsStock(db: StockDb, lots: seq<Lot>, batches: map<nat, ProductionBatch>, sku: string,
                      trigger: Option<ProductionBatch>, reason: string, today: int)
    requires sku != ""
    ensures var db2 := SyncSku(db, lots, batches, sku, trigger, reason, today);
            var total := SkuTotal(lots, SkuMap(batches), sku) * 100;
            (sku in db2.items ==> db2.items[sku].currentQuantity == total)
            && (forall s :: s in db.items && s != sku ==> s in db2.items && db2.items[s] == db.items[s])
            && (sku in db.items ==>
                  (|db2.txns| == |db.txns| + 1 <==> total != db.items[sku].currentQuantity))
            && (sku !in db.items ==>
                  (sku in db2.items <==> total > 0 && LatestBatch(lots, batches, sku, trigger).Some?))
  {}

  /** A sync keeps every item's stock equal to what its transactions add
      up to. */
  lemma SyncKeepsLedgerBalanced(db: StockDb, lots: seq<Lot>, batches: map<nat, ProductionBatch>, sku: string,
                                trigger: Option<ProductionBatch>, reason: string, today: int)
    requires WellFormed(db) && Balanced(db)
    ensures var db2 := SyncSku(db, lots, batches, sku, trigger, reason, today);
            WellFormed(db2) && Balanced(db2)
  {
    if sku != "" {
      var skus := SkuMap(batches);
      var total := SkuTotal(lots, skus, sku) * 100;
      var expiry := EarliestExpiry(lots, skus, sku);
      var latest := LatestBatch(lots, batches, sku, trigger);
      var latestId := if latest.Some? then Some(latest.value.id) else None;
      if sku !in db.items {
        if total > 0 && latest.Some? {
          var b := latest.value;
          CreatedKeepsLedgerBalanced(db, NewItem(db.nextItem, sku, ProductDisplay(b.productType), b.productType, total, latestId, expiry, today),
                                     reason, latestId);
        }
      } else {
        var item := db.items[sku];
        var batchId := if latestId.Some? && latestId.value != 0 && item.batchId != latestId then latestId else item.batchId;
        var item2 := item.(currentQuantity := total, batchId := batchId,
                           expiry := if expiry.Some? then expiry else item.expiry, lastRestocked := Some(today));
        UpdatedKeepsLedgerBalanced(db, sku, item2, total - item.currentQuantity, reason, latestId);
      }
    }
  }

  // ---- the sync command ----

  predicate UniqueIds(bs: seq<ProductionBatch>) {
    forall i, j :: 0 <= i < j < |bs| ==> bs[i].id != bs[j].id
  }

  /** The batch table keyed by id. */
  function Table(bs: seq<ProductionBatch>): (t: map<nat, ProductionBatch>)
    requires UniqueIds(bs)
    ensures forall i :: 0 <= i < |bs| ==> bs[i].id in t && t[bs[i].id] == bs[i]
  {
    map i | 0 <= i < |bs| :: bs[i].id := bs[i]
  }

  /** The most recently produced batch of a SKU. */
  function LatestProduced(bs: seq<ProductionBatch>, sku: string): (r: Option<ProductionBatch>)
    ensures r.Some? <==> exists i :: 0 <= i < |bs| && bs[i].sku == sku
    ensures r.Some? ==> r.value in bs && r.value.sku == sku
    ensures r.Some? ==> forall i :: 0 <= i < |bs| && bs[i].sku == sku ==> bs[i].producedAt <= r.value.producedAt
  {
    if |bs| == 0 then None
    else
      var rest := LatestProduced(bs[1..], sku);
      assert forall i :: 0 < i < |bs| ==> bs[i] == bs[1..][i - 1];
      if bs[0].sku != sku then rest
      else if rest.Some? && rest.value.producedAt > bs[0].producedAt then rest
      else Some(bs[0])
  }

  /** The SKUs in storage, each once, in the order their lots come. */
  function StoredSkus(lots: seq<Lot>, skus: map<nat, string>): (r: seq<string>)
    ensures forall i, j :: 0 <= i < j < |r| ==> r[i] != r[j]
    ensures forall s :: s in r <==> s != "" && HasSku(lots, skus, s)
  {
    if |lots| == 0 then []
    else
      var n := |lots| - 1;
      var rest := StoredSkus(lots[..n], skus);
      assert forall i :: 0 <= i < n ==> lots[..n][i] == lots[i];
      var s := SkuOf(lots[n], skus);
      if s == "" || s in rest then rest else rest + [s]
  }

  /** What storage holds for one SKU, as the sync command gathers it. */
  datatype SkuEntry = SkuEntry(sku: string, quantity: int, expiry: Option<int>, productType: string,
                               batchId: Option<nat>, productName: string)

  /** The command's view of storage: per stored SKU the packets of all its
      lots, the earliest expiry, and the most recently produced batch of the
      SKU with its display name (the SKU itself when there is none). */
  function StorageEntries(lots: seq<Lot>, bs: seq<ProductionBatch>): (es: seq<SkuEntry>)
    requires UniqueIds(bs)
    ensures |es| == |StoredSkus(lots, SkuMap(Table(bs)))|
    ensures forall i :: 0 <= i < |es| ==> es[i].sku == StoredSkus(lots, SkuMap(Table(bs)))[i]
    ensures forall i :: 0 <= i < |es| ==> es[i].quantity == SkuTotal(lots, SkuMap(Table(bs)), es[i].sku) * 100
  {
    var skus := SkuMap(Table(bs));
    var stored := StoredSkus(lots, skus);
    seq(|stored|, i requires 0 <= i < |stored| =>
      var sku := stored[i];
      match LatestProduced(bs, sku)
      case Some(b) => SkuEntry(sku, SkuTotal(lots, skus, sku) * 100, EarliestExpiry(lots, skus, sku), b.productType,
                               Some(b.id), ProductDisplay(b.productType))
      case None => SkuEntry(sku, SkuTotal(lots, skus, sku) * 100, EarliestExpiry(lots, skus, sku), "", None, sku))
  }

  datatype Create = Create(sku: string, name: string, batchId: Option<nat>, quantity: int,
                           expiry: Option<int>, productType: string)

  datatype Update = Update(sku: string, oldQty: int, newQty: int, delta: int, batchId: Option<nat>, expiry: Option<int>)

  function CreateFor(e: SkuEntry): Create {
    Create(e.sku, e.productName, e.batchId, e.quantity, e.expiry, e.productType)
  }

  function UpdateFor(items: map<string, InventoryItem>, e: SkuEntry): Update
    requires e.sku in items
  {
    Update(e.sku, items[e.sku].currentQuantity, e.quantity, e.quantity - items[e.sku].currentQuantity, e.batchId, e.expiry)
  }

  /** The SKU's item differs from storage in stock or in batch. */
  predicate NeedsUpdate(items: map<string, InventoryItem>, e: SkuEntry)
    requires e.sku in items
  {
    e.quantity != items[e.sku].currentQuantity || items[e.sku].batchId != e.batchId
  }

  function SkusOf(entries: seq<SkuEntry>): set<string> {
    set e | e in entries :: e.sku
  }

  predicate DistinctSkus(entries: seq<SkuEntry>) {
    forall i, j :: 0 <= i < j < |entries| ==> entries[i].sku != entries[j].sku
  }

  /** The plan: an entry without an item becomes a create; an entry whose
      item already has that stock and batch is skipped; any other becomes
      an update carrying the difference. Entries without a SKU are
      ignored. */
  function Plan(entries: seq<SkuEntry>, items: map<string, InventoryItem>): (plan: (seq<Create>, seq<Update>))
    ensures forall c :: c in plan.0 ==> c.sku != "" && c.sku !in items && c.sku in SkusOf(entries)
    ensures forall u :: u in plan.1 ==> u.sku in items && u.sku in SkusOf(entries)
                                         && u.oldQty == items[u.sku].currentQuantity && u.delta == u.newQty - u.oldQty
  {
    if |entries| == 0 then ([], [])
    else
      var e := entries[0];
      var (cs, us) := Plan(entries[1..], items);
      assert SkusOf(entries) == {e.sku} + SkusOf(entries[1..]);
      if e.sku == "" then (cs, us)
      else if e.sku !in items then ([CreateFor(e)] + cs, us)
      else if !NeedsUpdate(items, e) then (cs, us)
      else (cs, [UpdateFor(items, e)] + us)
  }

  lemma SkusOfSplit(entries: seq<SkuEntry>)
    requires |entries| > 0
    ensures SkusOf(entries) == {entries[0].sku} + SkusOf(entries[1..])
    ensures forall x :: x in entries <==> x == entries[0] || x in entries[1..]
  {
    forall x | x in entries ensures x == entries[0] || x in entries[1..] {
      var k :| 0 <= k < |entries| && entries[k] == x;
      if k > 0 { assert entries[1..][k - 1] == x; }
    }
  }

  /** Every stored SKU without an item is created, and an update is planned
      for an existing item exactly when its stock or batch differ from
      storage. */
  lemma {:induction false} PlanCovers(entries: seq<SkuEntry>, items: map<string, InventoryItem>)
    ensures forall e :: e in entries && e.sku != "" && e.sku !in items ==> CreateFor(e) in Plan(entries, items).0
    ensures forall u :: u in Plan(entries, items).1 ==> NeedsUpdateQty(items, u)
    ensures forall e :: e in entries && e.sku != "" && e.sku in items && NeedsUpdate(items, e) ==>
              UpdateFor(items, e) in Plan(entries, items).1
  {
    if |entries| > 0 {
      SkusOfSplit(entries);
      PlanCovers(entries[1..], items);
    }
  }

  /** An update that really changes the item's stock or batch. */
  predicate NeedsUpdateQty(items: map<string, InventoryItem>, u: Update) {
    u.sku in items && (u.newQty != items[u.sku].currentQuantity || items[u.sku].batchId != u.batchId)
  }

  /** No update is planned for an item already in step with storage. */
  lemma SkippedNotPlanned(entries: seq<SkuEntry>, items: map<string, InventoryItem>, e: SkuEntry)
    requires e.sku in items && !NeedsUpdate(items, e)
    ensures UpdateFor(items, e) !in Plan(entries, items).1
  {
    PlanCovers(entries, items);
  }

  predicate CreatesDistinct(cs: seq<Create>) {
    forall i, j :: 0 <= i < j < |cs| ==> cs[i].sku != cs[j].sku
  }

  predicate UpdatesDistinct(us: seq<Update>) {
    forall i, j :: 0 <= i < j < |us| ==> us[i].sku != us[j].sku
  }

  lemma DistinctTail(entries: seq<SkuEntry>)
    requires |entries| > 0 && DistinctSkus(entries)
    ensures DistinctSkus(entries[1..])
    ensures entries[0].sku !in SkusOf(entries[1..])
  {
    forall i, j | 0 <= i < j < |entries[1..]| ensures entries[1..][i].sku != entries[1..][j].sku {
      assert entries[1..][i] == entries[i + 1] && entries[1..][j] == entries[j + 1];
    }
    forall x | x in entries[1..] ensures x.sku != entries[0].sku {
      var k :| 0 <= k < |entries[1..]| && entries[1..][k] == x;
      assert entries[k + 1] == x;
    }
  }

  /** With distinct SKUs the plan creates each SKU at most once. */
  lemma {:induction false} PlanCreatesDistinct(entries: seq<SkuEntry>, items: map<string, InventoryItem>)
    requires DistinctSkus(entries)
    ensures CreatesDistinct(Plan(entries, items).0)
  {
    if |entries| > 0 {
      var e := entries[0];
      DistinctTail(entries);
      PlanCreatesDistinct(entries[1..], items);
      var cs := Plan(entries[1..], items).0;
      if e.sku != "" && e.sku !in items {
        var c0 := [CreateFor(e)] + cs;
        assert Plan(entries, items).0 == c0;
        forall i, j | 0 <= i < j < |c0| ensures c0[i].sku != c0[j].sku {
          assert c0[j] == cs[j - 1] && cs[j - 1] in cs;
          if i > 0 { assert c0[i] == cs[i - 1]; }
        }
      } else {
        assert Plan(entries, items).0 == cs;
      }
    }
  }

  /** With distinct SKUs the plan updates each SKU at most once. */
  lemma {:induction false} PlanUpdatesDistinct(entries: seq<SkuEntry>, items: map<string, InventoryItem>)
    requires DistinctSkus(entries)
    ensures UpdatesDistinct(Plan(entries, items).1)
  {
    if |entries| > 0 {
      var e := entries[0];
      DistinctTail(entries);
      PlanUpdatesDistinct(entries[1..], items);
      var us := Plan(entries[1..], items).1;
      PlanUpdatesStep(entries, items);
      if e.sku != "" && e.sku in items && NeedsUpdate(items, e) {
        forall k | 0 <= k < |us| ensures us[k].sku != e.sku {
          assert us[k] in us;
        }
        ConsDistinct(UpdateFor(items, e), us);
      }
    }
  }

  /** The plan's updates are the rest's, with the first entry's update in
      front when it needs one. */
  lemma PlanUpdatesStep(entries: seq<SkuEntry>, items: map<string, InventoryItem>)
    requires |entries| > 0
    ensures var e := entries[0];
            Plan(entries, items).1
            == if e.sku != "" && e.sku in items && NeedsUpdate(items, e)
               then [UpdateFor(items, e)] + Plan(entries[1..], items).1
               else Plan(entries[1..], items).1
  {}

  /** An update for a SKU none of the others has keeps them distinct. */
  lemma ConsDistinct(u: Update, us: seq<Update>)
    requires UpdatesDistinct(us)
    requires forall k :: 0 <= k < |us| ==> us[k].sku != u.sku
    ensures UpdatesDistinct([u] + us)
  {
    var all := [u] + us;
    forall i, j | 0 <= i < j < |all| ensures all[i].sku != all[j].sku {
      assert all[j] == us[j - 1];
      if i > 0 { assert all[i] == us[i - 1]; }
    }
  }

  /** With distinct SKUs each planned update carries its entry's
      quantity. */
  lemma {:induction false} PlanUpdatesCarryEntry(entries: seq<SkuEntry>, items: map<string, InventoryItem>)
    requires DistinctSkus(entries)
    ensures forall u, e :: u in Plan(entries, items).1 && e in entries && e.sku == u.sku ==> u.newQty == e.quantity
  {
    if |entries| > 0 {
      var e0 := entries[0];
      DistinctTail(entries);
      SkusOfSplit(entries);
      PlanUpdatesCarryEntry(entries[1..], items);
      var us := Plan(entries[1..], items).1;
      var all := Plan(entries, items).1;
      assert all == us || (e0.sku in items && all == [UpdateFor(items, e0)] + us);
      forall u, e | u in all && e in entries && e.sku == u.sku ensures u.newQty == e.quantity {
        if u in us {
          assert u.sku in SkusOf(entries[1..]);
          assert e != e0;
        } else {
          assert u == UpdateFor(items, e0);
        }
      }
    }
  }

  /** Carry out the creates, each with its opening transaction. */
  function ApplyCreates(db: StockDb, cs: seq<Create>, today: int): StockDb
    decreases |cs|
  {
    if |cs| == 0 then db
    else
      var c := cs[0];
      var item := NewItem(db.nextItem, c.sku, c.name, c.productType, c.quantity, c.batchId, c.expiry, today);
      ApplyCreates(Created(db, item, "Initial sync from storage", c.batchId), cs[1..], today)
  }

  /** Carry out one update: the stock becomes the new quantity, the batch is
      overwritten, the expiry only when storage has one, and the change is
      logged only when it is not zero. */
  function ApplyUpdate(db: StockDb, u: Update, today: int): (db2: StockDb)
    ensures u.sku in db.items ==>
              u.sku in db2.items && db2.items[u.sku].currentQuantity == u.newQty
              && db2.items[u.sku].batchId == u.batchId
              && (u.expiry.Some? ==> db2.items[u.sku].expiry == u.expiry)
              && (u.expiry.None? ==> db2.items[u.sku].expiry == db.items[u.sku].expiry)
              && (|db2.txns| == |db.txns| + 1 <==> u.delta != 0)
    ensures forall s :: s in db.items && s != u.sku ==> s in db2.items && db2.items[s] == db.items[s]
  {
    if u.sku !in db.items then db
    else
      var item := db.items[u.sku];
      var item2 := item.(currentQuantity := u.newQty, batchId := u.batchId,
                         expiry := if u.expiry.Some? then u.expiry else item.expiry, lastRestocked := Some(today));
      Updated(db, u.sku, item2, u.delta, "Sync from storage reconciliation", u.batchId)
  }

  function ApplyUpdates(db: StockDb, us: seq<Update>, today: int): StockDb
    decreases |us|
  {
    if |us| == 0 then db else ApplyUpdates(ApplyUpdate(db, us[0], today), us[1..], today)
  }

  /** `Command.handle` after planning: a dry run writes nothing; otherwise
      the creates and then the updates are carried out. */
  function RunSync(db: StockDb, entries: seq<SkuEntry>, apply: bool, today: int): (db2: StockDb)
    ensures !apply ==> db2 == db
  {
    if !apply then db
    else
      var plan := Plan(entries, db.items);
      ApplyUpdates(ApplyCreates(db, plan.0, today), plan.1, today)
  }

  lemma {:induction false} ApplyCreatesBalanced(db: StockDb, cs: seq<Create>, today: int)
    requires WellFormed(db) && Balanced(db)
    ensures WellFormed(ApplyCreates(db, cs, today)) && Balanced(ApplyCreates(db, cs, today))
    decreases |cs|
  {
    if |cs| > 0 {
      var c := cs[0];
      var item := NewItem(db.nextItem, c.sku, c.name, c.productType, c.quantity, c.batchId, c.expiry, today);
      CreatedKeepsLedgerBalanced(db, item, "Initial sync from storage", c.batchId);
      ApplyCreatesBalanced(Created(db, item, "Initial sync from storage", c.batchId), cs[1..], today);
    }
  }

  /** The creates leave items of other SKUs alone and, one per SKU, give
      each created item the planned quantity. */
  lemma {:induction false} ApplyCreatesSets(db: StockDb, cs: seq<Create>, today: int)
    requires CreatesDistinct(cs)
    ensures forall i :: 0 <= i < |cs| ==> cs[i].sku in ApplyCreates(db, cs, today).items
                                           && ApplyCreates(db, cs, today).items[cs[i].sku].currentQuantity == cs[i].quantity
    ensures forall s :: s in db.items && (forall i :: 0 <= i < |cs| ==> cs[i].sku != s) ==>
              s in ApplyCreates(db, cs, today).items && ApplyCreates(db, cs, today).items[s] == db.items[s]
    decreases |cs|
  {
    if |cs| > 0 {
      var c := cs[0];
      var item := NewItem(db.nextItem, c.sku, c.name, c.productType, c.quantity, c.batchId, c.expiry, today);
      var db1 := Created(db, item, "Initial sync from storage", c.batchId);
      var rest := cs[1..];
      assert forall i :: 0 <= i < |rest| ==> rest[i] == cs[i + 1];
      ApplyCreatesSets(db1, rest, today);
    }
  }

  /** Updates planned against the items they change, one per SKU. */
  predicate UpdatesFit(db: StockDb, us: seq<Update>) {
    (forall i :: 0 <= i < |us| ==>
       us[i].sku in db.items && us[i].oldQty == db.items[us[i].sku].currentQuantity
       && us[i].delta == us[i].newQty - us[i].oldQty)
    && UpdatesDistinct(us)
  }

  lemma {:induction false} ApplyUpdatesBalanced(db: StockDb, us: seq<Update>, today: int)
    requires WellFormed(db) && Balanced(db) && UpdatesFit(db, us)
    ensures WellFormed(ApplyUpdates(db, us, today)) && Balanced(ApplyUpdates(db, us, today))
    decreases |us|
  {
    if |us| > 0 {
      var u := us[0];
      var item := db.items[u.sku];
      var item2 := item.(currentQuantity := u.newQty, batchId := u.batchId,
                         expiry := if u.expiry.Some? then u.expiry else item.expiry, lastRestocked := Some(today));
      UpdatedKeepsLedgerBalanced(db, u.sku, item2, u.delta, "Sync from storage reconciliation", u.batchId);
      var db1 := ApplyUpdate(db, u, today);
      FitAfterFirst(db, us, today);
      ApplyUpdatesBalanced(db1, us[1..], today);
    }
  }

  /** Once the first update is applied, the others still fit: their SKUs
      differ from its SKU, so their items are as they were. */
  lemma FitAfterFirst(db: StockDb, us: seq<Update>, today: int)
    requires |us| > 0 && UpdatesFit(db, us)
    ensures UpdatesFit(ApplyUpdate(db, us[0], today), us[1..])
  {
    var db1 := ApplyUpdate(db, us[0], today);
    var rest := us[1..];
    forall i | 0 <= i < |rest|
      ensures rest[i].sku in db1.items && rest[i].oldQty == db1.items[rest[i].sku].currentQuantity
              && rest[i].delta == rest[i].newQty - rest[i].oldQty
    {
      assert rest[i] == us[i + 1] && us[0].sku != us[i + 1].sku;
    }
    forall i, j | 0 <= i < j < |rest| ensures rest[i].sku != rest[j].sku {
      assert rest[i] == us[i + 1] && rest[j] == us[j + 1];
    }
  }

  /** The updates, one per SKU, give each updated item its planned quantity
      and leave the items of other SKUs alone. */
  lemma {:induction false} ApplyUpdatesSets(db: StockDb, us: seq<Update>, today: int)
    requires forall i :: 0 <= i < |us| ==> us[i].sku in db.items
    requires UpdatesDistinct(us)
    ensures forall i :: 0 <= i < |us| ==> us[i].sku in ApplyUpdates(db, us, today).items
                                           && ApplyUpdates(db, us, today).items[us[i].sku].currentQuantity == us[i].newQty
    ensures forall s :: s in db.items && (forall i :: 0 <= i < |us| ==> us[i].sku != s) ==>
              s in ApplyUpdates(db, us, today).items && ApplyUpdates(db, us, today).items[s] == db.items[s]
    decreases |us|
  {
    if |us| > 0 {
      var db1 := ApplyUpdate(db, us[0], today);
      var rest := us[1..];
      assert forall i :: 0 <= i < |rest| ==> rest[i] == us[i + 1];
      ApplyUpdatesSets(db1, rest, today);
    }
  }

  /** Applying the plan of entries with distinct SKUs keeps every item's
      stock equal to what its transactions add up to. */
  lemma RunSyncKeepsLedgerBalanced(db: StockDb, entries: seq<SkuEntry>, today: int)
    requires WellFormed(db) && Balanced(db) && DistinctSkus(entries)
    ensures WellFormed(RunSync(db, entries, true, today)) && Balanced(RunSync(db, entries, true, today))
  {
    var plan := Plan(entries, db.items);
    var cs, us := plan.0, plan.1;
    PlanCreatesDistinct(entries, db.items);
    PlanUpdatesDistinct(entries, db.items);
    ApplyCreatesBalanced(db, cs, today);
    ApplyCreatesSets(db, cs, today);
    var db1 := ApplyCreates(db, cs, today);
    assert forall i :: 0 <= i < |us| ==> us[i] in us;
    assert forall i :: 0 <= i < |cs| ==> cs[i] in cs;
    assert UpdatesFit(db1, us);
    ApplyUpdatesBalanced(db1, us, today);
  }

  lemma RunSyncSetsEntry(db: StockDb, entries: seq<SkuEntry>, today: int, e: SkuEntry)
    requires DistinctSkus(entries) && e in entries && e.sku != ""
    ensures e.sku in RunSync(db, entries, true, today).items
    ensures RunSync(db, entries, true, today).items[e.sku].currentQuantity == e.quantity
  {
    var plan := Plan(entries, db.items);
    SyncFacts(db, entries, today);
    if e.sku !in db.items {
      CreatedEntryKept(entries, db.items, e);
      var k :| 0 <= k < |plan.0| && plan.0[k] == CreateFor(e);
    } else {
      UpdatedEntryHasQuantity(entries, db.items, e);
      var us := plan.1;
      if k :| 0 <= k < |us| && us[k].sku == e.sku {
        assert us[k].newQty == e.quantity;
      }
    }
  }

  /** What the creates and then the updates of a plan leave: each created
      SKU has its planned quantity, each updated SKU its new quantity, and
      a SKU neither creates nor updates keeps its item. */
  lemma SyncFacts(db: StockDb, entries: seq<SkuEntry>, today: int)
    requires DistinctSkus(entries)
    ensures var plan := Plan(entries, db.items);
            var db1 := ApplyCreates(db, plan.0, today);
            var db2 := RunSync(db, entries, true, today);
            db2 == ApplyUpdates(db1, plan.1, today)
            && (forall i :: 0 <= i < |plan.0| ==>
                  plan.0[i].sku in db1.items && db1.items[plan.0[i].sku].currentQuantity == plan.0[i].quantity)
            && (forall i :: 0 <= i < |plan.1| ==>
                  plan.1[i].sku in db2.items && db2.items[plan.1[i].sku].currentQuantity == plan.1[i].newQty)
            && (forall s :: s in db1.items && (forall i :: 0 <= i < |plan.1| ==> plan.1[i].sku != s) ==>
                  s in db2.items && db2.items[s] == db1.items[s])
            && (forall s :: s in db.items ==> s in db1.items && db1.items[s] == db.items[s])
  {
    var plan := Plan(entries, db.items);
    var cs, us := plan.0, plan.1;
    PlanCreatesDistinct(entries, db.items);
    PlanUpdatesDistinct(entries, db.items);
    ApplyCreatesSets(db, cs, today);
    var db1 := ApplyCreates(db, cs, today);
    assert forall i :: 0 <= i < |cs| ==> cs[i] in cs;
    assert forall i :: 0 <= i < |us| ==> us[i] in us;
    ApplyUpdatesSets(db1, us, today);
  }

  /** A created SKU is created and never updated. */
  lemma CreatedEntryKept(entries: seq<SkuEntry>, items: map<string, InventoryItem>, e: SkuEntry)
    requires e in entries && e.sku != "" && e.sku !in items
    ensures CreateFor(e) in Plan(entries, items).0
    ensures forall i :: 0 <= i < |Plan(entries, items).1| ==> Plan(entries, items).1[i].sku != e.sku
  {
    PlanCovers(entries, items);
    var us := Plan(entries, items).1;
    assert forall i :: 0 <= i < |us| ==> us[i] in us;
  }

  /** An existing SKU either is updated to its entry's quantity or is
      already at it and is not updated at all. */
  lemma UpdatedEntryHasQuantity(entries: seq<SkuEntry>, items: map<string, InventoryItem>, e: SkuEntry)
    requires DistinctSkus(entries) && e in entries && e.sku != "" && e.sku in items
    ensures forall i :: 0 <= i < |Plan(entries, items).1| && Plan(entries, items).1[i].sku == e.sku ==>
              Plan(entries, items).1[i].newQty == e.quantity
    ensures (forall i :: 0 <= i < |Plan(entries, items).1| ==> Plan(entries, items).1[i].sku != e.sku) ==>
              items[e.sku].currentQuantity == e.quantity
  {
    var us := Plan(entries, items).1;
    PlanUpdatesCarryEntry(entries, items);
    assert forall i :: 0 <= i < |us| ==> us[i] in us;
    if NeedsUpdate(items, e) {
      PlanCovers(entries, items);
      assert UpdateFor(items, e) in us;
    }
  }

  lemma RunSyncLeavesOthers(db: StockDb, entries: seq<SkuEntry>, today: int, s: string)
    requires DistinctSkus(entries) && s in db.items && s !in SkusOf(entries)
    ensures s in RunSync(db, entries, true, today).items && RunSync(db, entries, true, today).items[s] == db.items[s]
  {
    var plan := Plan(entries, db.items);
    var cs, us := plan.0, plan.1;
    PlanCreatesDistinct(entries, db.items);
    PlanUpdatesDistinct(entries, db.items);
    ApplyCreatesSets(db, cs, today);
    var db1 := ApplyCreates(db, cs, today);
    assert forall i :: 0 <= i < |us| ==> us[i] in us;
    assert forall i :: 0 <= i < |cs| ==> cs[i] in cs;
    ApplyUpdatesSets(db1, us, today);
  }

  /** Applying the plan of entries with distinct SKUs leaves every SKU in
      storage with an item holding exactly the storage quantity, and leaves
      the items of other SKUs alone. */
  lemma RunSyncMatchesStorage(db: StockDb, entries: seq<SkuEntry>, today: int)
    requires DistinctSkus(entries)
    ensures forall e :: e in entries && e.sku != "" ==>
              e.sku in RunSync(db, entries, true, today).items
              && RunSync(db, entries, true, today).items[e.sku].currentQuantity == e.quantity
    ensures forall s :: s in db.items && s !in SkusOf(entries) ==>
              s in RunSync(db, entries, true, today).items && RunSync(db, entries, true, today).items[s] == db.items[s]
  {
    forall e | e in entries && e.sku != ""
      ensures e.sku in RunSync(db, entries, true, today).items
      ensures RunSync(db, entries, true, today).items[e.sku].currentQuantity == e.quantity
    {
      RunSyncSetsEntry(db, entries, today, e);
    }
    forall s | s in db.items && s !in SkusOf(entries)
      ensures s in RunSync(db, entries, true, today).items && RunSync(db, entries, true, today).items[s] == db.items[s]
    {
      RunSyncLeavesOthers(db, entries, today, s);
    }
  }

  /** The sync command run for real leaves every SKU with lots in storage
      holding, as its item's stock, the packets of all its lots. */
  lemma SyncCommandMatchesStorage(db: StockDb, lots: seq<Lot>, bs: seq<ProductionBatch>, today: int)
    requires WellFormed(db) && Balanced(db) && UniqueIds(bs)
    ensures var skus := SkuMap(Table(bs));
            var db2 := RunSync(db, StorageEntries(lots, bs), true, today);
            WellFormed(db2) && Balanced(db2)
            && forall s :: s != "" && HasSku(lots, skus, s) ==>
                 s in db2.items && db2.items[s].currentQuantity == SkuTotal(lots, skus, s) * 100
  {
    var skus := SkuMap(Table(bs));
    var es := StorageEntries(lots, bs);
    var stored := StoredSkus(lots, skus);
    assert DistinctSkus(es);
    RunSyncKeepsLedgerBalanced(db, es, today);
    RunSyncMatchesStorage(db, es, today);
    forall s | s != "" && HasSku(lots, skus, s)
      ensures s in RunSync(db, es, true, today).items
    {
      var k :| 0 <= k < |stored| && stored[k] == s;
      assert es[k] in es && es[k].sku == s;
    }
  }
}

=== FILE: suppliers.dfy ===
/** Supplier orders: validating a new order, the defaults the order form
    offers, the guard on removing a supplier, and the restock when an order
    is marked delivered. Item quantities are hundredths; order quantities
    are whole units. */
module Suppliers {
  import opened Base
  import opened Text
  import opened Inventory

  datatype Supplier = Supplier(id: nat, name: string, leadTimeDays: nat)

  datatype OrderStatus = Pending | Delivered

  datatype Order = Order(id: nat, supplier: nat, item: nat, quantity: nat, expectedDelivery: string, status: OrderStatus)

  datatype OrderError = QuantityNotPositive | MissingDelivery

  /** A posted field: absent, or its raw text. */
  function Posted(field: Option<string>): string {
    match field
    case None => ""
    case Some(s) => s
  }

  /** The quantity a posted field names: `int` of the stripped text, with
      text that is not an integer read as 0. */
  function PostedQuantity(field: Option<string>): (q: int)
    ensures ParseInt(Strip(Posted(field))).Some? ==> q == ParseInt(Strip(Posted(field))).value
    ensures ParseInt(Strip(Posted(field))).None? ==> q == 0
  {
    match ParseInt(Strip(Posted(field)))
    case Some(n) => n
    case None => 0
  }

  /** `SupplierOrderCreateView.post`: a quantity that is not a positive
      integer is refused first, then a blank delivery date; otherwise a
      pending order is placed. */
  function PlaceOrder(id: nat, supplier: nat, item: nat, quantity: Option<string>, expected: Option<string>)
    : (r: Result<Order, OrderError>)
    ensures r.Err? <==> PostedQuantity(quantity) <= 0 || Strip(Posted(expected)) == ""
    ensures PostedQuantity(quantity) <= 0 ==> r == Err(QuantityNotPositive)
    ensures r.Ok? ==> r.value.quantity == PostedQuantity(quantity) && r.value.quantity > 0
    ensures r.Ok? ==> r.value.expectedDelivery == Strip(Posted(expected)) && r.value.status == Pending
    ensures r.Ok? ==> r.value.supplier == supplier && r.value.item == item
  {
    var q := PostedQuantity(quantity);
    if q <= 0 then Err(QuantityNotPositive)
    else
      var when := Strip(Posted(expected));
      if when == "" then Err(MissingDelivery)
      else Ok(Order(id, supplier, item, q, when, Pending))
  }

  /** Any positive number written out is accepted as the order quantity,
      spaces around it or not. */
  lemma PaddedNumberAccepted(n: nat, when: string)
    requires n > 0 && Strip(when) != ""
    ensures PlaceOrder(0, 0, 0, Some(" " + NatToString(n) + " "), Some(when)).Ok?
    ensures PlaceOrder(0, 0, 0, Some(" " + NatToString(n) + " "), Some(when)).value.quantity == n
  {
    PaddedQuantity(n);
  }

  /** A number written out with a space on either side is read back as
      itself. */
  lemma PaddedQuantity(n: nat)
    ensures PostedQuantity(Some(" " + NatToString(n) + " ")) == n
  {
    var d := NatToString(n);
    assert IsDigit(d[0]) && IsDigit(d[|d| - 1]);
    StripPadded(" ", d, " ");
    assert Strip(Posted(Some(" " + d + " "))) == d;
    ParseIntRoundTrip(n);
    assert IntToString(n) == d;
  }

  /** A negative quantity, or zero written with a minus sign, is refused. */
  lemma NegativeRefused(n: nat, expected: Option<string>)
    ensures PlaceOrder(0, 0, 0, Some("-" + NatToString(n)), expected) == Err(QuantityNotPositive)
  {
    var d := NatToString(n);
    assert IsDigit(d[|d| - 1]);
    var neg := "-" + d;
    StripPadded("", neg, "");
    assert "" + neg + "" == neg;
    assert neg[1..] == d;
    ParseNatRoundTrip(n);
    assert ParseInt(neg) == Some(-(n as int));
  }

  /** A blank quantity is refused. */
  lemma BlankRefused(blank: string, expected: Option<string>)
    requires AllSpace(blank)
    ensures PlaceOrder(0, 0, 0, Some(blank), expected) == Err(QuantityNotPositive)
    ensures PlaceOrder(0, 0, 0, None, expected) == Err(QuantityNotPositive)
  {
    StripEmptyIffAllSpace(blank);
    StripEmptyIffAllSpace("");
  }

  /** Stripping removes exactly the surrounding spaces of a text that
      starts and ends with a non-space. */
  lemma StripPadded(a: string, m: string, b: string)
    requires AllSpace(a) && AllSpace(b)
    requires |m| > 0 && !IsSpace(m[0]) && !IsSpace(m[|m| - 1])
    ensures Strip(a + m + b) == m
  {
    assert a + m + b == a + (m + b);
    StripLeftSpaces(a, m + b);
    StripRightSpaces(m, b);
  }

  // ---- order form defaults ----

  /** The default order quantity: the item's reorder quantity, else its
      reorder threshold, else one unit (zero counts as unset). */
  function DefaultQuantity(item: InventoryItem): (q: int)
    ensures q != 0
    ensures item.reorderQuantity != 0 ==> q == item.reorderQuantity
    ensures item.reorderQuantity == 0 && item.reorderThreshold != 0 ==> q == item.reorderThreshold
    ensures item.reorderQuantity == 0 && item.reorderThreshold == 0 ==> q == 100
  {
    if item.reorderQuantity != 0 then item.reorderQuantity
    else if item.reorderThreshold != 0 then item.reorderThreshold
    else 100
  }

  /** The default delivery day: today plus the first supplier's lead time,
      a lead time of 0 counting as 7; none when there are no suppliers. */
  function DefaultDelivery(suppliers: seq<Supplier>, today: int): (d: Option<int>)
    ensures d.Some? <==> |suppliers| > 0
    ensures d.Some? ==> today < d.value
    ensures d.Some? && suppliers[0].leadTimeDays != 0 ==> d.value == today + suppliers[0].leadTimeDays
    ensures d.Some? && suppliers[0].leadTimeDays == 0 ==> d.value == today + 7
  {
    if |suppliers| == 0 then None
    else Some(today + (if suppliers[0].leadTimeDays == 0 then 7 else suppliers[0].leadTimeDays))
  }

  /** An integer posted as its own text reads back as that integer. */
  lemma PostedIntText(i: int)
    ensures PostedQuantity(Some(IntToString(i))) == i
  {
    var t := IntToString(i);
    if i < 0 {
      assert t[1..] == NatToString(-i);
    }
    assert "" + t + "" == t;
    StripPadded("", t, "");
    assert Strip(Posted(Some(t))) == t;
    ParseIntRoundTrip(i);
  }

  /** The defaults posted back unchanged, the quantity written as whole
      units: with a delivery date the order is placed exactly when the
      default is positive (a negative reorder setting is offered and then
      refused), and then for that many units; with no supplier there is no
      default date, and a positive default is refused for the missing
      delivery. */
  lemma DefaultsPostedBack(id: nat, supplier: nat, item: InventoryItem, suppliers: seq<Supplier>, today: int,
                           dateText: string)
    requires DefaultQuantity(item) % 100 == 0
    ensures var posted := Some(IntToString(DefaultQuantity(item) / 100));
            Strip(dateText) != "" ==>
              var r := PlaceOrder(id, supplier, item.id, posted, Some(dateText));
              (r.Ok? <==> DefaultQuantity(item) > 0)
              && (r.Ok? ==> r.value.quantity * 100 == DefaultQuantity(item))
    ensures var posted := Some(IntToString(DefaultQuantity(item) / 100));
            DefaultDelivery(suppliers, today).None? && DefaultQuantity(item) > 0 ==>
              PlaceOrder(id, supplier, item.id, posted, Some("")) == Err(MissingDelivery)
  {
    var units := DefaultQuantity(item) / 100;
    PostedIntText(units);
    assert Posted(Some(dateText)) == dateText;
    assert Strip(Posted(Some(""))) == "";
  }

  /** Digits followed by ".00" are not an integer to `int()`. */
  lemma DecimalTextNotInt(whole: nat)
    ensures ParseInt(NatToString(whole) + ".00") == None
  {
    var d := NatToString(whole);
    var t := d + ".00";
    assert t[0] == d[0] && IsDigit(t[0]);
    assert t[|t| - 3] == '.';
    assert ParseNat(t) == None;
  }

  /** A default shown with its two decimal places, as a stored decimal
      prints ("20.00"), is not an integer to `int()`: posted back unchanged
      it is refused as no positive quantity. */
  lemma DecimalDefaultRefused(id: nat, supplier: nat, itemId: nat, whole: nat, expected: Option<string>)
    ensures PlaceOrder(id, supplier, itemId, Some(NatToString(whole) + ".00"), expected) == Err(QuantityNotPositive)
  {
    var d := NatToString(whole);
    var t := d + ".00";
    assert "" + t + "" == t;
    assert t[0] == d[0];
    StripPadded("", t, "");
    assert Strip(Posted(Some(t))) == t;
    DecimalTextNotInt(whole);
  }

  // ---- removing a supplier ----

  /** Every order's supplier is on record. */
  predicate OrdersLinked(suppliers: map<nat, Supplier>, orders: seq<Order>) {
    forall i :: 0 <= i < |orders| ==> orders[i].supplier in suppliers
  }

  predicate HasOrders(orders: seq<Order>, supplier: nat) {
    exists i :: 0 <= i < |orders| && orders[i].supplier == supplier
  }

  datatype DeleteError = LinkedOrders

  /** The `delete` action: a supplier with orders stays; any other is
      removed. */
  function DeleteSupplier(suppliers: map<nat, Supplier>, orders: seq<Order>, id: nat)
    : (r: Result<map<nat, Supplier>, DeleteError>)
    ensures r.Err? <==> HasOrders(orders, id)
    ensures r.Ok? ==> r.value == suppliers - {id}
  {
    if HasOrders(orders, id) then Err(LinkedOrders) else Ok(suppliers - {id})
  }

  /** Removing a supplier never leaves an order without its supplier. */
  lemma DeleteKeepsOrdersLinked(suppliers: map<nat, Supplier>, orders: seq<Order>, id: nat)
    requires OrdersLinked(suppliers, orders)
    requires DeleteSupplier(suppliers, orders, id).Ok?
    ensures OrdersLinked(DeleteSupplier(suppliers, orders, id).value, orders)
  {
    forall i | 0 <= i < |orders|
      ensures orders[i].supplier in suppliers - {id}
    {
      assert orders[i].supplier != id;
    }
  }

  // ---- delivery ----

  /** `SupplierOrderUpdateView.post` as written: every post of the status
      "delivered" adds the order's quantity to the item's stock, even when
      the order was already delivered. */
  function SetStatusAsWritten(order: Order, status: OrderStatus, item: InventoryItem): (r: (Order, InventoryItem))
    ensures r.0 == order.(status := status)
    ensures status == Delivered ==> r.1 == item.(currentQuantity := item.currentQuantity + order.quantity * 100)
    ensures status == Pending ==> r.1 == item
  {
    if status == Delivered then (order.(status := status), item.(currentQuantity := item.currentQuantity + order.quantity * 100))
    else (order.(status := status), item)
  }

  /** Posting "delivered" twice restocks twice. */
  lemma RedeliveryRestocksTwice(order: Order, item: InventoryItem)
    requires order.status == Pending && order.quantity > 0
    ensures var (o1, i1) := SetStatusAsWritten(order, Delivered, item);
            var (o2, i2) := SetStatusAsWritten(o1, Delivered, i1);
            i2.currentQuantity == item.currentQuantity + 2 * order.quantity * 100
            && i2.currentQuantity != item.currentQuantity + order.quantity * 100
  {}

  /** The status change with the restock made only when the order becomes
      delivered. */
  function SetStatus(order: Order, status: OrderStatus, item: InventoryItem): (r: (Order, InventoryItem))
    ensures r.0 == order.(status := status)
    ensures r.1.currentQuantity - item.currentQuantity == (if order.status == Pending && status == Delivered then order.quantity * 100 else 0)
    ensures r.1 == item.(currentQuantity := r.1.currentQuantity)
  {
    if order.status == Pending && status == Delivered then
      (order.(status := status), item.(currentQuantity := item.currentQuantity + order.quantity * 100))
    else (order.(status := status), item)
  }

  /** Posting the same status again changes nothing, so an order restocks
      its item once however often it is marked delivered. */
  lemma SetStatusIdempotent(order: Order, status: OrderStatus, item: InventoryItem)
    ensures var (o1, i1) := SetStatus(order, status, item);
            SetStatus(o1, status, i1) == (o1, i1)
  {}

  /** On the first delivery both definitions agree. */
  lemma FirstDeliveryAgrees(order: Order, item: InventoryItem)
    requires order.status == Pending
    ensures SetStatus(order, Delivered, item) == SetStatusAsWritten(order, Delivered, item)
  {}
}

=== FILE: text.dfy ===
/** Text helpers the views rely on: Python's `str.strip`, decimal rendering
    of integers, `int(str)` parsing, and joining/splitting lines. */
module Text {
  import opened Base

  /** The characters Python's `str.isspace` accepts. */
  predicate IsSpace(c: char) {
    var k := c as int;
    (9 <= k <= 13) || (28 <= k <= 32) || k == 0x85 || k == 0xA0 || k == 0x1680
    || (0x2000 <= k <= 0x200A) || k == 0x2028 || k == 0x2029 || k == 0x202F
    || k == 0x205F || k == 0x3000
  }

  predicate AllSpace(s: string) {
    forall i :: 0 <= i < |s| ==> IsSpace(s[i])
  }

  function StripLeft(s: string): (r: string)
    ensures |r| <= |s| && r == s[|s| - |r|..]
    ensures |r| > 0 ==> !IsSpace(r[0])
    ensures AllSpace(s[..|s| - |r|])
  {
    if |s| > 0 && IsSpace(s[0]) then
      var r := StripLeft(s[1..]);
      var k := |s| - |r|;
      assert s[..k] == [s[0]] + s[1..][..k - 1];
      r
    else s
  }

  function StripRight(s: string): (r: string)
    ensures |r| <= |s| && r == s[..|r|]
    ensures |r| > 0 ==> !IsSpace(r[|r| - 1])
    ensures AllSpace(s[|r|..])
  {
    if |s| > 0 && IsSpace(s[|s| - 1]) then
      var r := StripRight(s[..|s| - 1]);
      assert s[|r|..] == s[..|s| - 1][|r|..] + [s[|s| - 1]];
      r
    else s
  }

  /** `str.strip()`. */
  function Strip(s: string): string { StripRight(StripLeft(s)) }

  /** `s.strip() == ''` holds exactly when every character is whitespace. */
  lemma StripEmptyIffAllSpace(s: string)
    ensures Strip(s) == "" <==> AllSpace(s)
  {
    var l := StripLeft(s);
    if AllSpace(s) {
      assert AllSpace(s[|s| - |l|..]);
    } else {
      var i :| 0 <= i < |s| && !IsSpace(s[i]);
      var k := |s| - |l|;
      assert forall j :: 0 <= j < k ==> IsSpace(s[j]) by {
        forall j | 0 <= j < k ensures IsSpace(s[j]) { assert s[..k][j] == s[j]; }
      }
      assert i >= k;
      assert l[i - (|s| - |l|)] == s[i];
      var r := StripRight(l);
      assert !AllSpace(l);
    }
  }

  /** Leading whitespace is exactly what `StripLeft` removes. */
  lemma {:induction false} StripLeftSpaces(a: string, m: string)
    requires AllSpace(a)
    requires |m| > 0 ==> !IsSpace(m[0])
    ensures StripLeft(a + m) == m
  {
    if |a| == 0 {
      assert a + m == m;
    } else {
      assert (a + m)[1..] == a[1..] + m;
      StripLeftSpaces(a[1..], m);
    }
  }

  /** Trailing whitespace is exactly what `StripRight` removes. */
  lemma {:induction false} StripRightSpaces(m: string, b: string)
    requires AllSpace(b)
    requires |m| > 0 ==> !IsSpace(m[|m| - 1])
    ensures StripRight(m + b) == m
  {
    if |b| == 0 {
      assert m + b == m;
    } else {
      var n := |b| - 1;
      assert (m + b)[..|m + b| - 1] == m + b[..n];
      StripRightSpaces(m, b[..n]);
    }
  }

  // ---- decimal rendering and parsing ----

  function DigitChar(d: int): char
    requires 0 <= d < 10
  {
    "0123456789"[d]
  }

  predicate IsDigit(c: char) { '0' <= c <= '9' }

  function DigitValue(c: char): int
    requires IsDigit(c)
  {
    c as int - '0' as int
  }

  lemma DigitRoundTrip(d: int)
    requires 0 <= d < 10
    ensures IsDigit(DigitChar(d)) && DigitValue(DigitChar(d)) == d
  {}

  /** Python's `str(n)` for a non-negative integer. */
  function NatToString(n: nat): (s: string)
    ensures |s| > 0 && forall i :: 0 <= i < |s| ==> IsDigit(s[i])
  {
    if n < 10 then [DigitChar(n)] else NatToString(n / 10) + [DigitChar(n % 10)]
  }

  /** Python's `str(i)`, and so the `{value}` of an f-string, for an integer. */
  function IntToString(i: int): string {
    if i < 0 then "-" + NatToString(-i) else NatToString(i)
  }

  /** The value of a non-empty string of decimal digits. */
  function DigitsValue(s: string): nat
    requires forall i :: 0 <= i < |s| ==> IsDigit(s[i])
  {
    if |s| == 0 then 0 else DigitsValue(s[..|s| - 1]) * 10 + DigitValue(s[|s| - 1])
  }

  function ParseNat(s: string): Option<nat> {
    if |s| > 0 && forall i :: 0 <= i < |s| ==> IsDigit(s[i]) then Some(DigitsValue(s)) else None
  }

  /** `int(s)` for an already stripped string: an optional sign and decimal
      digits; `None` where Python raises ValueError. */
  function ParseInt(s: string): Option<int> {
    if |s| > 0 && s[0] == '-' then
      match ParseNat(s[1..])
      case Some(n) => var v: int := n; Some(-v)
      case None => None
    else if |s| > 0 && s[0] == '+' then
      match ParseNat(s[1..])
      case Some(n) => Some(n)
      case None => None
    else
      match ParseNat(s)
      case Some(n) => Some(n)
      case None => None
  }

  lemma {:induction false} NatRoundTrip(n: nat)
    ensures DigitsValue(NatToString(n)) == n
  {
    if n < 10 {
      DigitRoundTrip(n);
    } else {
      var s := NatToString(n);
      NatRoundTrip(n / 10);
      assert s[..|s| - 1] == NatToString(n / 10);
      DigitRoundTrip(n % 10);
    }
  }

  lemma ParseNatRoundTrip(n: nat)
    ensures ParseNat(NatToString(n)) == Some(n)
  {
    NatRoundTrip(n);
  }

  /** Rendering an integer and parsing it back gives the integer. */
  lemma ParseIntRoundTrip(i: int)
    ensures ParseInt(IntToString(i)) == Some(i)
  {
    var s := IntToString(i);
    if i < 0 {
      var digits := NatToString(-i);
      assert s[1..] == digits;
      ParseNatRoundTrip(-i);
    } else {
      ParseNatRoundTrip(i);
      assert IsDigit(s[0]);
    }
  }

  /** Distinct numbers render as distinct strings. */
  lemma NatToStringInjective(a: nat, b: nat)
    requires NatToString(a) == NatToString(b)
    ensures a == b
  {
    NatRoundTrip(a);
    NatRoundTrip(b);
  }

  // ---- lines ----

  /** `sep.join(parts)` for a one-character separator. */
  function Join(parts: seq<string>, sep: char): string {
    if |parts| == 0 then ""
    else if |parts| == 1 then parts[0]
    else parts[0] + [sep] + Join(parts[1..], sep)
  }

  /** `s.split(sep)` for a one-character separator. */
  function Split(s: string, sep: char): (parts: seq<string>)
    ensures |parts| > 0
  {
    if |s| == 0 then [""]
    else
      var rest := Split(s[1..], sep);
      if s[0] == sep then [""] + rest
      else [[s[0]] + rest[0]] + rest[1..]
  }

  lemma {:induction false} SplitPrefix(a: string, b: string, sep: char)
    requires sep !in a
    ensures Split(a + [sep] + b, sep) == [a] + Split(b, sep)
  {
    if |a| == 0 {
      assert (a + [sep] + b)[1..] == b;
    } else {
      assert (a + [sep] + b)[1..] == a[1..] + [sep] + b;
      SplitPrefix(a[1..], b, sep);
      assert [a[0]] + a[1..] == a;
    }
  }

  lemma {:induction false} SplitNoSep(a: string, sep: char)
    requires sep !in a
    ensures Split(a, sep) == [a]
  {
    if |a| > 0 {
      SplitNoSep(a[1..], sep);
      assert [a[0]] + a[1..] == a;
    }
  }

  /** Splitting a joined text on its separator recovers the parts, provided
      no part contains the separator. */
  lemma {:induction false} SplitJoin(parts: seq<string>, sep: char)
    requires |parts| > 0
    requires forall i :: 0 <= i < |parts| ==> sep !in parts[i]
    ensures Split(Join(parts, sep), sep) == parts
  {
    if |parts| == 1 {
      SplitNoSep(parts[0], sep);
    } else {
      SplitJoin(parts[1..], sep);
      SplitPrefix(parts[0], Join(parts[1..], sep), sep);
      assert [parts[0]] + parts[1..] == parts;
    }
  }
}
